=== FILE: README.md ===
# A verified model of a small Rust path tracer's core

This project models the geometric and bookkeeping core of a path tracer
written in Rust after the "Ray Tracing in One Weekend" books. It proves
properties of that model in Dafny. The model covers:

- the typed vector layer: `Vec3`, and the `Pos`, `Dir` and `Col` wrappers
  around it;
- rays;
- the sphere and moving-sphere intersection rules;
- the closest-hit scan of a `HitableList`;
- bounding boxes with their slab test, and the bounding volume hierarchy:
  its recursive build and its traversal;
- the per-category hit/miss counters (`Stats`) and the recorder that
  fills them;
- the three materials (Lambertian, metal, dielectric) with `reflect`,
  `refract` and Schlick's approximation;
- textures: constant, checker and Perlin noise, with the permutation
  tables and the lattice index arithmetic;
- the pixel accumulators `Pixbuf` (module `Grids`) and `Image` (module
  `Images`, the grids whose pixel vector holds exactly `w h` pixels).

Modelling choices:

- Floating point (`f32`) becomes `real`, and arithmetic is exact.
- `sqrt` and `sin` are function-valued parameters. A lemma that needs a
  square root to be exact says so in its `requires`, with
  `Numerics.SqrtAt(sqrt, x)`: `sqrt(x) >= 0` and `sqrt(x)² = x`. The
  sphere lemmas ask this only where `hit` takes the root, that is when
  the discriminant is positive (`Spheres.ExactRoot`). A ray whose line
  misses a sphere therefore satisfies them for every `sqrt`. `floor` is
  Dafny's `Floor`.
- Every random draw is a parameter:
  - the unit-ball sample of a material;
  - the dielectric's reflect-or-refract draw;
  - the shuffle indices of `generate_perm`;
  - the gradient draws of `ranvec`;
  - the axis chosen at each split of the hierarchy, read from a
    `draw: nat -> Axis` stream.
- The trait objects become closed datatypes:
  - `Hitable` = `Sphere | Moving | List | Node | Recorder`;
  - `Material` = `Lambertian | Metal | Dielectric`;
  - `Texture` = `Constant | Checker | Noise`.

The program's files disagree on whether `hit` takes a context. The model
uses the context-threading shape of src/hitable/sphere.rs and
src/hitable/stats.rs: `Hitables.Hit` returns the answer together with the
updated `Stats`. Two lemmas separate these concerns:

- the answer never depends on the context (`Hitables.HitIgnoresStats`);
- only a recorder writes to the context (`Hitables.UnrecordedKeepsStats`).

The main results:

- the list scan returns the nearest answer of its items, the earliest among
  equally near ones (`Hitables.ListFindsNearest`);
- the hierarchy build keeps the multiset of leaves for every axis choice,
  and every node's box contains its children's boxes (`Bvh.Build`,
  `Bvh.LeavesInsideBox`);
- a hierarchy built from spheres with nonnegative radii finds a hit exactly
  when the flat list of the same spheres does, at the same time
  (`BvhHits.BvhMatchesList`). This holds for every ray, including rays
  whose line misses some of the spheres. The proof rests on the slab test being
  conservative (`BoundingBoxes.HitConservative`).

Two details of the source are easy to misread, and the model follows the
code in both:

- Each axis of the slab test narrows the caller's original window
  `[t_min, t_max]`, not a window carried from axis to axis. The `let` at
  src/hitable/bounding_box.rs:51-52 shadows the parameters only inside the
  loop body. `BoundingBoxes.SlabAcceptsMiss` exhibits a ray the test
  accepts although it misses the box.
- A node picks the left answer only when it is strictly nearer, so on a tie
  the right child wins (src/hitable/bounding_box.rs:155-159).

## Model

| member | source | states |
|---|---|---|
| Vectors.AddAssign | src/vec3.rs:172-178 | the componentwise `+=` loop gives the same vector as `+` |
| Vectors.SubAssign | src/vec3.rs:180-186 | the componentwise `-=` loop gives the same vector as `-` |
| Vectors.MulAssign | src/vec3.rs:188-194 | the componentwise `*=` loop gives the same vector as the componentwise product |
| Vectors.DivAssign | src/vec3.rs:196-202 | the componentwise `/=` loop gives the same vector as the componentwise quotient, for a divisor with no zero component |
| Vectors.MulAssignScalar | src/vec3.rs:204-210 | the `*= t` loop gives the same vector as `v * t` |
| Vectors.DivAssignScalar | src/vec3.rs:212-218 | the `/= t` loop gives the same vector as `v / t`, for `t != 0` |
| Vectors.ZeroAndNew | src/vec3.rs:26-32 | `zero()` has three zero components and `new(a, b, c)` stores `a, b, c` at indices 0, 1, 2 |
| Vectors.DotExample | src/vec3.rs:48-50 | (1, 2, 3)·(4, 5, 6) = 32 |
| Vectors.CrossXY | src/vec3.rs:52-58 | x × y = z |
| Vectors.CrossYZ | src/vec3.rs:52-58 | y × z = x |
| Vectors.CrossZX | src/vec3.rs:52-58 | z × x = y |
| Vectors.CrossAnticommutesAndIsOrthogonal | src/vec3.rs:52-58 | `b × a = -(a × b)`, and `a × b` is orthogonal to both `a` and `b` |
| Vectors.SquaredLengthNonNegative | src/vec3.rs:36-38 | the squared length is the sum of squared components, is never negative, and is zero only for the zero vector |
| Vectors.NegFlips | src/vec3.rs:94-100 | negation flips every component and is an involution |
| Vectors.AddSubRoundTrip | src/vec3.rs:116-130 | `+` and `-` act componentwise, and each undoes the other |
| Vectors.ScalarSidesAgree | src/vec3.rs:148-170 | `t * v == v * t`, and `(v * t) / t == v` for `t != 0` |
| Vectors.DotBilinear | src/vec3.rs:48-50 | the dot product is symmetric and linear in each argument |
| Vectors.CauchySchwarz | src/vec3.rs:48-50 | `(a·b)² <= |a|² |b|²` |
| Dirs.AddAssign | src/vec3/dir.rs:153-157 | `+=` on directions agrees with `+` |
| Dirs.SubAssign | src/vec3/dir.rs:159-163 | `-=` on directions agrees with `-` |
| Dirs.MulAssign | src/vec3/dir.rs:165-169 | `*=` on directions agrees with the componentwise product |
| Dirs.DivAssign | src/vec3/dir.rs:171-175 | `/=` on directions agrees with the componentwise quotient |
| Dirs.MulAssignScalar | src/vec3/dir.rs:177-181 | `*= t` on directions agrees with `d * t` |
| Dirs.DivAssignScalar | src/vec3/dir.rs:183-187 | `/= t` on directions agrees with `d / t` |
| Dirs.Accessors | src/vec3/dir.rs:15-25 | `x()`, `y()`, `z()` return components 0, 1, 2 of `new(x, y, z)` |
| Dirs.AddSubComponentwise | src/vec3/dir.rs:91-111 | `+` and `-` are componentwise, `d - d` is zero and `(a + b) - b == a` |
| Dirs.ScalarCommutes | src/vec3/dir.rs:129-151 | `t * d == d * t`, with every component scaled |
| Dirs.NegFlips | src/vec3/dir.rs:69-75 | negating a direction flips every component, and twice gives it back |
| Dirs.DotSymmetric | src/vec3/dir.rs:41-43 | the dot product is symmetric and is the sum of componentwise products |
| Positions.AddAssignDir | src/vec3/pos.rs:156-160 | `p += d` agrees with `p + d` |
| Positions.SubAssignDir | src/vec3/pos.rs:162-166 | `p -= d` agrees with `p - d` |
| Positions.MulAssign | src/vec3/pos.rs:168-172 | `*=` on points agrees with the componentwise product |
| Positions.DivAssign | src/vec3/pos.rs:174-178 | `/=` on points agrees with the componentwise quotient |
| Positions.MulAssignScalar | src/vec3/pos.rs:180-184 | `*= t` on points agrees with `p * t` |
| Positions.DivAssignScalar | src/vec3/pos.rs:186-190 | `/= t` on points agrees with `p / t` |
| Positions.ZeroIsOrigin | src/vec3/pos.rs:8-10 | `Pos::zero()` is the origin (0, 0, 0) |
| Positions.Displacement | src/vec3/pos.rs:108-114 | `p - q` is the direction of componentwise differences, `q + (p - q) == p`, and `p - p` is the zero direction |
| Positions.TranslateRoundTrip | src/vec3/pos.rs:92-106 | `p + d` is componentwise, `(p + d) - d == p`, `(p - d) + d == p` and `(p + d) - p == d` |
| Positions.NegFlips | src/vec3/pos.rs:70-76 | negating a point flips every component |
| Colours.AddAssign | src/vec3/col.rs:143-147 | `+=` on colours agrees with `+` |
| Colours.SubAssign | src/vec3/col.rs:149-153 | `-=` on colours agrees with `-` |
| Colours.MulAssign | src/vec3/col.rs:155-159 | `*=` on colours agrees with the channelwise product |
| Colours.DivAssign | src/vec3/col.rs:161-165 | `/=` on colours agrees with the channelwise quotient |
| Colours.MulAssignScalar | src/vec3/col.rs:167-171 | `*= t` on colours agrees with `c * t` |
| Colours.DivAssignScalar | src/vec3/col.rs:173-177 | `/= t` on colours agrees with `c / t` |
| Colours.Channels | src/vec3/col.rs:15-25 | `r()`, `g()`, `b()` return channels 0, 1, 2 of `new(r, g, b)` |
| Colours.ChannelwiseAlgebra | src/vec3/col.rs:87-109 | `+` and `*` act channel by channel; white is the unit of `*` and black the unit of `+` |
| Colours.ScalarChannels | src/vec3/col.rs:119-141 | `t * c == c * t`, `c / t` divides each channel, and `(c * t) / t == c` |
| Rays.New | src/ray.rs:11-25 | the accessors return the constructor's origin, direction and time |
| Rays.PointAtIsAffine | src/ray.rs:27-29 | `point_at(t) - origin = t·direction`, `point_at(0) = origin`, `point_at(t + s) = point_at(t) + s·direction` |
| Perlin.GeneratePerm | src/texture/perlin.rs:5-9 | whatever the shuffle draws, the result is a permutation of 0..=255 |
| Perlin.PermutationEntries | src/texture/perlin.rs:5-9 | a permutation of 0..=255 has 256 entries, each below 256, and each value appears exactly once |
| Perlin.Ranvec | src/texture/perlin.rs:20-31 | `ranvec` has 256 entries, entry `k` the unit vector of the `k`-th raw gradient |
| Perlin.Interp | src/texture/perlin.rs:40-67 | the triple loop over the corners sums the eight corner terms, corner `(i, j, k)` taking gradient `c[4i + 2j + k]` |
| Perlin.CornerNumbering | src/texture/perlin.rs:48-51 | corner number `4i + 2j + k` is the corner `(i, j, k)` |
| Perlin.SmoothEnds | src/texture/perlin.rs:41-43 | the smoothstep `u²(3 - 2u)` maps 0 to 0 and 1 to 1 |
| Perlin.WeightsSumToOne | src/texture/perlin.rs:57-59 | the two side weights of an axis sum to 1 |
| Perlin.InterpAtCorner | src/texture/perlin.rs:40-67 | `perlin_interp(c, 0, 0, 0) = 0` whatever the corner gradients |
| Perlin.AsUsize | src/texture/perlin.rs:90-92 | `as usize` keeps a value that fits unchanged and never yields more than `usize::MAX` |
| Perlin.LatticeIndex | src/texture/perlin.rs:90-92 | `(i + d) & 255` on a 64-bit `usize`, with the addition wrapping at 2^64 as in a release build, lies in 0..=255 and is the low byte of `i + d` |
| Perlin.Xor3 | src/texture/perlin.rs:94 | `px ^ py ^ pz` of three table entries is below 256, so it indexes `ranvec` in bounds |
| Perlin.XorInByte | src/texture/perlin.rs:94 | xor of three bytes is the same computed in 8 or in 64 bits |
| Perlin.CellGradients | src/texture/perlin.rs:87-97 | the lookup gathers exactly eight corner gradients, and every one is an entry of `ranvec`: the masked lattice indices and their xor stay inside the 256-entry tables, so no lookup goes out of bounds |
| Perlin.NoiseOnLattice | src/texture/perlin.rs:69-100 | the noise is zero at every lattice point |
| Perlin.NoiseValueChannels | src/texture/perlin.rs:114-116 | every channel of the noise texture is `0.5 (1 + noise(scale p))` |
| Textures.ConstantEverywhere | src/texture.rs:36-41 | a constant texture returns its colour for every `u, v, p` |
| Textures.CheckerParity | src/texture.rs:55-58 | the checker picks `odd` exactly when the product of the three sines is negative (an odd number of negative factors and no zero one), otherwise `even`, and samples it at the same `u, v, p` |
| Textures.CheckerOfOne | src/texture.rs:55-59 | a checker whose two squares are the same texture is that texture |
| Materials.RandomInUnitSphere | src/material.rs:23-31 | a returned sample has squared length below 1 and is the first candidate that does; there is none only if every candidate is rejected |
| Materials.ReflectFlipsNormal | src/material.rs:33-35 | for a unit `n`, `reflect(v, n)·n = -(v·n)` |
| Materials.ReflectPreservesLength | src/material.rs:33-35 | for a unit `n`, `|reflect(v, n)|² = |v|²` |
| Materials.ReflectInvolution | src/material.rs:33-35 | for a unit `n`, reflecting twice gives back `v` |
| Materials.ReflectTangent | src/material.rs:33-35 | `v·n = 0` implies `reflect(v, n) = v` |
| Lambertians.Scatter | src/material/lambertian.rs:16-24 | always scatters, from `p` at the incoming ray's time, attenuated by the albedo texture at `(0, 0, p)` |
| Lambertians.DirectionIsNormalPlusSample | src/material/lambertian.rs:17-18 | the scattered direction `target - p` is `normal + sample` |
| Lambertians.LeavesAboveSurface | src/material/lambertian.rs:17-18 | with a unit normal and a sample inside the unit ball, the direction points out of the surface |
| Metals.Scatter | src/material/metal.rs:17-32 | scatters exactly when `reflect(unit(d), n) + fuzz·sample` points out of the surface; then attenuation is the albedo, the origin is `p`, and the direction is that vector |
| Metals.PerfectMirrorReflects | src/material/metal.rs:17-32 | with no fuzz, a unit normal and a ray heading into the surface, the metal always scatters |
| Dielectrics.Refract | src/material/dielectric.rs:10-19 | no refracted ray exactly when `1 - η²(1 - dt²) <= 0`; the refracted direction itself is stated by `Dielectrics.RefractSnell` |
| Dielectrics.Scatter | src/material/dielectric.rs:33-64 | always scatters with white attenuation, from `p` at the incoming ray's time; the refracted ray is taken exactly when refraction succeeds and the draw exceeds Schlick's probability, otherwise the mirror ray |
| Dielectrics.SidesOfTheSurface | src/material/dielectric.rs:36-48 | a ray leaving through the surface uses `-normal` and `η = ref_idx`; any other uses `normal` and `η = 1/ref_idx` |
| Dielectrics.TotalInternalReflection | src/material/dielectric.rs:49-63 | under total internal reflection the ray is always the mirror ray, whatever the draw |
| Dielectrics.SchlickEnds | src/material/dielectric.rs:21-25 | `schlick(1, n) = ((1 - n)/(1 + n))²` and `schlick(0, n) = 1` |
| Dielectrics.RefractSnell | src/material/dielectric.rs:10-19 | Snell's law: for a unit normal and exact roots, the refracted direction is a unit vector on the far side of the surface, its tangent part is `η` times the incoming unit direction's, and its squared cosine is `1 - η² sin²θi` |
| Dielectrics.RefractExample | src/material/dielectric.rs:85-98 | the worked case: `(1/2, √3/2, 0)` through normal `(0, -1, 0)` with `η = √2` leaves along `(√2/2, √2/2, 0)` |
| Dielectrics.RefractNoChange | src/material/dielectric.rs:72-83 | with `η = 1`, a unit normal and `dt < 0`, `refract` returns `unit(v)` |
| Scattering.Scatter | src/material.rs:19-21 | `scatter` on any material: only a metal absorbs, and only when its ray would point into the surface; a scattered ray leaves from the hit point |
| BoundingBoxes.Surrounding | src/hitable/bounding_box.rs:21-37 | the surrounding box contains both boxes and is contained in every box that contains both |
| BoundingBoxes.SurroundingAlgebra | src/hitable/bounding_box.rs:21-37 | `surrounding` is commutative, associative and idempotent |
| BoundingBoxes.HitIffEveryAxis | src/hitable/bounding_box.rs:40-58 | the slab test fails exactly when some axis has `max(t0, t_min) >= min(t1, t_max)` against the original window, with `t0, t1` swapped when `1/d < 0` |
| BoundingBoxes.HitConservative | src/hitable/bounding_box.rs:40-58 | the test never rejects a solid box that the ray passes through strictly inside the window |
| BoundingBoxes.SlabAcceptsMiss | src/hitable/bounding_box.rs:51-52 | because each axis clips the original window, the test accepts a ray that misses the box |
| Counters.New | src/hitable/stats.rs:16-20 | a new `Stats` has no categories |
| Counters.Hit | src/hitable/stats.rs:22-28 | `hit(cat)` adds exactly one hit to `cat`, creating its record if absent; misses and other categories are unchanged |
| Counters.Miss | src/hitable/stats.rs:22-32 | `miss(cat)` adds exactly one miss to `cat`; nothing else changes |
| Counters.Merge | src/hitable/stats.rs:35-43 | `a += b` adds hits and misses per category of `b`; categories only in `a` keep their records and categories only in `b` are inserted |
| Counters.AddAssign | src/hitable/stats.rs:35-43 | the loop over `b`'s records, in any order, produces `Merge(a, b)` |
| Counters.MergeStep | src/hitable/stats.rs:38-41 | one iteration of the loop, adding the record of one more category of `b` into its entry, extends the merge by exactly that category |
| Counters.MergeIdentity | src/hitable/stats.rs:35-43 | merging with an empty `Stats`, on either side, changes nothing |
| Counters.MergeCommutes | src/hitable/stats.rs:35-43 | the merged counts do not depend on the order of the operands |
| Counters.MergeAssociates | src/hitable/stats.rs:35-43 | the merged counts do not depend on the grouping of merges |
| Counters.HitMissCommute | src/hitable/stats.rs:26-32 | counting a hit and counting a miss commute |
| Spheres.HitAt | src/hitable/sphere.rs:31-50 | no hit when `b² - ac <= 0`; a hit lies strictly in the window, is the near root when that is in the window and the far root otherwise, and carries `hit_record` at that time |
| Spheres.DistanceAlongRay | src/hitable/sphere.rs:34-38 | `|point_at(t) - center|² - r²` is the quadratic `a t² + 2 b t + c` whose coefficients `hit` computes |
| Spheres.HitOnSurface | src/hitable/sphere.rs:34-47 | with a square root exact where `hit` takes it, a returned hit point lies on the sphere: `|p - center|² = r²` |
| Spheres.HitIsEarliest | src/hitable/sphere.rs:40-47 | with a square root exact where `hit` takes it, no time in the window puts the ray on the sphere earlier than the returned one |
| Spheres.MissIsMiss | src/hitable/sphere.rs:38-49 | with a square root exact where `hit` takes it and a nonzero discriminant (negative included), a miss means no time in the window puts the ray on the sphere |
| Spheres.DiscriminantPositive | src/hitable/sphere.rs:35-39 | a positive discriminant implies a moving ray (`a > 0`) and a nonzero radius, so the roots and the normal are defined |
| Spheres.BoxOrientation | src/hitable/sphere.rs:52-58 | the box `[center - r, center + r]` is ordered on every axis exactly when `r >= 0`, and solid exactly when `r > 0` |
| Spheres.HitInsideBox | src/hitable/sphere.rs:52-58 | every hit of a sphere with `r >= 0` lies inside its bounding box |
| Spheres.Narrowing | src/hitable/sphere.rs:39-47 | for every discriminant, with a square root exact where `hit` takes it, asking with an earlier upper bound gives the same hit when it comes before the bound, and nothing otherwise |
| MovingSpheres.CenterAtKeyTimes | src/hitable/moving_sphere.rs:32-35 | `center(time0) = center0` and `center(time1) = center1` when `time0 != time1` |
| MovingSpheres.CenterIsAffine | src/hitable/moving_sphere.rs:32-35 | at a fraction `s` of the way from `time0` to `time1`, the centre is the same fraction of the way from `center0` to `center1` |
| MovingSpheres.CenterAtMidpoint | src/hitable/moving_sphere.rs:32-35 | the midpoint time maps to the midpoint of the two centres |
| MovingSpheres.Hit | src/hitable/moving_sphere.rs:37-68 | the sphere's rules apply at the centre of the ray's time: discriminant rejection, strict window, near root first, normal `(p - center(ray.time))/radius` |
| MovingSpheres.SnapshotAtRayTime | src/hitable/moving_sphere.rs:51-68 | a moving sphere is hit exactly as the static sphere at its centre of the ray's time |
| MovingSpheres.StationaryIsSphere | src/hitable/moving_sphere.rs:51-68 | a moving sphere whose centres coincide is hit like the static sphere, whatever the ray's time |
| Hitables.Hit | src/hitable/list.rs:15-28 | whatever the tree, a returned time lies strictly inside `(t_min, t_max)` |
| Hitables.Nearer | src/hitable/bounding_box.rs:153-163 | the node returns a hit when either child does, no farther than either child's, and the right one on a tie |
| Hitables.NodeOutsideBox | src/hitable/bounding_box.rs:149-166 | when the slab test fails, the node answers nothing and records nothing |
| Hitables.EmptyListMisses | src/hitable/list.rs:15-28 | an empty list answers nothing and records nothing |
| Hitables.Scan | src/hitable/list.rs:17-25 | each item is asked with the time found so far as its upper bound, so the answer only moves earlier and, once found, a hit is never lost |
| Hitables.ListFindsNearest | src/hitable/list.rs:15-28 | when every item honours a narrowed window, the list returns the nearest of its items' answers, the earliest item among equally near ones, and nothing exactly when no item hits |
| Hitables.BoundingBoxOf | src/hitable/list.rs:30-41 | a list has no box when it is empty or some item has none; otherwise its box contains every item's box and lies in every box that contains them all; a moving sphere has none, a node answers its stored bounds and a recorder its wrapped object's box |
| Hitables.Fold | src/hitable/list.rs:33-38 | the `try_fold` of `surrounding` fails exactly when some remaining item has no box and otherwise is the least box containing the start and every remaining item's box |
| Hitables.HitIgnoresStats | src/hitable/sphere.rs:33 | the answer of any tree does not depend on the context passed in |
| Hitables.UnrecordedKeepsStats | src/hitable/sphere.rs:33 | a tree without a recorder hands the context back unchanged |
| Hitables.RecorderCounts | src/hitable/stats.rs:56-65 | a recorder returns the wrapped answer unchanged and records exactly one hit (on an answer) or one miss (on none) under its category; no other category changes |
| Hitables.SphereNarrowable | src/hitable/sphere.rs:39-47 | with a square root exact where `hit` takes it, a sphere answers a narrowed window by cutting off its full answer |
| Hitables.MovingNarrowable | src/hitable/moving_sphere.rs:57-65 | likewise for a moving sphere at the ray's time |
| Hitables.RecorderNarrowable | src/hitable/stats.rs:57-65 | a recorder narrows as the hitable it wraps |
| Nearest.RunIsNearest | src/hitable/list.rs:19-25 | replacing the answer so far by each answer that comes before it ends on the nearest answer, the first among equally near ones |
| Nearest.NearestIsMinimal | src/hitable/list.rs:15-28 | the nearest answer is a hit exactly when some answer is, and no answer is nearer |
| Bvh.Sort | src/hitable/bounding_box.rs:129 | sorting by a key permutes the list and orders it by that key |
| Bvh.InsertSorted | src/hitable/bounding_box.rs:129 | inserting into a sorted list keeps it sorted |
| Bvh.Join | src/hitable/bounding_box.rs:135-142 | a node exists exactly when both children have a box; it keeps the children in order and its bounds contain both children's boxes |
| Bvh.Build | src/hitable/bounding_box.rs:111-144 | one element is returned unwrapped; two become a node with left = first and right = second; the build fails only on a missing box; every result keeps the multiset of leaves and bounds every child |
| Bvh.Split | src/hitable/bounding_box.rs:126-134 | for three or more elements the build always succeeds; the left subtree holds `n/2` elements and the right the other `n - n/2`, together exactly the list's elements, namely the first `n/2` and the rest of the list sorted on the drawn axis |
| Bvh.SplitOrdered | src/hitable/bounding_box.rs:127-130 | every left leaf's box minimum on the drawn axis is at most every right leaf's |
| Bvh.LeavesInsideBox | src/hitable/bounding_box.rs:135-137 | every leaf of a built tree has a box, contained in the root's bounds |
| BvhHits.ToHitable | src/hitable/bounding_box.rs:138-142 | a built tree becomes `Node`s whose bounding box is the tree's box |
| BvhHits.MissedBoxMissesSphere | src/hitable/bounding_box.rs:150 | with a square root exact where `hit` takes it, a sphere with `r >= 0` inside a box the ray misses is not hit |
| BvhHits.TreeEarliest | src/hitable/bounding_box.rs:149-167 | a hierarchy of spheres with nonnegative radii answers a nearest hit over all of its leaves |
| BvhHits.ListEarliest | src/hitable/list.rs:15-28 | the list over the same spheres answers a nearest hit over its items |
| BvhHits.BvhMatchesList | src/hitable/bounding_box.rs:111-167 | for every ray, the hierarchy built from spheres with nonnegative radii finds a hit exactly when the flat list does, at the same time |
| Grids.IndexInBounds | src/pixbuf.rs:18-27 | for `x < w` and `y < h`, `x + w y < w h` |
| Grids.IndexInjective | src/pixbuf.rs:18-27 | distinct cells inside the width have distinct indices |
| Grids.New | src/pixbuf.rs:10-16 | a new buffer has `w h` pixels |
| Grids.NewIsBlack | src/pixbuf.rs:10-16 | every cell of a new buffer is black |
| Grids.GetAfterPut | src/pixbuf.rs:18-28 | `get` after `put` returns the colour written at that cell and the old colour at every other cell |
| Grids.Merge | src/pixbuf.rs:35-41 | `add_assign` fails unless the widths and the heights are equal, and keeps the dimensions |
| Grids.AddAssign | src/pixbuf.rs:38-40 | the zip loop adds each pixel of the other buffer into the matching pixel and leaves the rest |
| Grids.MergePixels | src/pixbuf.rs:38-40 | after `add_assign` each cell holds the sum of the two cells |
| Grids.MergeCommutes | src/pixbuf.rs:35-41 | merging two same-size buffers does not depend on which one receives the other |
| Grids.MergeAssociates | src/pixbuf.rs:35-41 | merging three same-size buffers does not depend on the grouping |
| Images.New | src/image.rs:10-16 | a new image has the requested dimensions |
| Images.NewIsBlack | src/image.rs:10-16 | every cell of a new image is black |
| Images.GetAfterPut | src/image.rs:18-28 | every cell inside the dimensions can be read and written (its index is below `w h`), and `get` after `put` returns the colour written at that cell and the old colour at every other cell |
| Images.Merge | src/image.rs:35-41 | `add_assign` fails unless the widths and the heights are equal, and keeps the dimensions |
| Images.MergeSums | src/image.rs:38-40 | after `add_assign` every cell holds the sum of the two cells |
| Images.MergeCommutes | src/image.rs:35-41 | merging two images does not depend on which receives the other |
| Images.MergeAssociates | src/image.rs:35-41 | merging three images does not depend on the grouping |

## Left out

- IEEE-754 behaviour: rounding, infinities and NaN.
  - Division by zero is excluded by preconditions (`Dirs.Dir.UnitVector`,
    `Dielectrics.IndexRatio`, `Dielectrics.Schlick`, `MovingSpheres.Center`).
  - The `partial_cmp().unwrap()` NaN panic of src/hitable/bounding_box.rs:107
    cannot arise with reals.
  - A zero direction component in the slab test is its own case. Under IEEE
    arithmetic that axis passes exactly when the origin lies in the slab and
    the window is nonempty, and the model states that case this way.
- `usize` overflow of `w * h` and of the counters: natural numbers do not
  wrap.
- Perlin.LatticeIndex: the model follows a release build on a 64-bit
  target, where `i + d` wraps at 2^64. A debug build panics instead when
  `i = usize::MAX` and `d = 1`. That input is reachable: `floor() as usize`
  saturates to `usize::MAX` for any floor of at least 2^64
  (src/texture/perlin.rs:70, 90-92). The model does not represent the panic.
- Randomness (`thread_rng`): every draw is a parameter.
  - `random_in_unit_sphere` is a bounded rejection loop over a stream of
    candidates (`Materials.RandomInUnitSphere`). It returns nothing when
    every candidate within the bound is rejected; the source loops forever
    instead.
  - The materials take the draw they use as a plain value.
- Bvh.Sort: `sort_unstable_by` is modelled by one particular sort, an
  insertion sort. Its contract (a permutation, ordered by the key) holds
  for any sort, but the order of elements with equal keys is the insertion
  sort's own; the unstable sort may order tied elements differently.
- Bvh.Split: the contract that names the first `n/2` elements of the
  sorted list inherits the insertion sort's order of tied keys. When keys
  tie at the split point, the source may put a different tied element on
  the left. The facts that hold whatever the sort does are the sizes of
  the halves, that together they hold exactly the list's elements, and
  `Bvh.SplitOrdered`.
- Bvh.Build: the build is generic over the element type and its box function.
  It is applied to `Hitables.BoundingBoxOf`. The time arguments of
  `bounding_box` are dropped, since no box in the model depends on them.
- Bvh.Build: the empty list, on which the source recurses forever, is
  excluded by the precondition `|list| >= 1`.
- Bvh.Build: the draw counter it returns is not related to the number of
  splits; only the axis drawn at each split matters to the stated
  properties.
- At this revision `MovingSphere` has no `bounding_box`, so
  `Hitables.BoundingBoxOf` gives it none. A hierarchy over moving spheres
  therefore fails to build, as its `expect` would panic.
- Metals.Scatter: at this revision `Metal::scatter` builds the scattered ray with two arguments.
  The model gives it the incoming ray's time, and the contract promises
  nothing about it.
- Hitables.Hit: the `List` and `Node` cases thread the context through their
  children left to right. At this revision their `hit` takes no context, so
  this order is chosen, and the properties about answers do not depend on it.
- Spheres.MissIsMiss: a ray tangent to the sphere (zero discriminant) is
  reported as a miss by the source. The lemma excludes that case, so it
  does not claim that such rays miss.
- `box_clone` and `Clone for TextureBox` (src/texture.rs:16-29): textures are
  immutable values in the model, so a clone is the value itself and
  evaluates identically by construction.
- Grids: in release builds, `put` and `get` check only that the flat index is
  inside the pixel vector, not that `x < w` and `y < h`. The model requires
  both, as the debug assertions do.
- Grids.MergeCommutes, Grids.MergeAssociates: order independence of merging is stated as
  commutativity and associativity of two- and three-way merges, not for
  arbitrary sequences of buffers. Both require buffers whose pixel vectors
  hold exactly `w h` pixels, which every `Image` does. For a `Pixbuf` with
  tampered vectors the zip sums only the common prefix, and the order
  matters.
- The camera (src/camera.rs), the scenes (src/scene.rs and src/scene/), the
  program entry point and its PPM output (src/main.rs), settings and
  prelude modules, and the superseded src/pos.rs are not part of this model.
- `FromStr` and `Display` for the vector types (text parsing and
  formatting) are not part of this model.
- Parallel rendering and thread-level reduction: only the sequential
  `AddAssign` for `Stats`, `Pixbuf` and `Image` is modelled.

=== FILE: bounding_box.dfy ===
/** Axis-aligned bounding boxes (src/hitable/bounding_box.rs:10-59): the
    surrounding box of two boxes and the slab test of a ray against a box. */
module BoundingBoxes {

  import Numerics
  import Dirs
  import Positions
  import Rays

  datatype BoundingBox = BoundingBox(min: Positions.Pos, max: Positions.Pos)

  /** Coordinate `i` of a point */
  function Coord(p: Positions.Pos, i: nat): real
    requires i < 3
  {
    p.v.At(i)
  }

  /** Component `i` of a direction */
  function Component(d: Dirs.Dir, i: nat): real
    requires i < 3
  {
    d.v.At(i)
  }

  /** `inner` lies within `outer` on every axis */
  predicate Contains(outer: BoundingBox, inner: BoundingBox)
  {
    forall i :: 0 <= i < 3 ==>
      Coord(outer.min, i) <= Coord(inner.min, i) && Coord(inner.max, i) <= Coord(outer.max, i)
  }

  /** The point `p` lies in the closed box */
  predicate Inside(b: BoundingBox, p: Positions.Pos)
  {
    forall i :: 0 <= i < 3 ==> Coord(b.min, i) <= Coord(p, i) <= Coord(b.max, i)
  }

  /** The box is thicker than a point on every axis */
  predicate Solid(b: BoundingBox)
  {
    forall i :: 0 <= i < 3 ==> Coord(b.min, i) < Coord(b.max, i)
  }

  /** `BoundingBox::surrounding`: the componentwise minimum of the minima and
      maximum of the maxima. It contains both boxes and is the least box
      that does. */
  function Surrounding(box0: BoundingBox, box1: BoundingBox): (r: BoundingBox)
    ensures Contains(r, box0) && Contains(r, box1)
    ensures forall o :: Contains(o, box0) && Contains(o, box1) ==> Contains(o, r)
  {
    BoundingBox(
      Positions.New(
        Numerics.Min(box0.min.X(), box1.min.X()),
        Numerics.Min(box0.min.Y(), box1.min.Y()),
        Numerics.Min(box0.min.Z(), box1.min.Z())),
      Positions.New(
        Numerics.Max(box0.max.X(), box1.max.X()),
        Numerics.Max(box0.max.Y(), box1.max.Y()),
        Numerics.Max(box0.max.Z(), box1.max.Z())))
  }

  lemma ContainsReflexive(b: BoundingBox)
    ensures Contains(b, b)
  {
  }

  /** Containment chains. */
  lemma ContainsTransitive(a: BoundingBox, b: BoundingBox, c: BoundingBox)
    requires Contains(a, b) && Contains(b, c)
    ensures Contains(a, c)
  {
  }

  /** A point inside a box is inside every box containing it. */
  lemma InsideContained(outer: BoundingBox, inner: BoundingBox, p: Positions.Pos)
    requires Contains(outer, inner) && Inside(inner, p)
    ensures Inside(outer, p)
  {
  }

  /** The order of the two boxes does not matter, a box surrounds itself
      exactly, and surrounding three boxes does not depend on grouping. */
  lemma SurroundingAlgebra(a: BoundingBox, b: BoundingBox, c: BoundingBox)
    ensures Surrounding(a, b) == Surrounding(b, a)
    ensures Surrounding(a, a) == a
    ensures Surrounding(Surrounding(a, b), c) == Surrounding(a, Surrounding(b, c))
  {
  }

  /** The entry and exit times of one slab, in the code's order: `t0` at
      the minimum face and `t1` at the maximum face, swapped when the
      reciprocal of the direction is negative */
  function SlabTimes(min: real, max: real, d: real, o: real): (real, real)
    requires d != 0.0
  {
    var invD := 1.0 / d;
    var t0 := (min - o) * invD;
    var t1 := (max - o) * invD;
    if invD < 0.0 then (t1, t0) else (t0, t1)
  }

  /** The window `[t_min, t_max]` clipped to `[t0, t1]` is nonempty. Every
      axis clips the ORIGINAL window: the narrowed bounds are fresh
      variables inside the loop body. */
  predicate Clip(t0: real, t1: real, tMin: real, tMax: real)
  {
    var tMin := if t0 > tMin then t0 else tMin;
    var tMax := if t1 < tMax then t1 else tMax;
    !(tMax <= tMin)
  }

  /** One iteration of the slab loop. A zero direction component divides by
      zero: `1/0` is an infinity and the products are infinities or NaN,
      which lets the axis pass exactly when the origin is within the slab
      and the window is nonempty. */
  predicate Slab(min: real, max: real, d: real, o: real, tMin: real, tMax: real)
  {
    if d == 0.0 then
      min <= o <= max && tMin < tMax
    else
      var ts := SlabTimes(min, max, d, o);
      Clip(ts.0, ts.1, tMin, tMax)
  }

  /** The slab of axis `i` */
  predicate AxisPasses(b: BoundingBox, r: Rays.Ray, i: nat, tMin: real, tMax: real)
    requires i < 3
  {
    Slab(Coord(b.min, i), Coord(b.max, i), Component(r.direction, i), Coord(r.origin, i), tMin, tMax)
  }

  /** `BoundingBox::hit`: the loop over the three axes returns false at the
      first axis whose clipped window is empty. */
  function Hit(b: BoundingBox, r: Rays.Ray, tMin: real, tMax: real): (hit: bool)
  {
    AxisPasses(b, r, 0, tMin, tMax) && AxisPasses(b, r, 1, tMin, tMax) && AxisPasses(b, r, 2, tMin, tMax)
  }

  /** The test fails exactly when some axis with a nonzero direction has
      `max(t0, t_min) >= min(t1, t_max)`, or some axis with a zero
      direction has the origin outside its slab or an empty window. */
  lemma HitIffEveryAxis(b: BoundingBox, r: Rays.Ray, tMin: real, tMax: real)
    ensures !Hit(b, r, tMin, tMax) <==> exists i :: 0 <= i < 3 && Blocks(b, r, i, tMin, tMax)
  {
    if !Hit(b, r, tMin, tMax) {
      if !AxisPasses(b, r, 0, tMin, tMax) {
        ClipIsInterval(b, r, 0, tMin, tMax);
      } else if !AxisPasses(b, r, 1, tMin, tMax) {
        ClipIsInterval(b, r, 1, tMin, tMax);
      } else {
        ClipIsInterval(b, r, 2, tMin, tMax);
      }
    } else {
      forall i | 0 <= i < 3
        ensures !Blocks(b, r, i, tMin, tMax)
      {
        ClipIsInterval(b, r, i, tMin, tMax);
      }
    }
  }

  /** Axis `i` rules the box out, stated with `max`/`min` of the slab times
      rather than the code's conditionals */
  predicate Blocks(b: BoundingBox, r: Rays.Ray, i: nat, tMin: real, tMax: real)
    requires i < 3
  {
    var min := Coord(b.min, i);
    var max := Coord(b.max, i);
    var d := Component(r.direction, i);
    var o := Coord(r.origin, i);
    if d == 0.0 then
      o < min || max < o || tMax <= tMin
    else
      Numerics.Max(SlabTimes(min, max, d, o).0, tMin) >= Numerics.Min(SlabTimes(min, max, d, o).1, tMax)
  }

  lemma ClipIsInterval(b: BoundingBox, r: Rays.Ray, i: nat, tMin: real, tMax: real)
    requires i < 3
    ensures AxisPasses(b, r, i, tMin, tMax) <==> !Blocks(b, r, i, tMin, tMax)
  {
  }

  /** The clipped window is open whenever it holds an interior time of a
      proper interval `[t0, t1]`. */
  lemma ClipHolds(t0: real, t1: real, t: real, tMin: real, tMax: real)
    requires t0 <= t <= t1 && t0 < t1 && tMin < t < tMax
    ensures Clip(t0, t1, tMin, tMax)
  {
  }

  /** The slab times in terms of the reciprocal of the direction */
  lemma SlabTimesOrder(min: real, max: real, d: real, o: real)
    requires d != 0.0
    ensures 1.0 / d >= 0.0 ==> SlabTimes(min, max, d, o) == ((min - o) * (1.0 / d), (max - o) * (1.0 / d))
    ensures 1.0 / d < 0.0 ==> SlabTimes(min, max, d, o) == ((max - o) * (1.0 / d), (min - o) * (1.0 / d))
  {
  }

  /** Where `lo <= t d <= hi` with `lo < hi`, dividing by `d` brackets `t`
      strictly between the scaled bounds, in the order given by the sign
      of `d`. */
  lemma Bracket(lo: real, hi: real, t: real, d: real)
    requires d != 0.0 && lo < hi && lo <= t * d <= hi
    ensures 1.0 / d > 0.0 ==> lo * (1.0 / d) <= t <= hi * (1.0 / d) && lo * (1.0 / d) < hi * (1.0 / d)
    ensures 1.0 / d < 0.0 ==> hi * (1.0 / d) <= t <= lo * (1.0 / d) && hi * (1.0 / d) < lo * (1.0 / d)
  {
    var k := 1.0 / d;
    Numerics.ReciprocalSign(d);
    Numerics.Cancel(t, d);
    Numerics.Scale(lo, t * d, k);
    Numerics.Scale(t * d, hi, k);
    Numerics.ScaleStrict(lo, hi, k);
  }

  /** A slab whose interval is proper passes whenever the ray is inside it
      at a time strictly within the window. */
  lemma SlabConservative(min: real, max: real, d: real, o: real, t: real, tMin: real, tMax: real)
    requires min < max && min <= o + t * d <= max && tMin < t < tMax
    ensures Slab(min, max, d, o, tMin, tMax)
  {
    if d != 0.0 {
      SlabTimesOrder(min, max, d, o);
      Bracket(min - o, max - o, t, d);
      Numerics.ReciprocalSign(d);
      var ts := SlabTimes(min, max, d, o);
      ClipHolds(ts.0, ts.1, t, tMin, tMax);
    }
  }

  /** The slab test never rejects a box that the ray passes through within
      the window, provided the box is solid. */
  lemma HitConservative(b: BoundingBox, r: Rays.Ray, t: real, tMin: real, tMax: real)
    requires Solid(b) && Inside(b, r.PointAt(t)) && tMin < t < tMax
    ensures Hit(b, r, tMin, tMax)
  {
    forall i | 0 <= i < 3
      ensures AxisPasses(b, r, i, tMin, tMax)
    {
      assert Coord(r.PointAt(t), i) == Coord(r.origin, i) + t * Component(r.direction, i);
      SlabConservative(Coord(b.min, i), Coord(b.max, i), Component(r.direction, i), Coord(r.origin, i), t, tMin, tMax);
    }
  }

  /** Because each axis clips the original window, the test accepts rays
      that miss the box: this ray is inside the x slab only for `t` in
      `[1, 2]` and inside the y slab only for `t` in `[3, 4]`. */
  lemma SlabAcceptsMiss()
    ensures var b := BoundingBox(Positions.New(0.0, 0.0, 0.0), Positions.New(1.0, 1.0, 1.0));
      var r := Rays.Ray(Positions.New(-1.0, -3.0, 0.5), Dirs.New(1.0, 1.0, 0.0), 0.0);
      Hit(b, r, 0.0, 10.0) && forall t :: !Inside(b, r.PointAt(t))
  {
    var b := BoundingBox(Positions.New(0.0, 0.0, 0.0), Positions.New(1.0, 1.0, 1.0));
    var r := Rays.Ray(Positions.New(-1.0, -3.0, 0.5), Dirs.New(1.0, 1.0, 0.0), 0.0);
    assert AxisPasses(b, r, 0, 0.0, 10.0);
    assert AxisPasses(b, r, 1, 0.0, 10.0);
    assert AxisPasses(b, r, 2, 0.0, 10.0);
    forall t
      ensures !Inside(b, r.PointAt(t))
    {
      assert Coord(r.PointAt(t), 0) == -1.0 + t * 1.0;
      assert Coord(r.PointAt(t), 1) == -3.0 + t * 1.0;
    }
  }
}

=== FILE: bvh.dfy ===
/** The bounding volume hierarchy (src/hitable/bounding_box.rs:62-144):
    the median-split build over a list of hitables. The build only looks at
    its elements through their bounding boxes, so it is stated for any
    element type with a `box` function; `Hitables.BoundingBoxOf` is the one
    the renderer uses. The random axis of each split is drawn from a stream
    `draw` of axes, consumed in the order of the recursive calls. A panic
    (an element without a box) is `None`. */
module Bvh {

  import Optional
  import Positions
  import BoundingBoxes

  type Box = BoundingBoxes.BoundingBox

  datatype Axis = X | Y | Z

  /** `Axis::get` */
  function Get(axis: Axis, p: Positions.Pos): real
  {
    match axis
    case X => p.X()
    case Y => p.Y()
    case Z => p.Z()
  }

  /** Every element has a bounding box */
  predicate Boxed<T(==)>(list: seq<T>, box: T -> Optional.Option<Box>)
  {
    forall h :: h in list ==> box(h).Some?
  }

  /** The sort key of `bounding_box_compare`: the minimum corner of the box
      along the axis. It is only read for boxed elements. */
  function Key<T>(axis: Axis, box: T -> Optional.Option<Box>): T -> real
  {
    h => match box(h)
         case Some(b) => Get(axis, b.min)
         case None => 0.0
  }

  predicate Sorted<T>(list: seq<T>, key: T -> real)
  {
    forall i, j :: 0 <= i < j < |list| ==> key(list[i]) <= key(list[j])
  }

  /** An element no later in the order than any of a sorted list can go
      in front of it. */
  lemma Prepend<T>(x: T, list: seq<T>, key: T -> real)
    requires Sorted(list, key)
    requires forall y :: y in list ==> key(x) <= key(y)
    ensures Sorted([x] + list, key)
  {
    forall i, j | 0 <= i < j < |[x] + list|
      ensures key(([x] + list)[i]) <= key(([x] + list)[j])
    {
      if i > 0 { assert ([x] + list)[i] == list[i-1]; }
      assert ([x] + list)[j] == list[j-1];
    }
  }

  /** Insertion of `x` in front of the first element with a larger key */
  function Insert<T>(x: T, list: seq<T>, key: T -> real): (r: seq<T>)
    ensures |r| == |list| + 1
    ensures multiset(r) == multiset(list) + multiset{x}
  {
    if list == [] then
      [x]
    else if key(x) <= key(list[0]) then
      [x] + list
    else
      assert list == [list[0]] + list[1..];
      [list[0]] + Insert(x, list[1..], key)
  }

  /** Insertion keeps a list sorted. */
  lemma {:induction false} InsertSorted<T>(x: T, list: seq<T>, key: T -> real)
    requires Sorted(list, key)
    ensures Sorted(Insert(x, list, key), key)
  {
    if list == [] {
    } else if key(x) <= key(list[0]) {
      Prepend(x, list, key);
    } else {
      var tail := list[1..];
      InsertSorted(x, tail, key);
      var rest := Insert(x, tail, key);
      forall y | y in rest
        ensures key(list[0]) <= key(y)
      {
        assert y in multiset(rest);
        if y != x {
          var i :| 0 <= i < |tail| && tail[i] == y;
          assert list[i + 1] == y;
        }
      }
      Prepend(list[0], rest, key);
    }
  }

  /** `sort_unstable_by(bounding_box_compare)`, as an insertion sort: the
      result is a permutation of the list, ordered by key */
  function Sort<T>(list: seq<T>, key: T -> real): (r: seq<T>)
    ensures |r| == |list|
    ensures multiset(r) == multiset(list)
    ensures Sorted(r, key)
  {
    if list == [] then
      []
    else
      assert list == [list[0]] + list[1..];
      InsertSorted(list[0], Sort(list[1..], key), key);
      Insert(list[0], Sort(list[1..], key), key)
  }

  /** The shape of a built hierarchy: the list's elements at the leaves,
      a bounding hierarchy node at every branch */
  datatype Tree<T> =
    | Leaf(item: T)
    | Branch(bounds: Box, left: Tree<T>, right: Tree<T>)

  /** The elements at the leaves, left to right */
  function Leaves<T>(t: Tree<T>): seq<T>
  {
    match t
    case Leaf(item) => [item]
    case Branch(_, left, right) => Leaves(left) + Leaves(right)
  }

  /** `bounding_box` of a tree: its element's box at a leaf, the stored
      bounds at a node */
  function BoxOf<T>(t: Tree<T>, box: T -> Optional.Option<Box>): Optional.Option<Box>
  {
    match t
    case Leaf(item) => box(item)
    case Branch(bounds, _, _) => Optional.Some(bounds)
  }

  /** Every branch's bounds surround the boxes of its two children */
  predicate Bounded<T>(t: Tree<T>, box: T -> Optional.Option<Box>)
  {
    match t
    case Leaf(_) => true
    case Branch(bounds, left, right) =>
      && BoxOf(left, box).Some? && BoxOf(right, box).Some?
      && bounds == BoundingBoxes.Surrounding(BoxOf(left, box).value, BoxOf(right, box).value)
      && Bounded(left, box) && Bounded(right, box)
  }

  /** The node over two built halves: `surrounding` of their boxes, or a
      panic when one has no box */
  function Join<T>(left: Tree<T>, right: Tree<T>, box: T -> Optional.Option<Box>): (r: Optional.Option<Tree<T>>)
    ensures r.Some? <==> BoxOf(left, box).Some? && BoxOf(right, box).Some?
    ensures r.Some? ==> r.value.Branch? && r.value.left == left && r.value.right == right
    ensures r.Some? ==> (BoundingBoxes.Contains(r.value.bounds, BoxOf(left, box).value)
      && BoundingBoxes.Contains(r.value.bounds, BoxOf(right, box).value))
  {
    match (BoxOf(left, box), BoxOf(right, box))
    case (Some(lb), Some(rb)) => Optional.Some(Branch(BoundingBoxes.Surrounding(lb, rb), left, right))
    case _ => Optional.None
  }

  /** A node made by `Join` holds the leaves of both halves and is bounded
      exactly when both halves are. */
  lemma JoinFacts<T>(left: Tree<T>, right: Tree<T>, box: T -> Optional.Option<Box>)
    requires Join(left, right, box).Some?
    ensures multiset(Leaves(Join(left, right, box).value)) == multiset(Leaves(left)) + multiset(Leaves(right))
    ensures Bounded(Join(left, right, box).value, box) <==> Bounded(left, box) && Bounded(right, box)
  {
  }

  /** Two elements make a node exactly when both have a box. */
  lemma PairFacts<T>(list: seq<T>, box: T -> Optional.Option<Box>)
    requires |list| == 2
    ensures Join(Leaf(list[0]), Leaf(list[1]), box).Some? <==> Boxed(list, box)
    ensures multiset(Leaves(Leaf(list[0]))) + multiset(Leaves(Leaf(list[1]))) == multiset(list)
  {
    assert list == [list[0], list[1]];
  }

  /** Both halves of a split list are boxed when it is, and together they
      hold its elements. */
  lemma Halves<T>(list: seq<T>, half: nat, box: T -> Optional.Option<Box>)
    requires half <= |list| && Boxed(list, box)
    ensures Boxed(list[..half], box) && Boxed(list[half..], box)
    ensures multiset(list[..half]) + multiset(list[half..]) == multiset(list)
  {
    assert list == list[..half] + list[half..];
  }

  /** The two halves of a sorted boxed list are boxed and together hold
      the list's elements. */
  lemma SplitFacts<T>(list: seq<T>, axis: Axis, half: nat, box: T -> Optional.Option<Box>)
    requires half <= |list| && Boxed(list, box)
    ensures var sorted := Sort(list, Key(axis, box));
      && Boxed(sorted[..half], box) && Boxed(sorted[half..], box)
      && multiset(sorted[..half]) + multiset(sorted[half..]) == multiset(list)
  {
    var sorted := Sort(list, Key(axis, box));
    assert forall h :: h in sorted ==> h in multiset(list);
    Halves(sorted, half, box);
  }

  /** `BoundingHierarchy::build` with the axis draws `draw(k)`, `draw(k+1)`,
      ...; it answers the tree and the index of the next unused draw. One
      element is returned as it is; two become a node in list order,
      unsorted; more are sorted along a drawn axis and split at `n / 2`.
      The empty list is excluded: there the source recurses forever. */
  function Build<T(==)>(list: seq<T>, box: T -> Optional.Option<Box>, draw: nat -> Axis, k: nat): (r: Optional.Option<(Tree<T>, nat)>)
    requires |list| >= 1
    ensures r.None? <==> |list| >= 2 && !Boxed(list, box)
    ensures r.Some? ==> if |list| == 1 then r.value.0 == Leaf(list[0]) else r.value.0.Branch?
    ensures r.Some? && |list| == 2 ==> r.value.0.left == Leaf(list[0]) && r.value.0.right == Leaf(list[1])
    ensures r.Some? ==> multiset(Leaves(r.value.0)) == multiset(list) && Bounded(r.value.0, box)
    decreases |list|, 1
  {
    var n := |list|;
    if n == 1 then
      Optional.Some((Leaf(list[0]), k))
    else if n == 2 then
      PairFacts(list, box);
      var t := Join(Leaf(list[0]), Leaf(list[1]), box);
      if t.Some? then
        JoinFacts(Leaf(list[0]), Leaf(list[1]), box);
        Optional.Some((t.value, k))
      else
        Optional.None
    else if !Boxed(list, box) then
      Optional.None
    else
      Split(list, box, draw, k)
  }

  /** The recursive case of the build, over a boxed list of three or more:
      sort along `draw(k)`, build the lower half with the following draws,
      then the upper half with the draws after those, and join them. It
      never panics, because every element has a box. */
  function Split<T(==)>(list: seq<T>, box: T -> Optional.Option<Box>, draw: nat -> Axis, k: nat): (r: Optional.Option<(Tree<T>, nat)>)
    requires |list| >= 3 && Boxed(list, box)
    ensures r.Some? && r.value.0.Branch?
    ensures var sorted := Sort(list, Key(draw(k), box));
      && multiset(Leaves(r.value.0.left)) == multiset(sorted[..|list| / 2])
      && multiset(Leaves(r.value.0.right)) == multiset(sorted[|list| / 2..])
    ensures |Leaves(r.value.0.left)| == |list| / 2 && |Leaves(r.value.0.right)| == |list| - |list| / 2
    ensures multiset(Leaves(r.value.0)) == multiset(list) && Bounded(r.value.0, box)
    decreases |list|, 0
  {
    var half := |list| / 2;
    SplitFacts(list, draw(k), half, box);
    var sorted := Sort(list, Key(draw(k), box));
    var left := Build(sorted[..half], box, draw, k + 1);
    var right := Build(sorted[half..], box, draw, left.value.1);
    var t := Join(left.value.0, right.value.0, box);
    JoinFacts(left.value.0, right.value.0, box);
    Optional.Some((t.value, right.value.1))
  }

  /** In a sorted list, nothing before position `half` has a larger key
      than anything from `half` on. */
  lemma SortedHalves<T>(sorted: seq<T>, half: nat, key: T -> real)
    requires half <= |sorted| && Sorted(sorted, key)
    ensures forall a, b :: a in sorted[..half] && b in sorted[half..] ==> key(a) <= key(b)
  {
    forall a, b | a in sorted[..half] && b in sorted[half..]
      ensures key(a) <= key(b)
    {
      var i :| 0 <= i < half && sorted[..half][i] == a;
      var j :| 0 <= j < |sorted| - half && sorted[half..][j] == b;
      assert sorted[i] == a && sorted[half + j] == b;
    }
  }

  /** The split is a median split along the drawn axis: no element of the
      lower half has a larger key than any element of the upper half. */
  lemma SplitOrdered<T>(list: seq<T>, box: T -> Optional.Option<Box>, draw: nat -> Axis, k: nat)
    requires |list| >= 3 && Boxed(list, box)
    ensures var t := Split(list, box, draw, k).value.0;
      forall a, b :: a in Leaves(t.left) && b in Leaves(t.right) ==> Key(draw(k), box)(a) <= Key(draw(k), box)(b)
  {
    var key := Key(draw(k), box);
    var half := |list| / 2;
    var sorted := Sort(list, key);
    var t := Split(list, box, draw, k).value.0;
    SortedHalves(sorted, half, key);
    forall a, b | a in Leaves(t.left) && b in Leaves(t.right)
      ensures key(a) <= key(b)
    {
      assert a in multiset(Leaves(t.left));
      assert b in multiset(Leaves(t.right));
      assert a in sorted[..half] && b in sorted[half..];
    }
  }

  /** In a bounded tree every leaf has a box, and the tree's box contains
      it. */
  lemma {:induction false} LeavesInsideBox<T>(t: Tree<T>, box: T -> Optional.Option<Box>)
    requires Bounded(t, box) && BoxOf(t, box).Some?
    ensures forall h :: h in Leaves(t) ==>
      box(h).Some? && BoundingBoxes.Contains(BoxOf(t, box).value, box(h).value)
  {
    match t
    case Leaf(item) =>
      BoundingBoxes.ContainsReflexive(BoxOf(t, box).value);
    case Branch(bounds, left, right) =>
      LeavesInsideBox(left, box);
      LeavesInsideBox(right, box);
      forall h | h in Leaves(t)
        ensures box(h).Some? && BoundingBoxes.Contains(bounds, box(h).value)
      {
        if h in Leaves(left) {
          BoundingBoxes.ContainsTransitive(bounds, BoxOf(left, box).value, box(h).value);
        } else {
          BoundingBoxes.ContainsTransitive(bounds, BoxOf(right, box).value, box(h).value);
        }
      }
  }
}

=== FILE: bvh_hits.dfy ===
/** What a hierarchy built over spheres answers (src/hitable/bounding_box.rs:111-172
    together with src/hitable/list.rs:15-28): because the slab test never
    rejects a box that a sphere inside it is hit in, a hierarchy built from
    spheres of nonnegative radius finds a hit exactly when the plain list of
    the same spheres does, and at the same time. */
module BvhHits {

  import Optional
  import Counters
  import BoundingBoxes
  import Rays
  import Spheres
  import Hitables
  import Nearest
  import Numerics
  import Bvh

  type Hitable<C(==)> = Hitables.Hitable<C>

  /** The hitable a built tree stands for: a `BoundingHierarchy` node for
      every branch, the element itself at every leaf */
  function ToHitable<C(==)>(t: Bvh.Tree<Hitable<C>>): (r: Hitable<C>)
    ensures Hitables.BoundingBoxOf(r) == Bvh.BoxOf(t, Hitables.BoundingBoxOf)
  {
    match t
    case Leaf(item) => item
    case Branch(bounds, left, right) => Hitables.Node(bounds, ToHitable(left), ToHitable(right))
  }

  /** `h` is a sphere of nonnegative radius for which `sqrt` is exact at the
      discriminant of its quadratic along `ray` whenever that is positive */
  ghost predicate ExactSphere<C>(h: Hitable<C>, ray: Rays.Ray, sqrt: real -> real)
  {
    && h.Sphere?
    && h.sphere.radius >= 0.0
    && Spheres.ExactRoot(Spheres.Coefficients(h.sphere.center, h.sphere.radius, ray), sqrt)
  }

  ghost predicate AllExactSpheres<C>(items: seq<Hitable<C>>, ray: Rays.Ray, sqrt: real -> real)
  {
    forall h :: h in items ==> ExactSphere(h, ray, sqrt)
  }

  /** The answers of the spheres in `items` to the same query */
  ghost function AnswerSet<C>(items: seq<Hitable<C>>, ray: Rays.Ray, tMin: real, tMax: real, sqrt: real -> real): set<Nearest.Answer>
    requires AllExactSpheres(items, ray, sqrt)
  {
    set h | h in items :: Hitables.Answer(h, ray, tMin, tMax, sqrt)
  }

  /** A node's choice between two answers is a nearest answer of the
      union when each is a nearest answer of its side. */
  lemma NearerEarliest(a: Nearest.Answer, b: Nearest.Answer, s1: set<Nearest.Answer>, s2: set<Nearest.Answer>)
    requires Nearest.Earliest(a, s1) && Nearest.Earliest(b, s2)
    ensures Nearest.Earliest(Hitables.Nearer(a, b), s1 + s2)
  {
  }

  /** A bounding box that contains a solid box is solid. */
  lemma SolidContainer(outer: BoundingBoxes.BoundingBox, inner: BoundingBoxes.BoundingBox)
    requires BoundingBoxes.Contains(outer, inner) && BoundingBoxes.Solid(inner)
    ensures BoundingBoxes.Solid(outer)
  {
    forall i | 0 <= i < 3
      ensures BoundingBoxes.Coord(outer.min, i) < BoundingBoxes.Coord(outer.max, i)
    {
      assert BoundingBoxes.Coord(outer.min, i) <= BoundingBoxes.Coord(inner.min, i);
      assert BoundingBoxes.Coord(inner.max, i) <= BoundingBoxes.Coord(outer.max, i);
    }
  }

  /** A sphere inside a box that the ray misses in the window is not hit
      in the window either: the slab test is conservative. */
  lemma MissedBoxMissesSphere<C>(bounds: BoundingBoxes.BoundingBox, h: Hitable<C>,
                                     ray: Rays.Ray, tMin: real, tMax: real, sqrt: real -> real)
    requires ExactSphere(h, ray, sqrt)
    requires BoundingBoxes.Contains(bounds, Spheres.BoundingBox(h.sphere))
    requires !BoundingBoxes.Hit(bounds, ray, tMin, tMax)
    ensures Hitables.Answer(h, ray, tMin, tMax, sqrt).None?
  {
    var s := h.sphere;
    var a := Spheres.Hit(s, ray, tMin, tMax, sqrt);
    if a.Some? {
      Spheres.HitInsideBox(s, ray, tMin, tMax, sqrt);
      Spheres.BoxOrientation(s);
      SolidContainer(bounds, Spheres.BoundingBox(s));
      BoundingBoxes.InsideContained(bounds, Spheres.BoundingBox(s), a.value.p);
      BoundingBoxes.HitConservative(bounds, ray, a.value.t, tMin, tMax);
      assert false;
    }
  }

  /** A list of exact spheres has only well-formed items. */
  lemma SpheresWellFormed<C>(items: seq<Hitable<C>>, ray: Rays.Ray, sqrt: real -> real)
    requires AllExactSpheres(items, ray, sqrt)
    ensures forall k :: 0 <= k < |items| ==> items[k].Sphere? && Hitables.WellFormed(items[k])
    ensures Hitables.WellFormed(Hitables.List(items))
  {
    forall k | 0 <= k < |items|
      ensures items[k].Sphere?
    {
      assert ExactSphere(items[k], ray, sqrt);
    }
  }

  /** The answers of the leaves of a branch are those of its two sides. */
  lemma BranchAnswers<C>(t: Bvh.Tree<Hitable<C>>, ray: Rays.Ray, tMin: real, tMax: real, sqrt: real -> real)
    requires t.Branch? && AllExactSpheres(Bvh.Leaves(t), ray, sqrt)
    ensures AllExactSpheres(Bvh.Leaves(t.left), ray, sqrt) && AllExactSpheres(Bvh.Leaves(t.right), ray, sqrt)
    ensures AnswerSet(Bvh.Leaves(t), ray, tMin, tMax, sqrt)
         == AnswerSet(Bvh.Leaves(t.left), ray, tMin, tMax, sqrt) + AnswerSet(Bvh.Leaves(t.right), ray, tMin, tMax, sqrt)
  {
  }

  /** A branch whose box the ray misses answers nothing, and so do all
      of its leaves. */
  lemma BranchMiss<C>(t: Bvh.Tree<Hitable<C>>, ray: Rays.Ray, tMin: real, tMax: real, sqrt: real -> real)
    requires t.Branch? && Bvh.Bounded(t, Hitables.BoundingBoxOf) && AllExactSpheres(Bvh.Leaves(t), ray, sqrt)
    requires Hitables.WellFormed(ToHitable(t))
    requires !BoundingBoxes.Hit(t.bounds, ray, tMin, tMax)
    ensures Nearest.Earliest(Hitables.Answer(ToHitable(t), ray, tMin, tMax, sqrt),
                             AnswerSet(Bvh.Leaves(t), ray, tMin, tMax, sqrt))
  {
    Bvh.LeavesInsideBox(t, Hitables.BoundingBoxOf);
    forall h | h in Bvh.Leaves(t)
      ensures Hitables.Answer(h, ray, tMin, tMax, sqrt).None?
    {
      assert ExactSphere(h, ray, sqrt);
      MissedBoxMissesSphere(t.bounds, h, ray, tMin, tMax, sqrt);
    }
  }

  /** A branch whose box the ray hits answers the nearer of its sides'
      answers. */
  lemma BranchHit<C>(t: Bvh.Tree<Hitable<C>>, ray: Rays.Ray, tMin: real, tMax: real, sqrt: real -> real)
    requires t.Branch? && Hitables.WellFormed(ToHitable(t.left)) && Hitables.WellFormed(ToHitable(t.right))
    requires BoundingBoxes.Hit(t.bounds, ray, tMin, tMax)
    ensures Hitables.WellFormed(ToHitable(t))
    ensures Hitables.Answer(ToHitable(t), ray, tMin, tMax, sqrt)
         == Hitables.Nearer(Hitables.Answer(ToHitable(t.left), ray, tMin, tMax, sqrt),
                            Hitables.Answer(ToHitable(t.right), ray, tMin, tMax, sqrt))
  {
    var lp := Hitables.Hit(ToHitable(t.left), Counters.New(), ray, tMin, tMax, sqrt);
    Hitables.HitIgnoresStats(ToHitable(t.right), lp.stats, Counters.New(), ray, tMin, tMax, sqrt);
  }

  /** A bounded tree of exact spheres answers a nearest answer of its
      leaves. */
  lemma {:induction false} TreeEarliest<C>(t: Bvh.Tree<Hitable<C>>, ray: Rays.Ray, tMin: real, tMax: real, sqrt: real -> real)
    requires Bvh.Bounded(t, Hitables.BoundingBoxOf) && AllExactSpheres(Bvh.Leaves(t), ray, sqrt)
    ensures Hitables.WellFormed(ToHitable(t))
    ensures Nearest.Earliest(Hitables.Answer(ToHitable(t), ray, tMin, tMax, sqrt),
                             AnswerSet(Bvh.Leaves(t), ray, tMin, tMax, sqrt))
  {
    match t
    case Leaf(item) =>
      assert Bvh.Leaves(t) == [item];
      assert ExactSphere(item, ray, sqrt);
    case Branch(bounds, left, right) =>
      BranchAnswers(t, ray, tMin, tMax, sqrt);
      TreeEarliest(left, ray, tMin, tMax, sqrt);
      TreeEarliest(right, ray, tMin, tMax, sqrt);
      if BoundingBoxes.Hit(bounds, ray, tMin, tMax) {
        BranchHit(t, ray, tMin, tMax, sqrt);
        NearerEarliest(Hitables.Answer(ToHitable(left), ray, tMin, tMax, sqrt),
                       Hitables.Answer(ToHitable(right), ray, tMin, tMax, sqrt),
                       AnswerSet(Bvh.Leaves(left), ray, tMin, tMax, sqrt),
                       AnswerSet(Bvh.Leaves(right), ray, tMin, tMax, sqrt));
      } else {
        BranchMiss(t, ray, tMin, tMax, sqrt);
      }
  }

  /** The plain list of exact spheres answers a nearest answer of its
      items. */
  lemma ListEarliest<C>(items: seq<Hitable<C>>, ray: Rays.Ray, tMin: real, tMax: real, sqrt: real -> real)
    requires AllExactSpheres(items, ray, sqrt)
    ensures Hitables.WellFormed(Hitables.List(items))
    ensures Nearest.Earliest(Hitables.Answer(Hitables.List(items), ray, tMin, tMax, sqrt),
                             AnswerSet(items, ray, tMin, tMax, sqrt))
  {
    SpheresWellFormed(items, ray, sqrt);
    forall k | 0 <= k < |items|
      ensures Hitables.Narrowable(items[k], ray, tMin, tMax, sqrt)
    {
      assert ExactSphere(items[k], ray, sqrt);
      Hitables.SphereNarrowable<C>(items[k].sphere, ray, tMin, tMax, sqrt);
    }
    Hitables.ListFindsNearest(items, Counters.New(), ray, tMin, tMax, sqrt);
    var answers := Hitables.Answers(items, ray, tMin, tMax, sqrt);
    Nearest.NearestIsEarliest(Hitables.Answer(Hitables.List(items), ray, tMin, tMax, sqrt), answers);
    assert (set x | x in answers) == AnswerSet(items, ray, tMin, tMax, sqrt) by {
      forall x | x in AnswerSet(items, ray, tMin, tMax, sqrt)
        ensures x in answers
      {
        var h :| h in items && x == Hitables.Answer(h, ray, tMin, tMax, sqrt);
        var k :| 0 <= k < |items| && items[k] == h;
        assert answers[k] == x;
      }
    }
  }

  /** A hierarchy built from spheres of nonnegative radius, with `sqrt`
      exact at each of their positive discriminants, is always built, and it finds a
      hit exactly when the list of the same spheres does, at the same
      time, whatever axes the build drew. */
  lemma BvhMatchesList<C>(list: seq<Hitable<C>>, draw: nat -> Bvh.Axis, k: nat,
                              ray: Rays.Ray, tMin: real, tMax: real, sqrt: real -> real)
    requires |list| >= 1 && AllExactSpheres(list, ray, sqrt)
    ensures Bvh.Build(list, Hitables.BoundingBoxOf, draw, k).Some?
    ensures var tree := ToHitable(Bvh.Build(list, Hitables.BoundingBoxOf, draw, k).value.0);
      && Hitables.WellFormed(tree) && Hitables.WellFormed(Hitables.List(list))
      && var a := Hitables.Answer(tree, ray, tMin, tMax, sqrt);
         var b := Hitables.Answer(Hitables.List(list), ray, tMin, tMax, sqrt);
         && (a.Some? <==> b.Some?)
         && (a.Some? ==> a.value.t == b.value.t)
  {
    SpheresBoxed(list, ray, sqrt);
    var t := Bvh.Build(list, Hitables.BoundingBoxOf, draw, k).value.0;
    SameLeaves(Bvh.Leaves(t), list, ray, tMin, tMax, sqrt);
    TreeEarliest(t, ray, tMin, tMax, sqrt);
    ListEarliest(list, ray, tMin, tMax, sqrt);
    Nearest.EarliestAgree(Hitables.Answer(ToHitable(t), ray, tMin, tMax, sqrt),
                          Hitables.Answer(Hitables.List(list), ray, tMin, tMax, sqrt),
                          AnswerSet(list, ray, tMin, tMax, sqrt));
  }

  /** Spheres always have a bounding box. */
  lemma SpheresBoxed<C>(list: seq<Hitable<C>>, ray: Rays.Ray, sqrt: real -> real)
    requires AllExactSpheres(list, ray, sqrt)
    ensures Bvh.Boxed(list, Hitables.BoundingBoxOf)
  {
    forall h | h in list
      ensures Hitables.BoundingBoxOf(h).Some?
    {
      assert ExactSphere(h, ray, sqrt);
    }
  }

  /** Two lists holding the same elements, in any order, are lists of
      exact spheres together and have the same answers. */
  lemma SameLeaves<C>(leaves: seq<Hitable<C>>, list: seq<Hitable<C>>,
                      ray: Rays.Ray, tMin: real, tMax: real, sqrt: real -> real)
    requires multiset(leaves) == multiset(list) && AllExactSpheres(list, ray, sqrt)
    ensures AllExactSpheres(leaves, ray, sqrt)
    ensures AnswerSet(leaves, ray, tMin, tMax, sqrt) == AnswerSet(list, ray, tMin, tMax, sqrt)
  {
    forall h
      ensures h in leaves <==> h in list
    {
      assert h in leaves <==> h in multiset(leaves);
      assert h in list <==> h in multiset(list);
    }
  }
}

=== FILE: col.dfy ===
/** Colours (src/vec3/col.rs): a `Vec3` read as red, green and blue. */
module Colours {

  import Vectors

  datatype Col = Col(v: Vectors.Vec3)
  {
    function R(): real { v.e0 }
    function G(): real { v.e1 }
    function B(): real { v.e2 }

    function Add(o: Col): Col { Col(v.Add(o.v)) }

    function Sub(o: Col): Col { Col(v.Sub(o.v)) }

    /** Componentwise product, the attenuation of one colour by another */
    function Mul(o: Col): Col { Col(v.Mul(o.v)) }

    function Div(o: Col): Col
      requires o.v.NonZero()
    {
      Col(v.Div(o.v))
    }

    function MulScalar(t: real): Col { Col(v.MulScalar(t)) }

    function DivScalar(t: real): Col
      requires t != 0.0
    {
      Col(v.DivScalar(t))
    }
  }

  /** Black */
  function Zero(): Col { Col(Vectors.Zero()) }

  function New(r: real, g: real, b: real): Col { Col(Vectors.New(r, g, b)) }

  function ScalarMul(t: real, c: Col): Col { Col(Vectors.ScalarMul(t, c.v)) }

  method AddAssign(c: Col, i: Col) returns (r: Col)
    ensures r == c.Add(i)
  {
    var v := Vectors.AddAssign(c.v, i.v);
    r := Col(v);
  }

  method SubAssign(c: Col, i: Col) returns (r: Col)
    ensures r == c.Sub(i)
  {
    var v := Vectors.SubAssign(c.v, i.v);
    r := Col(v);
  }

  method MulAssign(c: Col, i: Col) returns (r: Col)
    ensures r == c.Mul(i)
  {
    var v := Vectors.MulAssign(c.v, i.v);
    r := Col(v);
  }

  method DivAssign(c: Col, i: Col) returns (r: Col)
    requires i.v.NonZero()
    ensures r == c.Div(i)
  {
    var v := Vectors.DivAssign(c.v, i.v);
    r := Col(v);
  }

  method MulAssignScalar(c: Col, t: real) returns (r: Col)
    ensures r == c.MulScalar(t)
  {
    var v := Vectors.MulAssignScalar(c.v, t);
    r := Col(v);
  }

  method DivAssignScalar(c: Col, t: real) returns (r: Col)
    requires t != 0.0
    ensures r == c.DivScalar(t)
  {
    var v := Vectors.DivAssignScalar(c.v, t);
    r := Col(v);
  }

  /** `r()`, `g()` and `b()` read components 0, 1 and 2. */
  lemma Channels(r: real, g: real, b: real)
    ensures New(r, g, b).R() == r && New(r, g, b).G() == g && New(r, g, b).B() == b
    ensures New(r, g, b).R() == New(r, g, b).v.At(0)
    ensures New(r, g, b).G() == New(r, g, b).v.At(1)
    ensures New(r, g, b).B() == New(r, g, b).v.At(2)
  {
  }

  /** Sum and product act channel by channel; the product with white is the
      identity and the sum with black is the identity. */
  lemma ChannelwiseAlgebra(a: Col, b: Col)
    ensures a.Add(b) == New(a.R() + b.R(), a.G() + b.G(), a.B() + b.B())
    ensures a.Mul(b) == New(a.R() * b.R(), a.G() * b.G(), a.B() * b.B())
    ensures a.Mul(New(1.0, 1.0, 1.0)) == a
    ensures a.Add(Zero()) == a
  {
  }

  /** Scaling commutes, and division by `t` divides each channel. */
  lemma ScalarChannels(t: real, c: Col)
    ensures ScalarMul(t, c) == c.MulScalar(t)
    ensures t != 0.0 ==> c.DivScalar(t) == New(c.R() / t, c.G() / t, c.B() / t)
    ensures t != 0.0 ==> c.MulScalar(t).DivScalar(t) == c
  {
  }
}

=== FILE: dielectric.dfy ===
/** Glass-like materials (src/material/dielectric.rs): Snell refraction with
    total internal reflection, and Schlick's approximation choosing between
    refraction and reflection. */
module Dielectrics {

  import Optional
  import Vectors
  import Numerics
  import Squares
  import Dirs
  import Colours
  import Rays
  import Materials
  import Hits

  /** The cosine `unit(v)·n` between the unit incoming direction and `n` */
  function Cosine(v: Dirs.Dir, n: Dirs.Dir, sqrt: real -> real): real
    requires v.v.Length(sqrt) != 0.0
  {
    v.UnitVector(sqrt).Dot(n)
  }

  /** `1 - η² (1 - dt²)`: positive exactly when a refracted ray exists */
  function Discriminant(v: Dirs.Dir, n: Dirs.Dir, eta: real, sqrt: real -> real): real
    requires v.v.Length(sqrt) != 0.0
  {
    var dt := Cosine(v, n, sqrt);
    1.0 - eta * eta * (1.0 - dt * dt)
  }

  /** `refract(v, n, ni_over_nt)`: the refracted direction, or `None` under
      total internal reflection */
  function Refract(v: Dirs.Dir, n: Dirs.Dir, eta: real, sqrt: real -> real): (r: Optional.Option<Dirs.Dir>)
    requires v.v.Length(sqrt) != 0.0
    ensures r.None? <==> Discriminant(v, n, eta, sqrt) <= 0.0
  {
    var uv := v.UnitVector(sqrt);
    var dt := Cosine(v, n, sqrt);
    var discriminant := Discriminant(v, n, eta, sqrt);
    if discriminant > 0.0 then
      Optional.Some(Dirs.ScalarMul(eta, uv.Sub(Dirs.ScalarMul(dt, n))).Sub(Dirs.ScalarMul(sqrt(discriminant), n)))
    else
      Optional.None
  }

  /** The part of `d` tangent to the surface with unit normal `n` */
  function Tangent(d: Dirs.Dir, n: Dirs.Dir): Dirs.Dir
  {
    d.Sub(Dirs.ScalarMul(d.Dot(n), n))
  }

  /** Dividing a direction by its length gives a unit vector, when `sqrt`
      is exact at its squared length. */
  lemma UnitVectorIsUnit(v: Dirs.Dir, sqrt: real -> real)
    requires v.v.Length(sqrt) != 0.0
    requires Numerics.SqrtAt(sqrt, v.SquaredLength())
    ensures Materials.IsUnit(v.UnitVector(sqrt))
  {
    var len := v.v.Length(sqrt);
    var u := v.UnitVector(sqrt).v;
    Vectors.DivScalarDot(v.v, u, len);
    Vectors.DotBilinear(v.v, u, u, 0.0);
    Vectors.DivScalarDot(v.v, v.v, len);
    calc {
      u.Dot(u);
    ==
      v.v.Dot(u) / len;
    ==
      u.Dot(v.v) / len;
    ==
      (v.v.Dot(v.v) / len) / len;
    ==  { Numerics.SquareOverRoot(v.v.Dot(v.v), len); }
      1.0;
    }
  }

  /** Snell's law for `refract`, with a unit normal and an exact square
      root. The refracted direction is a unit vector on the far side of
      the surface. Its cosine with the normal satisfies
      `cos²θt = 1 - η² sin²θi`. Its part tangent to the surface is the
      tangent part of the unit incoming direction scaled by
      `ni_over_nt`, so `sin²θt = η² sin²θi`. */
  lemma RefractSnell(v: Dirs.Dir, n: Dirs.Dir, eta: real, sqrt: real -> real)
    requires v.v.Length(sqrt) != 0.0
    requires Materials.IsUnit(n)
    requires Numerics.SqrtAt(sqrt, v.SquaredLength())
    requires Discriminant(v, n, eta, sqrt) > 0.0 ==> Numerics.SqrtAt(sqrt, Discriminant(v, n, eta, sqrt))
    ensures var r := Refract(v, n, eta, sqrt);
      var uv := v.UnitVector(sqrt);
      r.Some? ==>
        && Materials.IsUnit(r.value)
        && r.value.Dot(n) < 0.0
        && r.value.Dot(n) * r.value.Dot(n) == 1.0 - eta * eta * Tangent(uv, n).SquaredLength()
        && Tangent(r.value, n) == Dirs.ScalarMul(eta, Tangent(uv, n))
        && Tangent(r.value, n).SquaredLength() == eta * eta * Tangent(uv, n).SquaredLength()
  {
    var d := Discriminant(v, n, eta, sqrt);
    if d > 0.0 {
      var uv := v.UnitVector(sqrt);
      var s := sqrt(d);
      UnitVectorIsUnit(v, sqrt);
      TangentPart(uv, n);
      Bend(uv, n, eta, s);
      ScaledLength(Tangent(uv, n), eta);
    }
  }

  /** The tangent part of a unit direction is orthogonal to the unit
      normal and has squared length `1 - (u·n)²`. */
  lemma TangentPart(u: Dirs.Dir, n: Dirs.Dir)
    requires Materials.IsUnit(u) && Materials.IsUnit(n)
    ensures Tangent(u, n).Dot(n) == 0.0
    ensures Tangent(u, n).SquaredLength() == 1.0 - u.Dot(n) * u.Dot(n)
  {
    var dt := u.Dot(n);
    var t := Tangent(u, n);
    DotSubScaled(u, dt, n, n);
    assert t.Dot(n) == 0.0;
    DotSubScaled(u, dt, n, t);
    DotSubScaled(u, dt, n, u);
    Dirs.DotSymmetric(n, t);
    Dirs.DotSymmetric(u, t);
    Dirs.DotSymmetric(n, u);
  }

  /** `η t - s n`, for a unit direction `u` with tangent part `t`, a unit
      normal `n` and `s² = 1 - η² (1 - (u·n)²)`, is the unit direction
      with normal part `-s` and tangent part `η t`. */
  lemma Bend(u: Dirs.Dir, n: Dirs.Dir, eta: real, s: real)
    requires Materials.IsUnit(n)
    requires Tangent(u, n).Dot(n) == 0.0
    requires Tangent(u, n).SquaredLength() == 1.0 - u.Dot(n) * u.Dot(n)
    requires s * s == 1.0 - eta * eta * (1.0 - u.Dot(n) * u.Dot(n))
    ensures var r := Dirs.ScalarMul(eta, Tangent(u, n)).Sub(Dirs.ScalarMul(s, n));
      r.Dot(n) == -s && Tangent(r, n) == Dirs.ScalarMul(eta, Tangent(u, n)) && Materials.IsUnit(r)
  {
    var t := Tangent(u, n);
    var r := Dirs.ScalarMul(eta, t).Sub(Dirs.ScalarMul(s, n));
    DotCombination(eta, t, s, n, n);
    assert r.Dot(n) == -s;
    TangentOfBend(t, n, eta, s);
    DotCombination(eta, t, s, n, t);
    Dirs.DotSymmetric(n, t);
    Dirs.DotSymmetric(t, r);
    assert t.Dot(r) == eta * t.Dot(t);
    Dirs.DotSymmetric(n, r);
    assert n.Dot(r) == -s;
    DotCombination(eta, t, s, n, r);
    BendArithmetic(eta, s, t.Dot(r), n.Dot(r), t.Dot(t), u.Dot(n));
  }

  /** The real-number core of `|η t - s n|² = 1` */
  lemma BendArithmetic(eta: real, s: real, tr: real, nr: real, tt: real, dt: real)
    requires tr == eta * tt && nr == -s
    requires tt == 1.0 - dt * dt && s * s == 1.0 - eta * eta * (1.0 - dt * dt)
    ensures eta * tr - s * nr == 1.0
  {
    calc {
      eta * tr - s * nr;
    ==
      eta * (eta * tt) + s * s;
    ==
      eta * eta * tt + s * s;
    ==
      eta * eta * (1.0 - dt * dt) + (1.0 - eta * eta * (1.0 - dt * dt));
    ==
      1.0;
    }
  }

  /** Taking away the normal part `-s n` of `η t - s n` leaves `η t`. */
  lemma TangentOfBend(t: Dirs.Dir, n: Dirs.Dir, eta: real, s: real)
    requires Dirs.ScalarMul(eta, t).Sub(Dirs.ScalarMul(s, n)).Dot(n) == -s
    ensures Tangent(Dirs.ScalarMul(eta, t).Sub(Dirs.ScalarMul(s, n)), n) == Dirs.ScalarMul(eta, t)
  {
  }

  /** `(x - b y)·z = x·z - b (y·z)` */
  lemma DotSubScaled(x: Dirs.Dir, b: real, y: Dirs.Dir, z: Dirs.Dir)
    ensures x.Sub(Dirs.ScalarMul(b, y)).Dot(z) == x.Dot(z) - b * y.Dot(z)
  {
  }

  /** `(a x - b y)·z = a (x·z) - b (y·z)` */
  lemma DotCombination(a: real, x: Dirs.Dir, b: real, y: Dirs.Dir, z: Dirs.Dir)
    ensures Dirs.ScalarMul(a, x).Sub(Dirs.ScalarMul(b, y)).Dot(z) == a * x.Dot(z) - b * y.Dot(z)
  {
  }

  /** Scaling a direction by `k` scales its squared length by `k²`. */
  lemma ScaledLength(t: Dirs.Dir, k: real)
    ensures Dirs.ScalarMul(k, t).SquaredLength() == k * k * t.SquaredLength()
  {
    var kt := Dirs.ScalarMul(k, t).v;
    Vectors.DotBilinear(t.v, kt, kt, k);
    Vectors.DotBilinear(t.v, t.v, t.v, k);
    calc {
      kt.Dot(kt);
    ==
      k * t.v.Dot(kt);
    ==
      k * kt.Dot(t.v);
    ==
      k * (k * t.v.Dot(t.v));
    ==
      k * k * t.SquaredLength();
    }
  }

  /** `x.powi(5)` */
  function Pow5(x: real): real
  {
    x * x * x * x * x
  }

  /** `schlick(cosine, ref_idx)`: Schlick's reflection probability */
  function Schlick(cosine: real, refIdx: real): real
    requires 1.0 + refIdx != 0.0
  {
    var r0 := (1.0 - refIdx) / (1.0 + refIdx);
    var r0 := r0 * r0;
    r0 + (1.0 - r0) * Pow5(1.0 - cosine)
  }

  /** The white attenuation of glass */
  function White(): Colours.Col
  {
    Colours.New(1.0, 1.0, 1.0)
  }

  /** The ray leaves the object: it travels along the normal */
  predicate Leaving(rIn: Rays.Ray, rec: Hits.HitRecord)
  {
    rIn.direction.Dot(rec.normal) > 0.0
  }

  /** The normal facing the incoming ray */
  function OutwardNormal(rIn: Rays.Ray, rec: Hits.HitRecord): Dirs.Dir
  {
    if Leaving(rIn, rec) then rec.normal.Neg() else rec.normal
  }

  /** The ratio of refractive indices across the surface, `ni / nt` */
  function IndexRatio(refIdx: real, rIn: Rays.Ray, rec: Hits.HitRecord): real
    requires refIdx != 0.0
  {
    if Leaving(rIn, rec) then refIdx else 1.0 / refIdx
  }

  /** The incidence cosine fed to Schlick's formula */
  function IncidenceCosine(refIdx: real, rIn: Rays.Ray, rec: Hits.HitRecord, sqrt: real -> real): real
    requires rIn.direction.v.Length(sqrt) != 0.0
  {
    var d := rIn.direction;
    if Leaving(rIn, rec) then refIdx * d.Dot(rec.normal) / d.v.Length(sqrt) else -d.Dot(rec.normal) / d.v.Length(sqrt)
  }

  /** The draw selects refraction: refraction is possible and the draw
      exceeds the reflection probability */
  predicate Refracts(refIdx: real, rIn: Rays.Ray, rec: Hits.HitRecord, draw: real, sqrt: real -> real)
    requires refIdx != 0.0 && 1.0 + refIdx != 0.0
    requires rIn.direction.v.Length(sqrt) != 0.0
  {
    Refract(rIn.direction, OutwardNormal(rIn, rec), IndexRatio(refIdx, rIn, rec), sqrt).Some?
      && draw > Schlick(IncidenceCosine(refIdx, rIn, rec, sqrt), refIdx)
  }

  /** `Dielectric::scatter` with `draw` the uniform number compared with the
      reflection probability. It never absorbs, never tints, and emits
      from the hit point at the incoming ray's time either the refraction
      through the outward normal or the mirror reflection in the normal. */
  function Scatter(refIdx: real, rIn: Rays.Ray, rec: Hits.HitRecord, draw: real, sqrt: real -> real): (r: Optional.Option<Materials.Scatter>)
    requires refIdx != 0.0 && 1.0 + refIdx != 0.0
    requires rIn.direction.v.Length(sqrt) != 0.0
    ensures r.Some? && r.value.attenuation == White()
    ensures r.value.scattered.origin == rec.p && r.value.scattered.time == rIn.time
    ensures Refracts(refIdx, rIn, rec, draw, sqrt) ==>
      Optional.Some(r.value.scattered.direction) == Refract(rIn.direction, OutwardNormal(rIn, rec), IndexRatio(refIdx, rIn, rec), sqrt)
    ensures !Refracts(refIdx, rIn, rec, draw, sqrt) ==>
      r.value.scattered.direction == Materials.Reflect(rIn.direction, rec.normal)
  {
    var attenuation := White();
    var refracted := Refract(rIn.direction, OutwardNormal(rIn, rec), IndexRatio(refIdx, rIn, rec), sqrt);
    if refracted.Some? && draw > Schlick(IncidenceCosine(refIdx, rIn, rec, sqrt), refIdx) then
      Optional.Some(Materials.Scatter(attenuation, Rays.New(rec.p, refracted.value, rIn.time)))
    else
      Optional.Some(Materials.Scatter(attenuation, Rays.New(rec.p, Materials.Reflect(rIn.direction, rec.normal), rIn.time)))
  }

  /** A leaving ray refracts through the reversed normal with ratio
      `ref_idx`; an entering ray through the normal with `1 / ref_idx`. */
  lemma SidesOfTheSurface(refIdx: real, rIn: Rays.Ray, rec: Hits.HitRecord)
    requires refIdx != 0.0
    ensures rIn.direction.Dot(rec.normal) > 0.0 ==> OutwardNormal(rIn, rec) == rec.normal.Neg() && IndexRatio(refIdx, rIn, rec) == refIdx
    ensures rIn.direction.Dot(rec.normal) <= 0.0 ==> OutwardNormal(rIn, rec) == rec.normal && IndexRatio(refIdx, rIn, rec) == 1.0 / refIdx
  {
  }

  /** Under total internal reflection the ray is always reflected. */
  lemma TotalInternalReflection(refIdx: real, rIn: Rays.Ray, rec: Hits.HitRecord, draw: real, sqrt: real -> real)
    requires refIdx != 0.0 && 1.0 + refIdx != 0.0
    requires rIn.direction.v.Length(sqrt) != 0.0
    requires Discriminant(rIn.direction, OutwardNormal(rIn, rec), IndexRatio(refIdx, rIn, rec), sqrt) <= 0.0
    ensures Scatter(refIdx, rIn, rec, draw, sqrt).value.scattered.direction == Materials.Reflect(rIn.direction, rec.normal)
  {
  }

  /** Schlick's probability is `r0²` head-on and 1 at grazing incidence. */
  lemma SchlickEnds(refIdx: real)
    requires 1.0 + refIdx != 0.0
    ensures var r0 := (1.0 - refIdx) / (1.0 + refIdx);
      Schlick(1.0, refIdx) == r0 * r0 && Schlick(0.0, refIdx) == 1.0
  {
  }

  /** With equal indices, a unit normal and a ray heading into the surface,
      refraction leaves the unit direction unchanged. */
  lemma RefractNoChange(v: Dirs.Dir, n: Dirs.Dir, sqrt: real -> real)
    requires v.v.Length(sqrt) != 0.0
    requires Materials.IsUnit(n) && Cosine(v, n, sqrt) < 0.0
    requires Numerics.SqrtAt(sqrt, Discriminant(v, n, 1.0, sqrt))
    ensures Refract(v, n, 1.0, sqrt) == Optional.Some(v.UnitVector(sqrt))
  {
    var uv := v.UnitVector(sqrt);
    var dt := Cosine(v, n, sqrt);
    var disc := Discriminant(v, n, 1.0, sqrt);
    assert disc == dt * dt;
    Squares.Positive(dt, disc);
    Numerics.SqrtOfSquare(sqrt, dt);
    assert sqrt(disc) == -dt;
    var r := Dirs.ScalarMul(1.0, uv.Sub(Dirs.ScalarMul(dt, n))).Sub(Dirs.ScalarMul(sqrt(disc), n));
    assert r == uv;
    assert Refract(v, n, 1.0, sqrt).Some?;
    assert Refract(v, n, 1.0, sqrt).value == r;
  }

  /** The worked refraction of the test module: the unit direction at 30
      degrees from the normal `(0, -1, 0)`, passing with ratio `√2`,
      leaves at 45 degrees, along `(√2 / 2, √2 / 2, 0)`. `r2` and `r3`
      stand for `√2` and `√3`, and `sqrt` is exact at the two values
      `refract` takes it of. */
  lemma RefractExample(r2: real, r3: real, sqrt: real -> real)
    requires r2 > 0.0 && r2 * r2 == 2.0 && r3 > 0.0 && r3 * r3 == 3.0
    requires Numerics.SqrtAt(sqrt, 1.0) && Numerics.SqrtAt(sqrt, 0.5)
    ensures var v := Dirs.New(0.5, r3 / 2.0, 0.0);
      v.v.Length(sqrt) != 0.0
      && Refract(v, Dirs.New(0.0, -1.0, 0.0), r2, sqrt) == Optional.Some(Dirs.New(r2 / 2.0, r2 / 2.0, 0.0))
  {
    var v := Dirs.New(0.5, r3 / 2.0, 0.0);
    var n := Dirs.New(0.0, -1.0, 0.0);
    assert v.SquaredLength() == 1.0;
    Numerics.SquaresEqual(sqrt(1.0), 1.0);
    assert v.UnitVector(sqrt) == v;
    assert Cosine(v, n, sqrt) == -r3 / 2.0;
    assert Discriminant(v, n, r2, sqrt) == 0.5;
    Numerics.SquaresEqual(sqrt(0.5), r2 / 2.0);
    var r := Dirs.ScalarMul(r2, v.Sub(Dirs.ScalarMul(-r3 / 2.0, n))).Sub(Dirs.ScalarMul(r2 / 2.0, n));
    assert r == Dirs.New(r2 / 2.0, r2 / 2.0, 0.0);
  }
}

=== FILE: dir.dfy ===
/** Directions (src/vec3/dir.rs): a `Vec3` tagged as a displacement. */
module Dirs {

  import Vectors

  datatype Dir = Dir(v: Vectors.Vec3)
  {
    function X(): real { v.e0 }
    function Y(): real { v.e1 }
    function Z(): real { v.e2 }

    function SquaredLength(): real { v.SquaredLength() }

    function Length(sqrt: real -> real): real { v.Length(sqrt) }

    function Dot(o: Dir): real { v.Dot(o.v) }

    function Cross(o: Dir): Dir { Dir(v.Cross(o.v)) }

    function UnitVector(sqrt: real -> real): Dir
      requires v.Length(sqrt) != 0.0
    {
      Dir(v.UnitVector(sqrt))
    }

    function Neg(): Dir { Dir(v.Neg()) }

    function Add(o: Dir): Dir { Dir(v.Add(o.v)) }

    function Sub(o: Dir): Dir { Dir(v.Sub(o.v)) }

    function Mul(o: Dir): Dir { Dir(v.Mul(o.v)) }

    function Div(o: Dir): Dir
      requires o.v.NonZero()
    {
      Dir(v.Div(o.v))
    }

    /** `Dir * Float` */
    function MulScalar(t: real): Dir { Dir(v.MulScalar(t)) }

    /** `Dir / Float` */
    function DivScalar(t: real): Dir
      requires t != 0.0
    {
      Dir(v.DivScalar(t))
    }
  }

  function Zero(): Dir { Dir(Vectors.Zero()) }

  function New(x: real, y: real, z: real): Dir { Dir(Vectors.New(x, y, z)) }

  /** `Float * Dir` */
  function ScalarMul(t: real, d: Dir): Dir { Dir(Vectors.ScalarMul(t, d.v)) }

  // Compound assignment delegates to the vector's operators.

  method AddAssign(d: Dir, i: Dir) returns (r: Dir)
    ensures r == d.Add(i)
  {
    var v := Vectors.AddAssign(d.v, i.v);
    r := Dir(v);
  }

  method SubAssign(d: Dir, i: Dir) returns (r: Dir)
    ensures r == d.Sub(i)
  {
    var v := Vectors.SubAssign(d.v, i.v);
    r := Dir(v);
  }

  method MulAssign(d: Dir, i: Dir) returns (r: Dir)
    ensures r == d.Mul(i)
  {
    var v := Vectors.MulAssign(d.v, i.v);
    r := Dir(v);
  }

  method DivAssign(d: Dir, i: Dir) returns (r: Dir)
    requires i.v.NonZero()
    ensures r == d.Div(i)
  {
    var v := Vectors.DivAssign(d.v, i.v);
    r := Dir(v);
  }

  method MulAssignScalar(d: Dir, t: real) returns (r: Dir)
    ensures r == d.MulScalar(t)
  {
    var v := Vectors.MulAssignScalar(d.v, t);
    r := Dir(v);
  }

  method DivAssignScalar(d: Dir, t: real) returns (r: Dir)
    requires t != 0.0
    ensures r == d.DivScalar(t)
  {
    var v := Vectors.DivAssignScalar(d.v, t);
    r := Dir(v);
  }

  /** `x()`, `y()` and `z()` read components 0, 1 and 2. */
  lemma Accessors(x: real, y: real, z: real)
    ensures New(x, y, z).X() == x && New(x, y, z).Y() == y && New(x, y, z).Z() == z
    ensures New(x, y, z).X() == New(x, y, z).v.At(0)
    ensures New(x, y, z).Y() == New(x, y, z).v.At(1)
    ensures New(x, y, z).Z() == New(x, y, z).v.At(2)
  {
  }

  /** `+` and `-` are componentwise, and a direction minus itself is zero. */
  lemma AddSubComponentwise(a: Dir, b: Dir)
    ensures a.Add(b) == New(a.X() + b.X(), a.Y() + b.Y(), a.Z() + b.Z())
    ensures a.Sub(b) == New(a.X() - b.X(), a.Y() - b.Y(), a.Z() - b.Z())
    ensures a.Sub(a) == Zero()
    ensures a.Add(b).Sub(b) == a
  {
  }

  /** Scaling commutes: `t * d == d * t`. */
  lemma ScalarCommutes(t: real, d: Dir)
    ensures ScalarMul(t, d) == d.MulScalar(t)
    ensures ScalarMul(t, d) == New(t * d.X(), t * d.Y(), t * d.Z())
  {
  }

  /** Negation flips every component and is an involution. */
  lemma NegFlips(d: Dir)
    ensures d.Neg() == New(-d.X(), -d.Y(), -d.Z())
    ensures d.Neg().Neg() == d
  {
  }

  /** The dot product is symmetric. */
  lemma DotSymmetric(a: Dir, b: Dir)
    ensures a.Dot(b) == b.Dot(a)
    ensures a.Dot(b) == a.X() * b.X() + a.Y() * b.Y() + a.Z() * b.Z()
  {
  }
}

=== FILE: grids.dfy ===
/** The pixel accumulators `Pixbuf` (src/pixbuf.rs) and `Image`
    (src/image.rs). The two structures have the same fields and the same
    code, so one grid models both: `w` by `h` colours stored row-major, the
    pixel at column `x` of row `y` at position `x + w y`. `Pixbuf` exposes
    its pixel vector, so a grid is not assumed to hold exactly `w h`
    pixels; `Valid` says when it does, as it always does for an `Image`. */
module Grids {

  import Optional
  import Colours

  datatype Grid = Grid(w: nat, h: nat, pixels: seq<Colours.Col>)

  /** The pixel vector has one entry per cell */
  predicate Valid(g: Grid)
  {
    |g.pixels| == g.w * g.h
  }

  /** The row-major position of the cell at column `x` of row `y` */
  function Index(w: nat, x: nat, y: nat): nat
  {
    x + w * y
  }

  /** Multiplication by `w` is monotonic. */
  lemma {:induction false} MulMonotonic(w: nat, a: nat, b: nat)
    requires a <= b
    ensures w * a <= w * b
    decreases b - a
  {
    if a < b {
      MulMonotonic(w, a, b - 1);
      calc {
        w * a;
      <=
        w * (b - 1);
      <=
        w * (b - 1) + w;
      ==
        w * b;
      }
    }
  }

  /** A cell inside the grid has a position below `w h`. */
  lemma IndexInBounds(w: nat, h: nat, x: nat, y: nat)
    requires x < w && y < h
    ensures Index(w, x, y) < w * h
  {
    MulMonotonic(w, y + 1, h);
    calc {
      Index(w, x, y);
    ==
      x + w * y;
    <
      w + w * y;
    ==
      w * (y + 1);
    <=
      w * h;
    }
  }

  /** Two cells of the same row width share a position only when they are
      the same cell. */
  lemma IndexInjective(w: nat, x: nat, y: nat, x': nat, y': nat)
    requires x < w && x' < w
    requires Index(w, x, y) == Index(w, x', y')
    ensures x == x' && y == y'
  {
    if y < y' {
      Below(w, x, y, y');
    } else if y' < y {
      Below(w, x', y', y);
    }
  }

  /** Every cell of an earlier row comes before every cell of a later one. */
  lemma Below(w: nat, x: nat, y: nat, y': nat)
    requires x < w && y < y'
    ensures Index(w, x, y) < w * y'
  {
    MulMonotonic(w, y + 1, y');
    calc {
      x + w * y;
    <
      w + w * y;
    ==
      w * (y + 1);
    <=
      w * y';
    }
  }

  /** `new(w, h)`: `w h` black pixels */
  function New(w: nat, h: nat): (r: Grid)
    ensures Valid(r) && r.w == w && r.h == h
  {
    Grid(w, h, seq(w * h, _ => Colours.Zero()))
  }

  /** The cell lies inside the grid, as `put` and `get` check in debug
      builds, and its position lies inside the pixel vector, as the
      indexing checks in every build */
  predicate InRange(g: Grid, x: nat, y: nat)
  {
    x < g.w && y < g.h && Index(g.w, x, y) < |g.pixels|
  }

  /** In a valid grid every cell inside the dimensions is in range. */
  lemma ValidInRange(g: Grid, x: nat, y: nat)
    requires Valid(g) && x < g.w && y < g.h
    ensures InRange(g, x, y)
  {
    IndexInBounds(g.w, g.h, x, y);
  }

  /** `get(x, y)` */
  function Get(g: Grid, x: nat, y: nat): Colours.Col
    requires InRange(g, x, y)
  {
    g.pixels[Index(g.w, x, y)]
  }

  /** `put(x, y, c)` */
  function Put(g: Grid, x: nat, y: nat, c: Colours.Col): (r: Grid)
    requires InRange(g, x, y)
    ensures r.w == g.w && r.h == g.h && |r.pixels| == |g.pixels|
  {
    g.(pixels := g.pixels[Index(g.w, x, y) := c])
  }

  /** A new grid is black in every cell. */
  lemma NewIsBlack(w: nat, h: nat, x: nat, y: nat)
    requires x < w && y < h
    ensures InRange(New(w, h), x, y) && Get(New(w, h), x, y) == Colours.Zero()
  {
    ValidInRange(New(w, h), x, y);
  }

  /** Reading a cell after writing one gives the colour written when it is
      the same cell and the old colour otherwise. */
  lemma GetAfterPut(g: Grid, x: nat, y: nat, c: Colours.Col, x': nat, y': nat)
    requires InRange(g, x, y) && InRange(g, x', y')
    ensures InRange(Put(g, x, y, c), x', y')
    ensures Get(Put(g, x, y, c), x', y') == if x' == x && y' == y then c else Get(g, x', y')
  {
    if x' != x || y' != y {
      if Index(g.w, x, y) == Index(g.w, x', y') {
        IndexInjective(g.w, x, y, x', y');
      }
    }
  }

  /** `d += s` in the pixel loop: the first `|s|` pixels of `d` receive the
      matching pixels of `s`; the zip stops at the shorter vector. */
  function Sums(d: seq<Colours.Col>, s: seq<Colours.Col>): (r: seq<Colours.Col>)
    ensures |r| == |d|
  {
    seq(|d|, i requires 0 <= i < |d| => if i < |s| then d[i].Add(s[i]) else d[i])
  }

  /** `self += other`: nothing (the `assert_eq!` panic) unless the widths and
      the heights agree, otherwise the pixelwise sum with the dimensions of
      `self` */
  function Merge(a: Grid, b: Grid): (r: Optional.Option<Grid>)
    ensures r.None? <==> a.w != b.w || a.h != b.h
    ensures r.Some? ==> r.value.w == a.w && r.value.h == a.h && |r.value.pixels| == |a.pixels|
  {
    if a.w != b.w || a.h != b.h then Optional.None
    else Optional.Some(a.(pixels := Sums(a.pixels, b.pixels)))
  }

  /** The `add_assign` loop: the pixel pairs of the zip are summed one at a
      time, and the outcome is `Merge`. */
  method AddAssign(a: Grid, b: Grid) returns (r: Optional.Option<Grid>)
    ensures r == Merge(a, b)
  {
    if a.w != b.w || a.h != b.h {
      return Optional.None;
    }
    var pixels := a.pixels;
    var i := 0;
    while i < |a.pixels| && i < |b.pixels|
      invariant 0 <= i <= |a.pixels| && i <= |b.pixels|
      invariant |pixels| == |a.pixels|
      invariant forall k :: 0 <= k < i ==> pixels[k] == a.pixels[k].Add(b.pixels[k])
      invariant forall k :: i <= k < |a.pixels| ==> pixels[k] == a.pixels[k]
    {
      var sum := Colours.AddAssign(pixels[i], b.pixels[i]);
      pixels := pixels[i := sum];
      i := i + 1;
    }
    forall k | 0 <= k < |a.pixels|
      ensures pixels[k] == Sums(a.pixels, b.pixels)[k]
    {
    }
    assert pixels == Sums(a.pixels, b.pixels);
    r := Optional.Some(a.(pixels := pixels));
  }

  /** Adding into a grid changes each pixel by the matching pixel of the
      other grid and leaves the pixels it has no partner for. */
  lemma MergePixels(a: Grid, b: Grid, x: nat, y: nat)
    requires a.w == b.w && a.h == b.h && InRange(a, x, y)
    ensures InRange(Merge(a, b).value, x, y)
    ensures Get(Merge(a, b).value, x, y)
         == if InRange(b, x, y) then Get(a, x, y).Add(Get(b, x, y)) else Get(a, x, y)
  {
  }

  /** Merging two valid grids of the same size does not depend on which
      one receives the other. */
  lemma MergeCommutes(a: Grid, b: Grid)
    requires Valid(a) && Valid(b) && a.w == b.w && a.h == b.h
    ensures Merge(a, b) == Merge(b, a)
  {
    var p := Sums(a.pixels, b.pixels);
    var q := Sums(b.pixels, a.pixels);
    forall k | 0 <= k < |p|
      ensures p[k] == q[k]
    {
      Colours.ChannelwiseAlgebra(a.pixels[k], b.pixels[k]);
      Colours.ChannelwiseAlgebra(b.pixels[k], a.pixels[k]);
    }
    assert p == q;
  }

  /** Merging three valid grids of the same size does not depend on how the
      merges are grouped; with `MergeCommutes`, a set of grids merged one
      after another gives the same pixels in every order. */
  lemma MergeAssociates(a: Grid, b: Grid, c: Grid)
    requires Valid(a) && Valid(b) && Valid(c)
    requires a.w == b.w == c.w && a.h == b.h == c.h
    ensures Merge(a, b).Some? && Merge(b, c).Some?
    ensures Merge(Merge(a, b).value, c) == Merge(a, Merge(b, c).value)
  {
    var p := Merge(Merge(a, b).value, c).value.pixels;
    var q := Merge(a, Merge(b, c).value).value.pixels;
    forall k | 0 <= k < |p|
      ensures p[k] == q[k]
    {
      Colours.ChannelwiseAlgebra(a.pixels[k], b.pixels[k]);
      Colours.ChannelwiseAlgebra(b.pixels[k], c.pixels[k]);
      Colours.ChannelwiseAlgebra(a.pixels[k].Add(b.pixels[k]), c.pixels[k]);
      Colours.ChannelwiseAlgebra(a.pixels[k], b.pixels[k].Add(c.pixels[k]));
    }
    assert p == q;
  }
}

=== FILE: hit_record.dfy ===
/** The record of a ray-surface intersection (src/hitable.rs): the ray
    parameter, the point, the surface normal and the surface's material. */
module Hits {

  import Dirs
  import Positions
  import Materials

  datatype HitRecord = HitRecord(t: real, p: Positions.Pos, normal: Dirs.Dir, mat: Materials.Material)
}

=== FILE: hitables.dfy ===
/** The scene graph (src/hitable.rs, src/hitable/list.rs,
    src/hitable/bounding_box.rs:147-172, src/hitable/stats.rs:45-69): the
    `Hitable` trait objects become one closed datatype. Every query threads
    the instrumentation context `Stats<C>` through the tree, left to right,
    as the context-carrying shape of the trait does. */
module Hitables {

  import Optional
  import Counters
  import BoundingBoxes
  import Rays
  import Hits
  import Spheres
  import MovingSpheres
  import Nearest
  import Numerics

  datatype Hitable<C(==)> =
    | Sphere(sphere: Spheres.Sphere)
    | Moving(moving: MovingSpheres.MovingSphere)
    | List(items: seq<Hitable<C>>)
    | Node(bounds: BoundingBoxes.BoundingBox, left: Hitable<C>, right: Hitable<C>)
    | Recorder(category: C, inner: Hitable<C>)

  /** The answer to a hit query and the context after it */
  datatype Probe<C(==)> = Probe(hit: Optional.Option<Hits.HitRecord>, stats: Counters.Stats<C>)

  /** Every moving sphere in the tree has distinct key times */
  predicate WellFormed<C(==)>(h: Hitable<C>)
  {
    match h
    case Sphere(_) => true
    case Moving(m) => MovingSpheres.Valid(m)
    case List(items) => forall i :: 0 <= i < |items| ==> WellFormed(items[i])
    case Node(_, l, r) => WellFormed(l) && WellFormed(r)
    case Recorder(_, inner) => WellFormed(inner)
  }

  /** The node's choice between its children's answers: the left one only
      when it is strictly nearer, so that ties go right; a lone hit wins. */
  function Nearer(left: Optional.Option<Hits.HitRecord>, right: Optional.Option<Hits.HitRecord>): (r: Optional.Option<Hits.HitRecord>)
    ensures r.Some? <==> left.Some? || right.Some?
    ensures r == left || r == right
    ensures r.Some? && left.Some? ==> r.value.t <= left.value.t
    ensures r.Some? && right.Some? ==> r.value.t <= right.value.t
    ensures left.Some? && right.Some? && left.value.t == right.value.t ==> r == right
  {
    match (left, right)
    case (Some(l), Some(rt)) => if l.t < rt.t then left else right
    case (None, _) => right
    case _ => left
  }

  /** `Hitable::hit`. A returned time always lies strictly inside the
      window, and a recorder hits exactly when what it wraps does. */
  function Hit<C(==)>(h: Hitable<C>, stats: Counters.Stats<C>, ray: Rays.Ray, tMin: real, tMax: real, sqrt: real -> real): (r: Probe<C>)
    requires WellFormed(h)
    ensures r.hit.Some? ==> tMin < r.hit.value.t < tMax
    decreases h, 1, 0
  {
    match h
    case Sphere(s) => Probe(Spheres.Hit(s, ray, tMin, tMax, sqrt), stats)
    case Moving(m) => Probe(MovingSpheres.Hit(m, ray, tMin, tMax, sqrt), stats)
    case List(items) => Scan(h, 0, stats, ray, tMin, tMax, Optional.None, sqrt)
    case Node(bounds, left, right) =>
      if BoundingBoxes.Hit(bounds, ray, tMin, tMax) then
        var l := Hit(left, stats, ray, tMin, tMax, sqrt);
        var r := Hit(right, l.stats, ray, tMin, tMax, sqrt);
        Probe(Nearer(l.hit, r.hit), r.stats)
      else
        Probe(Optional.None, stats)
    case Recorder(category, inner) =>
      var p := Hit(inner, stats, ray, tMin, tMax, sqrt);
      Probe(p.hit, if p.hit.Some? then Counters.Hit(p.stats, category) else Counters.Miss(p.stats, category))
  }

  /** The loop of `HitableList::hit` from item `i` on: each item is asked
      for a hit before `closest`, and a hit becomes the new answer and the
      new `closest`. The answer is strictly later than `tMin`, and it is
      the previous answer or strictly earlier than `closest`. */
  function Scan<C(==)>(h: Hitable<C>, i: nat, stats: Counters.Stats<C>, ray: Rays.Ray, tMin: real, closest: real,
                       best: Optional.Option<Hits.HitRecord>, sqrt: real -> real): (r: Probe<C>)
    requires h.List? && i <= |h.items| && WellFormed(h)
    requires best.Some? ==> tMin < best.value.t && best.value.t == closest
    ensures r.hit.Some? ==> tMin < r.hit.value.t && (r.hit == best || r.hit.value.t < closest)
    ensures best.Some? ==> r.hit.Some?
    decreases h, 0, |h.items| - i
  {
    if i == |h.items| then
      Probe(best, stats)
    else
      var p := Hit(h.items[i], stats, ray, tMin, closest, sqrt);
      if p.hit.Some? then
        Scan(h, i + 1, p.stats, ray, tMin, p.hit.value.t, p.hit, sqrt)
      else
        Scan(h, i + 1, p.stats, ray, tMin, closest, best, sqrt)
  }

  /** `bounding_box`: a sphere's box, no box for a moving sphere, the fold
      of `surrounding` over a list, a node's stored bounds, and a
      recorder's wrapped box. A list has a box exactly when it is nonempty
      and every item has one; the box then contains every item's box and
      lies within every box that does. */
  function BoundingBoxOf<C(==)>(h: Hitable<C>): (r: Optional.Option<BoundingBoxes.BoundingBox>)
    ensures h.Sphere? ==> r == Optional.Some(Spheres.BoundingBox(h.sphere))
    ensures h.Moving? ==> r.None?
    ensures h.Node? ==> r == Optional.Some(h.bounds)
    ensures h.Recorder? ==> r == BoundingBoxOf(h.inner)
    ensures h.List? ==> (r.None? <==> |h.items| == 0 || exists j :: 0 <= j < |h.items| && BoundingBoxOf(h.items[j]).None?)
    ensures h.List? && r.Some? ==> forall j :: 0 <= j < |h.items| ==> BoundingBoxes.Contains(r.value, BoundingBoxOf(h.items[j]).value)
    ensures h.List? && r.Some? ==> forall o :: Encloses(o, h, 0) ==> BoundingBoxes.Contains(o, r.value)
    decreases h, 1, 0
  {
    match h
    case Sphere(s) => Optional.Some(Spheres.BoundingBox(s))
    case Moving(_) => Optional.None
    case List(items) =>
      if |items| == 0 then Optional.None
      else
        (match BoundingBoxOf(items[0])
         case None => Optional.None
         case Some(first) => Fold(h, 1, first))
    case Node(bounds, _, _) => Optional.Some(bounds)
    case Recorder(_, inner) => BoundingBoxOf(inner)
  }

  /** Every item of the list from `i` on has a box, and `o` contains it */
  predicate Encloses<C(==)>(o: BoundingBoxes.BoundingBox, h: Hitable<C>, i: nat)
    requires h.List?
    decreases h, 0, 0
  {
    forall j :: i <= j < |h.items| ==>
      BoundingBoxOf(h.items[j]).Some? && BoundingBoxes.Contains(o, BoundingBoxOf(h.items[j]).value)
  }

  /** The `try_fold` of `surrounding` over the items from `i` on, starting
      from `acc`; the first item without a box stops it. */
  function Fold<C(==)>(h: Hitable<C>, i: nat, acc: BoundingBoxes.BoundingBox): (r: Optional.Option<BoundingBoxes.BoundingBox>)
    requires h.List? && i <= |h.items|
    ensures r.None? <==> exists j :: i <= j < |h.items| && BoundingBoxOf(h.items[j]).None?
    ensures r.Some? ==> BoundingBoxes.Contains(r.value, acc) && Encloses(r.value, h, i)
    ensures r.Some? ==> forall o :: BoundingBoxes.Contains(o, acc) && Encloses(o, h, i) ==> BoundingBoxes.Contains(o, r.value)
    decreases h, 0, |h.items| - i + 1
  {
    if i == |h.items| then
      Optional.Some(acc)
    else
      match BoundingBoxOf(h.items[i])
      case None => Optional.None
      case Some(b) =>
        EnclosesStep(h, i, b);
        Fold(h, i + 1, BoundingBoxes.Surrounding(acc, b))
  }

  /** A box encloses the items from `i` on exactly when it contains item
      `i`'s box and encloses the items after it. */
  lemma EnclosesStep<C>(h: Hitable<C>, i: nat, b: BoundingBoxes.BoundingBox)
    requires h.List? && i < |h.items| && BoundingBoxOf(h.items[i]) == Optional.Some(b)
    ensures forall o :: Encloses(o, h, i) <==> BoundingBoxes.Contains(o, b) && Encloses(o, h, i + 1)
    decreases h, 0, 1
  {
  }

  /** Querying an empty list finds nothing and records nothing. */
  lemma EmptyListMisses<C>(stats: Counters.Stats<C>, ray: Rays.Ray, tMin: real, tMax: real, sqrt: real -> real)
    ensures Hit(List([]), stats, ray, tMin, tMax, sqrt) == Probe(Optional.None, stats)
  {
  }

  /** A node whose box the ray misses answers nothing and records nothing,
      whatever its children would answer. */
  lemma NodeOutsideBox<C>(bounds: BoundingBoxes.BoundingBox, left: Hitable<C>, right: Hitable<C>, stats: Counters.Stats<C>,
                          ray: Rays.Ray, tMin: real, tMax: real, sqrt: real -> real)
    requires WellFormed(left) && WellFormed(right)
    requires !BoundingBoxes.Hit(bounds, ray, tMin, tMax)
    ensures Hit(Node(bounds, left, right), stats, ray, tMin, tMax, sqrt) == Probe(Optional.None, stats)
  {
  }

  /** The answer never depends on the context handed in. */
  lemma {:induction false} HitIgnoresStats<C>(h: Hitable<C>, s1: Counters.Stats<C>, s2: Counters.Stats<C>,
                                                  ray: Rays.Ray, tMin: real, tMax: real, sqrt: real -> real)
    requires WellFormed(h)
    ensures Hit(h, s1, ray, tMin, tMax, sqrt).hit == Hit(h, s2, ray, tMin, tMax, sqrt).hit
    decreases h, 1
  {
    match h
    case Sphere(_) =>
    case Moving(_) =>
    case List(_) =>
      ScanIgnoresStats(h, 0, s1, s2, ray, tMin, tMax, Optional.None, sqrt);
    case Node(bounds, left, right) =>
      if BoundingBoxes.Hit(bounds, ray, tMin, tMax) {
        var l1 := Hit(left, s1, ray, tMin, tMax, sqrt);
        var l2 := Hit(left, s2, ray, tMin, tMax, sqrt);
        HitIgnoresStats(left, s1, s2, ray, tMin, tMax, sqrt);
        HitIgnoresStats(right, l1.stats, l2.stats, ray, tMin, tMax, sqrt);
      }
    case Recorder(_, inner) =>
      HitIgnoresStats(inner, s1, s2, ray, tMin, tMax, sqrt);
  }

  lemma {:induction false} ScanIgnoresStats<C>(h: Hitable<C>, i: nat, s1: Counters.Stats<C>, s2: Counters.Stats<C>, ray: Rays.Ray,
                                                   tMin: real, closest: real, best: Optional.Option<Hits.HitRecord>, sqrt: real -> real)
    requires h.List? && i <= |h.items| && WellFormed(h)
    requires best.Some? ==> tMin < best.value.t && best.value.t == closest
    ensures Scan(h, i, s1, ray, tMin, closest, best, sqrt).hit == Scan(h, i, s2, ray, tMin, closest, best, sqrt).hit
    decreases h, 0, |h.items| - i
  {
    if i < |h.items| {
      var p1 := Hit(h.items[i], s1, ray, tMin, closest, sqrt);
      var p2 := Hit(h.items[i], s2, ray, tMin, closest, sqrt);
      HitIgnoresStats(h.items[i], s1, s2, ray, tMin, closest, sqrt);
      if p1.hit.Some? {
        ScanIgnoresStats(h, i + 1, p1.stats, p2.stats, ray, tMin, p1.hit.value.t, p1.hit, sqrt);
      } else {
        ScanIgnoresStats(h, i + 1, p1.stats, p2.stats, ray, tMin, closest, best, sqrt);
      }
    }
  }

  /** The tree holds no recorder */
  predicate Unrecorded<C(==)>(h: Hitable<C>)
  {
    match h
    case Sphere(_) => true
    case Moving(_) => true
    case List(items) => forall i :: 0 <= i < |items| ==> Unrecorded(items[i])
    case Node(_, l, r) => Unrecorded(l) && Unrecorded(r)
    case Recorder(_, _) => false
  }

  /** Only recorders write to the context: a tree without one hands it
      back unchanged. */
  lemma {:induction false} UnrecordedKeepsStats<C>(h: Hitable<C>, stats: Counters.Stats<C>,
                                                       ray: Rays.Ray, tMin: real, tMax: real, sqrt: real -> real)
    requires WellFormed(h) && Unrecorded(h)
    ensures Hit(h, stats, ray, tMin, tMax, sqrt).stats == stats
    decreases h, 1
  {
    match h
    case Sphere(_) =>
    case Moving(_) =>
    case List(_) =>
      ScanKeepsStats(h, 0, stats, ray, tMin, tMax, Optional.None, sqrt);
    case Node(bounds, left, right) =>
      if BoundingBoxes.Hit(bounds, ray, tMin, tMax) {
        UnrecordedKeepsStats(left, stats, ray, tMin, tMax, sqrt);
        UnrecordedKeepsStats(right, stats, ray, tMin, tMax, sqrt);
      }
  }

  lemma {:induction false} ScanKeepsStats<C>(h: Hitable<C>, i: nat, stats: Counters.Stats<C>, ray: Rays.Ray,
                                                 tMin: real, closest: real, best: Optional.Option<Hits.HitRecord>, sqrt: real -> real)
    requires h.List? && i <= |h.items| && WellFormed(h) && Unrecorded(h)
    requires best.Some? ==> tMin < best.value.t && best.value.t == closest
    ensures Scan(h, i, stats, ray, tMin, closest, best, sqrt).stats == stats
    decreases h, 0, |h.items| - i
  {
    if i < |h.items| {
      var p := Hit(h.items[i], stats, ray, tMin, closest, sqrt);
      UnrecordedKeepsStats(h.items[i], stats, ray, tMin, closest, sqrt);
      if p.hit.Some? {
        ScanKeepsStats(h, i + 1, stats, ray, tMin, p.hit.value.t, p.hit, sqrt);
      } else {
        ScanKeepsStats(h, i + 1, stats, ray, tMin, closest, best, sqrt);
      }
    }
  }

  /** `StatsRecorder::hit`: the wrapped answer, unchanged, after exactly one
      more hit (when there is an answer) or one more miss (when there is
      none) under the recorder's category; no other category changes. */
  lemma RecorderCounts<C>(category: C, inner: Hitable<C>, stats: Counters.Stats<C>,
                              ray: Rays.Ray, tMin: real, tMax: real, sqrt: real -> real)
    requires WellFormed(inner)
    ensures var p := Hit(inner, stats, ray, tMin, tMax, sqrt);
      var r := Hit(Recorder(category, inner), stats, ray, tMin, tMax, sqrt);
      var before := Counters.Entry(p.stats, category);
      r.hit == p.hit
      && Counters.Entry(r.stats, category)
         == (if p.hit.Some? then Counters.Record(before.hits + 1, before.misses) else Counters.Record(before.hits, before.misses + 1))
      && r.stats.byCategory.Keys == p.stats.byCategory.Keys + {category}
      && forall c :: c in p.stats.byCategory && c != category ==> r.stats.byCategory[c] == p.stats.byCategory[c]
  {
  }

  /** The answer of `h` to a query with a fresh context, which is its
      answer under any context */
  function Answer<C(==)>(h: Hitable<C>, ray: Rays.Ray, tMin: real, tMax: real, sqrt: real -> real): Nearest.Answer
    requires WellFormed(h)
  {
    Hit(h, Counters.New(), ray, tMin, tMax, sqrt).hit
  }

  /** Lowering the upper end of the window to `bound` cuts the answer off
      at `bound` and does not uncover any other one. */
  ghost predicate Narrowable<C>(h: Hitable<C>, ray: Rays.Ray, tMin: real, tMax: real, sqrt: real -> real)
    requires WellFormed(h)
  {
    forall bound :: tMin < bound <= tMax ==>
      Answer(h, ray, tMin, bound, sqrt) == Nearest.Cut(Answer(h, ray, tMin, tMax, sqrt), bound)
  }

  /** The answers of the items, in order */
  ghost function Answers<C>(items: seq<Hitable<C>>, ray: Rays.Ray, tMin: real, tMax: real, sqrt: real -> real): (r: seq<Nearest.Answer>)
    requires forall k :: 0 <= k < |items| ==> WellFormed(items[k])
    ensures |r| == |items|
    ensures forall k :: 0 <= k < |r| && r[k].Some? ==> tMin < r[k].value.t < tMax
  {
    seq(|items|, k requires 0 <= k < |items| => Answer(items[k], ray, tMin, tMax, sqrt))
  }

  /** `HitableList::hit` returns the nearest answer of its items, and the
      first item's among equally near ones, when every item answers a
      narrowed window by cutting off its full answer. */
  lemma ListFindsNearest<C>(items: seq<Hitable<C>>, stats: Counters.Stats<C>,
                            ray: Rays.Ray, tMin: real, tMax: real, sqrt: real -> real)
    requires WellFormed(List(items))
    requires forall k :: 0 <= k < |items| ==> Narrowable(items[k], ray, tMin, tMax, sqrt)
    ensures Nearest.NearestIn(Hit(List(items), stats, ray, tMin, tMax, sqrt).hit, Answers(items, ray, tMin, tMax, sqrt), |items|)
  {
    var answers := Answers(items, ray, tMin, tMax, sqrt);
    ScanRuns(items, 0, stats, ray, tMin, tMax, Optional.None, sqrt);
    Nearest.RunIsNearest(answers, 0, Optional.None, tMax);
  }

  /** From item `i` on, the scan answers what the plain run over the items'
      full answers does. */
  lemma {:induction false} ScanRuns<C>(items: seq<Hitable<C>>, i: nat, stats: Counters.Stats<C>, ray: Rays.Ray,
                                       tMin: real, tMax: real, best: Nearest.Answer, sqrt: real -> real)
    requires WellFormed(List(items)) && i <= |items|
    requires forall k :: 0 <= k < |items| ==> Narrowable(items[k], ray, tMin, tMax, sqrt)
    requires best.Some? ==> tMin < best.value.t < tMax
    ensures Scan(List(items), i, stats, ray, tMin, Nearest.Closest(best, tMax), best, sqrt).hit
         == Nearest.Run(Answers(items, ray, tMin, tMax, sqrt), i, best, tMax)
    decreases |items| - i
  {
    if i < |items| {
      var p := Hit(items[i], stats, ray, tMin, Nearest.Closest(best, tMax), sqrt);
      ScanStep(List(items), i, stats, ray, tMin, tMax, best, sqrt);
      ScanRuns(items, i + 1, p.stats, ray, tMin, tMax, if p.hit.Some? then p.hit else best, sqrt);
    }
  }

  /** One step of the scan: the next item's answer is its full answer cut
      off at the answer so far, and the scan goes on from there. */
  lemma ScanStep<C>(h: Hitable<C>, i: nat, stats: Counters.Stats<C>, ray: Rays.Ray,
                    tMin: real, tMax: real, best: Nearest.Answer, sqrt: real -> real)
    requires h.List? && i < |h.items| && WellFormed(h)
    requires Narrowable(h.items[i], ray, tMin, tMax, sqrt)
    requires best.Some? ==> tMin < best.value.t < tMax
    ensures var p := Hit(h.items[i], stats, ray, tMin, Nearest.Closest(best, tMax), sqrt);
      var next := if p.hit.Some? then p.hit else best;
      && p.hit == Nearest.Cut(Answer(h.items[i], ray, tMin, tMax, sqrt), Nearest.Closest(best, tMax))
      && next == (if Nearest.Cut(Answer(h.items[i], ray, tMin, tMax, sqrt), Nearest.Closest(best, tMax)).Some?
                  then Answer(h.items[i], ray, tMin, tMax, sqrt) else best)
      && (next.Some? ==> tMin < next.value.t < tMax)
      && Scan(h, i, stats, ray, tMin, Nearest.Closest(best, tMax), best, sqrt)
         == Scan(h, i + 1, p.stats, ray, tMin, Nearest.Closest(next, tMax), next, sqrt)
  {
    AskItem(h.items[i], stats, ray, tMin, tMax, best, sqrt);
  }

  /** An item asked for a hit before the answer so far gives its full
      answer cut off there. */
  lemma AskItem<C>(item: Hitable<C>, stats: Counters.Stats<C>, ray: Rays.Ray,
                   tMin: real, tMax: real, best: Nearest.Answer, sqrt: real -> real)
    requires WellFormed(item) && Narrowable(item, ray, tMin, tMax, sqrt)
    requires best.Some? ==> tMin < best.value.t < tMax
    ensures Hit(item, stats, ray, tMin, Nearest.Closest(best, tMax), sqrt).hit
         == Nearest.Cut(Answer(item, ray, tMin, tMax, sqrt), Nearest.Closest(best, tMax))
  {
    var closest := Nearest.Closest(best, tMax);
    HitIgnoresStats(item, stats, Counters.New(), ray, tMin, closest, sqrt);
    if best.Some? {
      assert Answer(item, ray, tMin, closest, sqrt) == Nearest.Cut(Answer(item, ray, tMin, tMax, sqrt), closest);
    }
  }

  /** A sphere answers a narrowed window by cutting off its full answer,
      when `sqrt` is exact at its discriminant where `hit` takes it. */
  lemma SphereNarrowable<C>(s: Spheres.Sphere, ray: Rays.Ray, tMin: real, tMax: real, sqrt: real -> real)
    requires Spheres.ExactRoot(Spheres.Coefficients(s.center, s.radius, ray), sqrt)
    ensures Narrowable(Hitable<C>.Sphere(s), ray, tMin, tMax, sqrt)
  {
    forall bound | tMin < bound <= tMax
      ensures Answer(Hitable<C>.Sphere(s), ray, tMin, bound, sqrt)
           == Nearest.Cut(Answer(Hitable<C>.Sphere(s), ray, tMin, tMax, sqrt), bound)
    {
      Spheres.Narrowing(s.center, s.radius, s.mat, ray, tMin, tMax, bound, sqrt);
    }
  }

  /** So does a moving sphere, with its centre at the ray's time. */
  lemma MovingNarrowable<C>(m: MovingSpheres.MovingSphere, ray: Rays.Ray, tMin: real, tMax: real, sqrt: real -> real)
    requires MovingSpheres.Valid(m)
    requires Spheres.ExactRoot(Spheres.Coefficients(MovingSpheres.Center(m, ray.time), m.radius, ray), sqrt)
    ensures Narrowable(Hitable<C>.Moving(m), ray, tMin, tMax, sqrt)
  {
    forall bound | tMin < bound <= tMax
      ensures Answer(Hitable<C>.Moving(m), ray, tMin, bound, sqrt)
           == Nearest.Cut(Answer(Hitable<C>.Moving(m), ray, tMin, tMax, sqrt), bound)
    {
      Spheres.Narrowing(MovingSpheres.Center(m, ray.time), m.radius, m.mat, ray, tMin, tMax, bound, sqrt);
    }
  }

  /** A recorder answers as what it wraps, so it narrows as that does. */
  lemma RecorderNarrowable<C>(category: C, inner: Hitable<C>, ray: Rays.Ray, tMin: real, tMax: real, sqrt: real -> real)
    requires WellFormed(inner) && Narrowable(inner, ray, tMin, tMax, sqrt)
    ensures Narrowable(Recorder(category, inner), ray, tMin, tMax, sqrt)
  {
    forall bound | tMin < bound <= tMax
      ensures Answer(Recorder(category, inner), ray, tMin, bound, sqrt)
           == Nearest.Cut(Answer(Recorder(category, inner), ray, tMin, tMax, sqrt), bound)
    {
      assert Answer(inner, ray, tMin, bound, sqrt) == Nearest.Cut(Answer(inner, ray, tMin, tMax, sqrt), bound);
    }
  }
}

=== FILE: images.dfy ===
/** `Image` (src/image.rs): the same grid as `Pixbuf`, but its pixel vector
    is private, so the only images are the ones `new`, `put` and `+=` make,
    and every one of them holds exactly `w h` pixels. */
module Images {

  import Optional
  import Colours
  import Grids

  type Image = g: Grids.Grid | Grids.Valid(g) witness Grids.Grid(0, 0, [])

  /** `Image::new(w, h)` */
  function New(w: nat, h: nat): (r: Image)
    ensures r.w == w && r.h == h
  {
    Grids.New(w, h)
  }

  /** `get(x, y)`: every cell inside the dimensions can be read. */
  function Get(img: Image, x: nat, y: nat): Colours.Col
    requires x < img.w && y < img.h
  {
    Grids.ValidInRange(img, x, y);
    Grids.Get(img, x, y)
  }

  /** `put(x, y, c)`: every cell inside the dimensions can be written. */
  function Put(img: Image, x: nat, y: nat, c: Colours.Col): (r: Image)
    requires x < img.w && y < img.h
    ensures r.w == img.w && r.h == img.h
  {
    Grids.ValidInRange(img, x, y);
    Grids.Put(img, x, y, c)
  }

  /** `self += other`: nothing (the `assert_eq!` panic) unless the
      dimensions agree, otherwise an image of the same dimensions */
  function Merge(a: Image, b: Image): (r: Optional.Option<Image>)
    ensures r.None? <==> a.w != b.w || a.h != b.h
    ensures r.Some? ==> r.value.w == a.w && r.value.h == a.h
  {
    var m := Grids.Merge(a, b);
    if m.None? then Optional.None else Optional.Some(m.value)
  }

  /** Every cell of a new image is black. */
  lemma NewIsBlack(w: nat, h: nat, x: nat, y: nat)
    requires x < w && y < h
    ensures Get(New(w, h), x, y) == Colours.Zero()
  {
    Grids.NewIsBlack(w, h, x, y);
  }

  /** Reading a cell after writing one gives the colour written at that
      cell and the old colour at every other cell. */
  lemma GetAfterPut(img: Image, x: nat, y: nat, c: Colours.Col, x': nat, y': nat)
    requires x < img.w && y < img.h && x' < img.w && y' < img.h
    ensures Get(Put(img, x, y, c), x', y') == if x' == x && y' == y then c else Get(img, x', y')
  {
    Grids.ValidInRange(img, x, y);
    Grids.ValidInRange(img, x', y');
    Grids.GetAfterPut(img, x, y, c, x', y');
  }

  /** After `a += b` every cell holds the sum of the two cells. */
  lemma MergeSums(a: Image, b: Image, x: nat, y: nat)
    requires a.w == b.w && a.h == b.h && x < a.w && y < a.h
    ensures Get(Merge(a, b).value, x, y) == Get(a, x, y).Add(Get(b, x, y))
  {
    Grids.ValidInRange(a, x, y);
    Grids.ValidInRange(b, x, y);
    Grids.MergePixels(a, b, x, y);
  }

  /** Merging two images does not depend on which receives the other. */
  lemma MergeCommutes(a: Image, b: Image)
    ensures Merge(a, b) == Merge(b, a)
  {
    if a.w == b.w && a.h == b.h {
      Grids.MergeCommutes(a, b);
    }
  }

  /** Merging three images does not depend on the grouping. */
  lemma MergeAssociates(a: Image, b: Image, c: Image)
    requires a.w == b.w == c.w && a.h == b.h == c.h
    ensures Merge(a, b).Some? && Merge(b, c).Some?
    ensures Merge(Merge(a, b).value, c) == Merge(a, Merge(b, c).value)
  {
    Grids.MergeAssociates(a, b, c);
  }
}

=== FILE: lambertian.dfy ===
/** Diffuse reflection (src/material/lambertian.rs): the ray leaves towards a
    random point of the unit ball centred one normal above the hit point. */
module Lambertians {

  import Optional
  import Vectors
  import Numerics
  import Dirs
  import Rays
  import Perlin
  import Textures
  import Materials
  import Hits

  /** `Lambertian::scatter` with `sample` the draw of `random_in_unit_sphere` */
  function Scatter(albedo: Textures.Texture, rIn: Rays.Ray, rec: Hits.HitRecord, sample: Dirs.Dir, sin: real -> real, perlin: Perlin.PerlinData): (r: Optional.Option<Materials.Scatter>)
    requires perlin.Valid()
    ensures r.Some?
    ensures r.value.scattered.origin == rec.p && r.value.scattered.time == rIn.time
    ensures r.value.attenuation == Textures.Value(albedo, 0.0, 0.0, rec.p, sin, perlin)
  {
    var target := rec.p.AddDir(rec.normal).AddDir(sample);
    var scattered := Rays.New(rec.p, target.Sub(rec.p), rIn.time);
    Optional.Some(Materials.Scatter(Textures.Value(albedo, 0.0, 0.0, rec.p, sin, perlin), scattered))
  }

  /** The scattered direction `target - p` is the normal plus the sample. */
  lemma DirectionIsNormalPlusSample(albedo: Textures.Texture, rIn: Rays.Ray, rec: Hits.HitRecord, sample: Dirs.Dir, sin: real -> real, perlin: Perlin.PerlinData)
    requires perlin.Valid()
    ensures Scatter(albedo, rIn, rec, sample, sin, perlin).value.scattered.direction == rec.normal.Add(sample)
  {
  }

  /** With a unit normal and a sample strictly inside the unit ball, the ray
      leaves on the outside of the surface. */
  lemma LeavesAboveSurface(albedo: Textures.Texture, rIn: Rays.Ray, rec: Hits.HitRecord, sample: Dirs.Dir, sin: real -> real, perlin: Perlin.PerlinData)
    requires perlin.Valid()
    requires Materials.IsUnit(rec.normal) && sample.SquaredLength() < 1.0
    ensures Scatter(albedo, rIn, rec, sample, sin, perlin).value.scattered.direction.Dot(rec.normal) > 0.0
  {
    DirectionIsNormalPlusSample(albedo, rIn, rec, sample, sin, perlin);
    OffsetStaysAbove(rec.normal, sample);
  }

  /** `n + s` points to the side of `n` when `n` is a unit vector and `s` is
      strictly inside the unit ball. */
  lemma OffsetStaysAbove(n: Dirs.Dir, s: Dirs.Dir)
    requires Materials.IsUnit(n) && s.SquaredLength() < 1.0
    ensures n.Add(s).Dot(n) > 0.0
  {
    var d := s.Dot(n);
    Vectors.CauchySchwarz(s.v, n.v);
    assert n.v.SquaredLength() == 1.0;
    assert d * d <= s.SquaredLength();
    Numerics.SquareBelowOne(d);
    assert n.Add(s).Dot(n) == n.Dot(n) + d;
  }
}

=== FILE: material.dfy ===
/** Materials (src/material.rs): how light leaves a surface. The trait
    objects become a closed datatype; the shared helpers `reflect` and
    `random_in_unit_sphere` live here. */
module Materials {

  import Optional
  import Dirs
  import Colours
  import Rays
  import Textures

  datatype Material =
    | Lambertian(texture: Textures.Texture)
    | Metal(albedo: Colours.Col, fuzz: real)
    | Dielectric(refIdx: real)

  /** The outcome of a scatter: the colour filter and the outgoing ray */
  datatype Scatter = Scatter(attenuation: Colours.Col, scattered: Rays.Ray)

  /** `reflect(v, n) = v - 2 (v·n) n`, the mirror image of `v` in the plane
      with normal `n` when `n` is a unit vector */
  function Reflect(v: Dirs.Dir, n: Dirs.Dir): Dirs.Dir
  {
    v.Sub(Dirs.ScalarMul(2.0 * v.Dot(n), n))
  }

  /** `n` has unit length */
  predicate IsUnit(n: Dirs.Dir)
  {
    n.Dot(n) == 1.0
  }

  /** The `k`-th candidate of the rejection loop: `2 g - (1, 1, 1)` for a
      draw `g` with components in [0, 1) */
  function Candidate(raw: nat -> Dirs.Dir, k: nat): Dirs.Dir
  {
    Dirs.ScalarMul(2.0, raw(k)).Sub(Dirs.New(1.0, 1.0, 1.0))
  }

  /** Every one of the first `k` candidates lies outside the open unit ball */
  predicate Rejected(raw: nat -> Dirs.Dir, k: nat)
  {
    forall j :: 0 <= j < k ==> Candidate(raw, j).SquaredLength() >= 1.0
  }

  /** `random_in_unit_sphere`: draw candidates until one lies strictly
      inside the unit ball. The source loops without bound; the model gives
      up after `attempts` draws and then answers `None`. */
  method RandomInUnitSphere(raw: nat -> Dirs.Dir, attempts: nat) returns (r: Optional.Option<Dirs.Dir>)
    ensures r.Some? ==> r.value.SquaredLength() < 1.0
    ensures r.Some? ==> exists k :: 0 <= k < attempts && r.value == Candidate(raw, k) && Rejected(raw, k)
    ensures r.None? <==> Rejected(raw, attempts)
  {
    var k := 0;
    while k < attempts
      invariant 0 <= k <= attempts
      invariant Rejected(raw, k)
    {
      var p := Candidate(raw, k);
      if p.SquaredLength() < 1.0 {
        return Optional.Some(p);
      }
      k := k + 1;
    }
    return Optional.None;
  }

  /** Reflection in a unit normal negates the normal component. */
  lemma ReflectFlipsNormal(v: Dirs.Dir, n: Dirs.Dir)
    requires IsUnit(n)
    ensures Reflect(v, n).Dot(n) == -v.Dot(n)
  {
    var k := 2.0 * v.Dot(n);
    assert Reflect(v, n).Dot(n) == v.Dot(n) - k * n.Dot(n);
  }

  /** Reflection in a unit normal preserves length. */
  lemma ReflectPreservesLength(v: Dirs.Dir, n: Dirs.Dir)
    requires IsUnit(n)
    ensures Reflect(v, n).SquaredLength() == v.SquaredLength()
  {
    var k := 2.0 * v.Dot(n);
    assert Reflect(v, n).SquaredLength() == v.SquaredLength() - 2.0 * k * v.Dot(n) + k * k * n.Dot(n);
  }

  /** Reflecting twice in the same unit normal gives back the original. */
  lemma ReflectInvolution(v: Dirs.Dir, n: Dirs.Dir)
    requires IsUnit(n)
    ensures Reflect(Reflect(v, n), n) == v
  {
    ReflectFlipsNormal(v, n);
  }

  /** A direction tangent to the surface is not changed by reflection. */
  lemma ReflectTangent(v: Dirs.Dir, n: Dirs.Dir)
    requires v.Dot(n) == 0.0
    ensures Reflect(v, n) == v
  {
  }
}

=== FILE: metal.dfy ===
/** Mirror-like reflection (src/material/metal.rs): the unit incoming
    direction is reflected in the normal and blurred by `fuzz` times a draw
    from the unit ball; rays pushed below the surface are absorbed. */
module Metals {

  import Optional
  import Vectors
  import Numerics
  import Dirs
  import Colours
  import Rays
  import Materials
  import Hits

  /** The direction `reflect(unit(r_in.direction), normal) + fuzz * sample` */
  function Direction(fuzz: real, rIn: Rays.Ray, rec: Hits.HitRecord, sample: Dirs.Dir, sqrt: real -> real): Dirs.Dir
    requires rIn.direction.v.Length(sqrt) != 0.0
  {
    Materials.Reflect(rIn.direction.UnitVector(sqrt), rec.normal).Add(Dirs.ScalarMul(fuzz, sample))
  }

  /** `Metal::scatter` with `sample` the draw of `random_in_unit_sphere`. At this
      revision it builds the ray without a time; the model carries the incoming
      ray's time. */
  function Scatter(albedo: Colours.Col, fuzz: real, rIn: Rays.Ray, rec: Hits.HitRecord, sample: Dirs.Dir, sqrt: real -> real): (r: Optional.Option<Materials.Scatter>)
    requires rIn.direction.v.Length(sqrt) != 0.0
    ensures r.Some? <==> Direction(fuzz, rIn, rec, sample, sqrt).Dot(rec.normal) > 0.0
    ensures r.Some? ==> r.value.attenuation == albedo
    ensures r.Some? ==> r.value.scattered.origin == rec.p
    ensures r.Some? ==> r.value.scattered.direction == Direction(fuzz, rIn, rec, sample, sqrt)
  {
    var scattered := Rays.New(rec.p, Direction(fuzz, rIn, rec, sample, sqrt), rIn.time);
    if scattered.direction.Dot(rec.normal) > 0.0 then
      Optional.Some(Materials.Scatter(albedo, scattered))
    else
      Optional.None
  }

  /** A perfect mirror (no fuzz) facing an incoming ray always reflects it,
      and the reflected ray leaves at the mirror angle. */
  lemma PerfectMirrorReflects(albedo: Colours.Col, rIn: Rays.Ray, rec: Hits.HitRecord, sample: Dirs.Dir, sqrt: real -> real)
    requires Numerics.SqrtAt(sqrt, rIn.direction.SquaredLength())
    requires rIn.direction.v.Length(sqrt) != 0.0
    requires Materials.IsUnit(rec.normal) && rIn.direction.Dot(rec.normal) < 0.0
    ensures Scatter(albedo, 0.0, rIn, rec, sample, sqrt).Some?
    ensures Direction(0.0, rIn, rec, sample, sqrt).Dot(rec.normal) == -rIn.direction.UnitVector(sqrt).Dot(rec.normal)
  {
    var len := rIn.direction.v.Length(sqrt);
    var u := rIn.direction.UnitVector(sqrt);
    Vectors.DivScalarDot(rIn.direction.v, rec.normal.v, len);
    Numerics.NegativeQuotient(rIn.direction.Dot(rec.normal), len);
    Materials.ReflectFlipsNormal(u, rec.normal);
    assert Direction(0.0, rIn, rec, sample, sqrt) == Materials.Reflect(u, rec.normal);
  }
}

=== FILE: moving_sphere.dfy ===
/** Moving spheres (src/hitable/moving_sphere.rs): a sphere whose centre
    moves linearly from `center0` at `time0` to `center1` at `time1`, hit as
    the sphere sitting at its centre at the ray's time. */
module MovingSpheres {

  import Optional
  import Numerics
  import Dirs
  import Positions
  import Rays
  import Materials
  import Hits
  import Spheres

  datatype MovingSphere = MovingSphere(
    center0: Positions.Pos, center1: Positions.Pos,
    time0: real, time1: real,
    radius: real, mat: Materials.Material)

  /** The two key times differ, so that `center` does not divide by zero */
  predicate Valid(m: MovingSphere)
  {
    m.time1 != m.time0
  }

  /** `center(time)`: `center0 + ((time - time0) / (time1 - time0)) (center1 - center0)` */
  function Center(m: MovingSphere, time: real): Positions.Pos
    requires Valid(m)
  {
    var fraction := (time - m.time0) / (m.time1 - m.time0);
    m.center0.AddDir(Dirs.ScalarMul(fraction, m.center1.Sub(m.center0)))
  }

  /** The centre at the key times is the corresponding key centre. */
  lemma CenterAtKeyTimes(m: MovingSphere)
    requires Valid(m)
    ensures Center(m, m.time0) == m.center0
    ensures Center(m, m.time1) == m.center1
  {
    Numerics.SelfQuotient(m.time1 - m.time0);
  }

  /** The centre moves at constant velocity: at the time a fraction `s` of
      the way from `time0` to `time1` it is the same fraction of the way
      from `center0` to `center1`. */
  lemma CenterIsAffine(m: MovingSphere, s: real)
    requires Valid(m)
    ensures Center(m, m.time0 + s * (m.time1 - m.time0))
         == m.center0.AddDir(Dirs.ScalarMul(s, m.center1.Sub(m.center0)))
  {
    var dt := m.time1 - m.time0;
    calc {
      (m.time0 + s * dt - m.time0) / dt;
    ==
      (s * dt) / dt;
    ==
      s;
    }
  }

  /** The midpoint time maps to the midpoint of the two centres. */
  lemma CenterAtMidpoint(m: MovingSphere)
    requires Valid(m)
    ensures var c := Center(m, (m.time0 + m.time1) / 2.0);
      c.X() == (m.center0.X() + m.center1.X()) / 2.0
      && c.Y() == (m.center0.Y() + m.center1.Y()) / 2.0
      && c.Z() == (m.center0.Z() + m.center1.Z()) / 2.0
  {
    assert (m.time0 + m.time1) / 2.0 == m.time0 + 0.5 * (m.time1 - m.time0);
    CenterIsAffine(m, 0.5);
  }

  /** A sphere whose two centres coincide stays put. */
  lemma StationaryCenter(m: MovingSphere, time: real)
    requires Valid(m) && m.center0 == m.center1
    ensures Center(m, time) == m.center0
  {
  }

  /** `MovingSphere::hit`: the intersection with the sphere at the centre of
      the ray's time. It keeps the sphere's rules: no hit unless the
      discriminant is positive, a returned time strictly inside the window,
      the near root preferred, and a normal measured from the centre at
      the ray's time. */
  function Hit(m: MovingSphere, ray: Rays.Ray, tMin: real, tMax: real, sqrt: real -> real): (r: Optional.Option<Hits.HitRecord>)
    requires Valid(m)
    ensures var q := Spheres.Coefficients(Center(m, ray.time), m.radius, ray);
      Spheres.Discriminant(q) <= 0.0 ==> r.None?
    ensures r.Some? ==> tMin < r.value.t < tMax
    ensures r.Some? ==> (m.radius != 0.0
      && r.value.p == ray.PointAt(r.value.t)
      && r.value.normal == r.value.p.Sub(Center(m, ray.time)).DivScalar(m.radius)
      && r.value.mat == m.mat)
    ensures r.Some? ==> var roots := Spheres.Roots(Center(m, ray.time), m.radius, ray, sqrt);
      r.value.t == roots.0 || (r.value.t == roots.1 && !(tMin < roots.0 < tMax))
  {
    Spheres.HitAt(Center(m, ray.time), m.radius, m.mat, ray, tMin, tMax, sqrt)
  }

  /** At every ray time the moving sphere is hit exactly as the static
      sphere occupying its position at that time. */
  lemma SnapshotAtRayTime(m: MovingSphere, ray: Rays.Ray, tMin: real, tMax: real, sqrt: real -> real)
    requires Valid(m)
    ensures Hit(m, ray, tMin, tMax, sqrt)
         == Spheres.Hit(Spheres.Sphere(Center(m, ray.time), m.radius, m.mat), ray, tMin, tMax, sqrt)
  {
  }

  /** A moving sphere that does not move is hit like the sphere at its
      centre, whatever the time of the ray. */
  lemma StationaryIsSphere(m: MovingSphere, ray: Rays.Ray, tMin: real, tMax: real, sqrt: real -> real)
    requires Valid(m) && m.center0 == m.center1
    ensures Hit(m, ray, tMin, tMax, sqrt)
         == Spheres.Hit(Spheres.Sphere(m.center0, m.radius, m.mat), ray, tMin, tMax, sqrt)
  {
    StationaryCenter(m, ray.time);
  }
}

=== FILE: nearest.dfy ===
/** The nearest of a sequence of answers to a hit query, which is what the
    closest-so-far scan of a hitable list computes. */
module Nearest {

  import Optional
  import Hits

  type Answer = Optional.Option<Hits.HitRecord>

  /** `a` if it comes before `bound`, otherwise nothing */
  function Cut(a: Answer, bound: real): (r: Answer)
    ensures r.Some? <==> a.Some? && a.value.t < bound
    ensures r.Some? ==> r == a
  {
    if a.Some? && a.value.t < bound then a else Optional.None
  }

  /** The upper end of the window while scanning: the time of the answer
      so far, or the caller's `tMax` before there is one */
  function Closest(best: Answer, tMax: real): real
  {
    if best.Some? then best.value.t else tMax
  }

  /** Answer `j`, at time `t`, is strictly nearer than every answer before
      it and no farther than every answer after it, among the first `n` */
  predicate Wins(t: real, answers: seq<Answer>, j: nat, n: nat)
    requires n <= |answers|
  {
    forall k :: 0 <= k < n && answers[k].Some? ==>
      if k < j then t < answers[k].value.t else t <= answers[k].value.t
  }

  /** `r` is the nearest of the first `n` answers, the earliest one among
      equally near ones, or nothing when none of them is a hit */
  ghost predicate NearestIn(r: Answer, answers: seq<Answer>, n: nat)
    requires n <= |answers|
  {
    if r.None? then
      forall k :: 0 <= k < n ==> answers[k].None?
    else
      exists j :: 0 <= j < n && answers[j] == r && Wins(r.value.t, answers, j, n)
  }

  /** One step of the scan: taking answer `i` when it comes before the
      nearest so far, and keeping the nearest so far otherwise, gives the
      nearest of one more answer. */
  lemma Step(best: Answer, answers: seq<Answer>, i: nat, tMax: real)
    requires i < |answers|
    requires NearestIn(best, answers, i)
    requires forall k :: 0 <= k < |answers| && answers[k].Some? ==> answers[k].value.t < tMax
    ensures var next := if Cut(answers[i], Closest(best, tMax)).Some? then answers[i] else best;
      NearestIn(next, answers, i + 1)
  {
    var a := answers[i];
    if Cut(a, Closest(best, tMax)).Some? {
      if best.Some? {
        var j :| 0 <= j < i && answers[j] == best && Wins(best.value.t, answers, j, i);
      }
      assert Wins(a.value.t, answers, i, i + 1);
    } else if best.Some? {
      var j :| 0 <= j < i && answers[j] == best && Wins(best.value.t, answers, j, i);
      assert Wins(best.value.t, answers, j, i + 1);
    }
  }

  /** The scan over the answers from `i` on, starting from the nearest so
      far `best`: an answer before the current bound replaces it. */
  function Run(answers: seq<Answer>, i: nat, best: Answer, tMax: real): Answer
    requires i <= |answers|
    decreases |answers| - i
  {
    if i == |answers| then
      best
    else
      var next := if Cut(answers[i], Closest(best, tMax)).Some? then answers[i] else best;
      Run(answers, i + 1, next, tMax)
  }

  /** The run ends on the nearest of all the answers, when every answer
      lies before `tMax`. */
  lemma {:induction false} RunIsNearest(answers: seq<Answer>, i: nat, best: Answer, tMax: real)
    requires i <= |answers| && NearestIn(best, answers, i)
    requires forall k :: 0 <= k < |answers| && answers[k].Some? ==> answers[k].value.t < tMax
    ensures NearestIn(Run(answers, i, best, tMax), answers, |answers|)
    decreases |answers| - i
  {
    if i < |answers| {
      Step(best, answers, i, tMax);
      RunIsNearest(answers, i + 1, if Cut(answers[i], Closest(best, tMax)).Some? then answers[i] else best, tMax);
    }
  }

  /** The nearest answer is a hit exactly when some answer is, and it is
      no farther than any of them. */
  lemma NearestIsMinimal(r: Answer, answers: seq<Answer>)
    requires NearestIn(r, answers, |answers|)
    ensures r.None? <==> forall k :: 0 <= k < |answers| ==> answers[k].None?
    ensures r.Some? ==> r in answers && forall k :: 0 <= k < |answers| && answers[k].Some? ==> r.value.t <= answers[k].value.t
  {
    if r.Some? {
      var j :| 0 <= j < |answers| && answers[j] == r && Wins(r.value.t, answers, j, |answers|);
      assert answers[j] == r;
    }
  }

  /** `a` is a nearest member of the set of answers `s`: nothing exactly
      when every member is nothing, otherwise a member no farther than any
      other. The order the answers came in is forgotten. */
  ghost predicate Earliest(a: Answer, s: set<Answer>)
  {
    && (a.None? <==> forall x :: x in s ==> x.None?)
    && (a.Some? ==> a in s && forall x :: x in s && x.Some? ==> a.value.t <= x.value.t)
  }

  /** The scan's answer is a nearest member of the set of answers. */
  lemma NearestIsEarliest(r: Answer, answers: seq<Answer>)
    requires NearestIn(r, answers, |answers|)
    ensures Earliest(r, set x | x in answers)
  {
    NearestIsMinimal(r, answers);
    forall x | x in answers
      ensures x.None? || (r.Some? && r.value.t <= x.value.t)
    {
      var k :| 0 <= k < |answers| && answers[k] == x;
    }
  }

  /** Two nearest members of the same set agree on whether there is a hit
      and on its time. */
  lemma EarliestAgree(a: Answer, b: Answer, s: set<Answer>)
    requires Earliest(a, s) && Earliest(b, s)
    ensures a.Some? <==> b.Some?
    ensures a.Some? ==> a.value.t == b.value.t
  {
  }
}

=== FILE: numerics.dfy ===
/** The floating-point library calls the renderer relies on. `f32` is
    modelled by `real`; `sqrt` and `sin` have no definition in Dafny, so the
    model receives them as function-valued parameters and states the laws it
    needs of them as predicates that lemmas may assume as preconditions. */
module Numerics {

  import Squares

  /** `sqrt` behaves as an exact square root at `x` */
  predicate SqrtAt(sqrt: real -> real, x: real)
  {
    sqrt(x) >= 0.0 && sqrt(x) * sqrt(x) == x
  }

  /** `sqrt` behaves as an exact square root on every nonnegative input */
  ghost predicate IsSqrt(sqrt: real -> real)
  {
    forall x :: x >= 0.0 ==> SqrtAt(sqrt, x)
  }

  /** `f32::min` on non-NaN inputs */
  function Min(a: real, b: real): real
  {
    if a <= b then a else b
  }

  /** `f32::max` on non-NaN inputs */
  function Max(a: real, b: real): real
  {
    if a >= b then a else b
  }

  /** A square root of a square is the absolute value. */
  lemma SqrtOfSquare(sqrt: real -> real, x: real)
    requires SqrtAt(sqrt, x * x)
    ensures sqrt(x * x) == if x >= 0.0 then x else -x
  {
    var a := if x >= 0.0 then x else -x;
    assert a * a == x * x;
    SquaresEqual(sqrt(x * x), a);
  }

  /** Nonnegative numbers with equal squares are equal. */
  lemma SquaresEqual(s: real, a: real)
    requires s >= 0.0 && a >= 0.0 && s * s == a * a
    ensures s == a
  {
    if s > a {
      PositiveProduct(s - a, s + a);
    } else if s < a {
      PositiveProduct(a - s, s + a);
    }
  }

  /** Squares are monotone on nonnegative values. */
  lemma SquareBound(x: real, r: real)
    requires r > 0.0 && x * x <= r * r
    ensures -r <= x <= r
  {
    if x > r {
      PositiveProduct(x - r, x + r);
    } else if x < -r {
      PositiveProduct(r - x, -r - x);
    }
  }

  /** A sum of three squares is never negative, and it is zero only when
      all three numbers are. */
  lemma SumOfSquaresSign(a: real, b: real, c: real)
    ensures a * a + b * b + c * c >= 0.0
    ensures a * a + b * b + c * c == 0.0 ==> a == 0.0 && b == 0.0 && c == 0.0
  {
    Squares.NonNegative(a, a * a);
    Squares.NonNegative(b, b * b);
    Squares.NonNegative(c, c * c);
    if a != 0.0 { Squares.Positive(a, a * a); }
    if b != 0.0 { Squares.Positive(b, b * b); }
    if c != 0.0 { Squares.Positive(c, c * c); }
  }

  /** A number whose square is below one lies strictly between -1 and 1. */
  lemma SquareBelowOne(x: real)
    requires x * x < 1.0
    ensures -1.0 < x < 1.0
  {
    if x >= 1.0 {
      PositiveProduct(x, x - 1.0 + 1.0);
    } else if x <= -1.0 {
      PositiveProduct(-x, -x);
    }
  }

  /** A negative number over a positive one is negative. */
  lemma NegativeQuotient(x: real, y: real)
    requires x < 0.0 && y > 0.0
    ensures x / y < 0.0
  {
  }

  lemma PositiveProduct(a: real, b: real)
    requires a > 0.0 && b > 0.0
    ensures a * b > 0.0
  {
  }

  lemma NonNegativeProduct(a: real, b: real)
    requires a >= 0.0 && b >= 0.0
    ensures a * b >= 0.0
  {
  }

  /** Multiplying by a nonnegative factor keeps the order, by a nonpositive
      one reverses it. */
  lemma Scale(a: real, b: real, k: real)
    requires a <= b
    ensures k >= 0.0 ==> a * k <= b * k
    ensures k <= 0.0 ==> a * k >= b * k
  {
    if k >= 0.0 {
      NonNegativeProduct(b - a, k);
      calc {
        b * k - a * k;
      ==
        (b - a) * k;
      >=
        0.0;
      }
    } else {
      NonNegativeProduct(b - a, -k);
      calc {
        a * k - b * k;
      ==
        (b - a) * -k;
      >=
        0.0;
      }
    }
  }

  /** Multiplying by a positive factor keeps a strict order, by a negative
      one reverses it. */
  lemma ScaleStrict(a: real, b: real, k: real)
    requires a < b && k != 0.0
    ensures k > 0.0 ==> a * k < b * k
    ensures k < 0.0 ==> a * k > b * k
  {
    if k > 0.0 {
      PositiveProduct(b - a, k);
      calc {
        b * k - a * k;
      ==
        (b - a) * k;
      >
        0.0;
      }
    } else {
      PositiveProduct(b - a, -k);
      calc {
        a * k - b * k;
      ==
        (b - a) * -k;
      >
        0.0;
      }
    }
  }

  /** The reciprocal has the sign of its argument. */
  lemma ReciprocalSign(d: real)
    requires d != 0.0
    ensures d > 0.0 ==> 1.0 / d > 0.0
    ensures d < 0.0 ==> 1.0 / d < 0.0
  {
  }

  /** A nonzero number divided by itself is one, and zero divided by it is
      zero. */
  lemma SelfQuotient(d: real)
    requires d != 0.0
    ensures d / d == 1.0 && 0.0 / d == 0.0
  {
  }

  /** Dividing a square twice by its root gives one. */
  lemma SquareOverRoot(x: real, len: real)
    requires len != 0.0 && len * len == x
    ensures (x / len) / len == 1.0
  {
    assert x / len == len;
    SelfQuotient(len);
  }

  /** Scaling by `d` and then by `1 / d` is the identity. */
  lemma Cancel(t: real, d: real)
    requires d != 0.0
    ensures (t * d) * (1.0 / d) == t
  {
  }
}

=== FILE: optional.dfy ===
/** Rust's `Option<T>`: the result of queries that may find nothing
    (a hit, a bounding box, a scattered ray, a refracted direction). */
module Optional {

  datatype Option<+T> = None | Some(value: T)
}

=== FILE: perlin.dfy ===
/** Perlin noise (src/texture/perlin.rs): three random permutations of
    0..=255, 256 random unit gradients, lattice indexing and trilinear
    smoothstep interpolation. The random draws are parameters. */
module Perlin {

  import Vectors
  import Dirs
  import Positions
  import Colours

  /** The lattice size: every table has this many entries */
  const Size: nat := 256

  /** The largest `usize` on a 64-bit target */
  const UsizeMax: int := 0xFFFF_FFFF_FFFF_FFFF

  /** The values `0 .. n-1` in order */
  function Range(n: nat): (r: seq<nat>)
    ensures |r| == n
    ensures forall i :: 0 <= i < n ==> r[i] == i
  {
    seq(n, i requires 0 <= i < n => i)
  }

  /** `perm` holds each value of `0 .. n-1` exactly once */
  predicate IsPermutation(perm: seq<nat>, n: nat)
  {
    |perm| == n && multiset(perm) == multiset(Range(n))
  }

  /** `s` with the entries at `i` and `j` exchanged */
  function Swap(s: seq<nat>, i: nat, j: nat): (r: seq<nat>)
    requires i < |s| && j < |s|
    ensures |r| == |s| && r[i] == s[j] && r[j] == s[i]
    ensures forall k :: 0 <= k < |s| && k != i && k != j ==> r[k] == s[k]
    ensures multiset(r) == multiset(s)
  {
    s[i := s[j]][j := s[i]]
  }

  /** `generate_perm`: the identity on 0..=255 shuffled in place. The
      shuffle walks `i` from 255 down to 1 and exchanges entry `i` with
      entry `draw(i) % (i + 1)`, as a Fisher-Yates shuffle does. */
  method GeneratePerm(draw: nat -> nat) returns (res: seq<nat>)
    ensures IsPermutation(res, Size)
  {
    res := Range(Size);
    var i := Size - 1;
    while i >= 1
      invariant 0 <= i < Size
      invariant |res| == Size
      invariant multiset(res) == multiset(Range(Size))
    {
      res := Swap(res, i, draw(i) % (i + 1));
      i := i - 1;
    }
  }

  lemma {:induction false} RangeCount(n: nat, x: nat)
    ensures multiset(Range(n))[x] == if x < n then 1 else 0
  {
    if n > 0 {
      assert Range(n) == Range(n - 1) + [n - 1];
      RangeCount(n - 1, x);
    }
  }

  /** A permutation of 0..=255 has 256 entries, all below 256, each value
      exactly once. */
  lemma PermutationEntries(perm: seq<nat>)
    requires IsPermutation(perm, Size)
    ensures |perm| == 256
    ensures forall i :: 0 <= i < |perm| ==> perm[i] < 256
    ensures forall x :: 0 <= x < 256 ==> multiset(perm)[x] == 1
  {
    forall i | 0 <= i < |perm|
      ensures perm[i] < 256
    {
      assert perm[i] in multiset(perm);
      RangeCount(Size, perm[i]);
    }
    forall x | 0 <= x < 256
      ensures multiset(perm)[x] == 1
    {
      RangeCount(Size, x);
    }
  }

  /** The `k`-th raw gradient: three uniform draws in [0, 1) stretched to
      [-1, 1), drawn in x, y, z order. */
  function RawGradient(gen: nat -> real, k: nat): Dirs.Dir
  {
    Dirs.New(-1.0 + 2.0 * gen(3 * k), -1.0 + 2.0 * gen(3 * k + 1), -1.0 + 2.0 * gen(3 * k + 2))
  }

  /** `ranvec`: 256 raw gradients, each made a unit vector */
  method Ranvec(gen: nat -> real, sqrt: real -> real) returns (r: seq<Dirs.Dir>)
    requires forall k :: 0 <= k < Size ==> RawGradient(gen, k).v.Length(sqrt) != 0.0
    ensures |r| == Size
    ensures forall k :: 0 <= k < |r| ==> r[k] == RawGradient(gen, k).UnitVector(sqrt)
  {
    r := [];
    while |r| < Size
      invariant |r| <= Size
      invariant forall k :: 0 <= k < |r| ==> r[k] == RawGradient(gen, k).UnitVector(sqrt)
    {
      r := r + [RawGradient(gen, |r|).UnitVector(sqrt)];
    }
  }

  datatype PerlinData = PerlinData(ranvec: seq<Dirs.Dir>, permX: seq<nat>, permY: seq<nat>, permZ: seq<nat>)
  {
    /** The tables the static initialiser builds: 256 gradients and three
        permutations of 0..=255 */
    predicate Valid()
    {
      |ranvec| == Size && IsPermutation(permX, Size) && IsPermutation(permY, Size) && IsPermutation(permZ, Size)
    }
  }

  /** `u * u * (3 - 2u)`, the Hermite smoothstep */
  function Smooth(u: real): real
  {
    u * u * (3.0 - 2.0 * u)
  }

  /** The weight of lattice side `i` (0 or 1) at smoothed offset `s` */
  function Weight(i: real, s: real): real
  {
    i * s + (1.0 - i) * (1.0 - s)
  }

  /** The contribution of corner `(i, j, k)` with gradient `g` */
  function Term(g: Dirs.Dir, i: real, j: real, k: real, u: real, v: real, w: real): real
  {
    g.Dot(Dirs.New(u - i, v - j, w - k)) * Weight(i, Smooth(u)) * Weight(j, Smooth(v)) * Weight(k, Smooth(w))
  }

  /** Corner `n` of the cube, `n = 4i + 2j + k`, as the triple `(i, j, k)` */
  function Corner(n: nat): (r: (nat, nat, nat))
    requires n < 8
    ensures r.0 < 2 && r.1 < 2 && r.2 < 2 && 4 * r.0 + 2 * r.1 + r.2 == n
  {
    (n / 4, (n / 2) % 2, n % 2)
  }

  /** Corner `4i + 2j + k` is `(i, j, k)`: the loop visits the corners in
      numbering order. */
  lemma CornerNumbering(i: nat, j: nat, k: nat)
    requires i < 2 && j < 2 && k < 2
    ensures Corner(4 * i + 2 * j + k) == (i, j, k)
  {
    if i == 0 {
      if j == 0 { if k == 0 { assert Corner(0) == (0, 0, 0); } else { assert Corner(1) == (0, 0, 1); } }
      else { if k == 0 { assert Corner(2) == (0, 1, 0); } else { assert Corner(3) == (0, 1, 1); } }
    } else {
      if j == 0 { if k == 0 { assert Corner(4) == (1, 0, 0); } else { assert Corner(5) == (1, 0, 1); } }
      else { if k == 0 { assert Corner(6) == (1, 1, 0); } else { assert Corner(7) == (1, 1, 1); } }
    }
  }

  /** The contribution of corner number `n` */
  function CornerTerm(c: seq<Dirs.Dir>, u: real, v: real, w: real, n: nat): real
    requires |c| == 8 && n < 8
  {
    var ijk := Corner(n);
    Term(c[n], ijk.0 as real, ijk.1 as real, ijk.2 as real, u, v, w)
  }

  /** The contributions of the first `n` corners, in loop order */
  function Accumulate(c: seq<Dirs.Dir>, u: real, v: real, w: real, n: nat): real
    requires |c| == 8 && n <= 8
  {
    if n == 0 then 0.0 else Accumulate(c, u, v, w, n - 1) + CornerTerm(c, u, v, w, n - 1)
  }

  /** `perlin_interp`: the eight gradients `c[4i + 2j + k]` blended with
      smoothstep weights. The triple loop accumulates in (i, j, k) order. */
  method Interp(c: seq<Dirs.Dir>, u: real, v: real, w: real) returns (accum: real)
    requires |c| == 8
    ensures accum == Accumulate(c, u, v, w, 8)
  {
    accum := 0.0;
    var i := 0;
    while i < 2
      invariant 0 <= i <= 2
      invariant accum == Accumulate(c, u, v, w, 4 * i)
    {
      var j := 0;
      while j < 2
        invariant 0 <= j <= 2
        invariant accum == Accumulate(c, u, v, w, 4 * i + 2 * j)
      {
        var k := 0;
        while k < 2
          invariant 0 <= k <= 2
          invariant accum == Accumulate(c, u, v, w, 4 * i + 2 * j + k)
        {
          var n := 4 * i + 2 * j + k;
          var term := Term(c[n], i as real, j as real, k as real, u, v, w);
          CornerNumbering(i, j, k);
          accum := accum + term;
          k := k + 1;
        }
        j := j + 1;
      }
      i := i + 1;
    }
  }

  /** Smoothstep fixes both ends of the unit interval. */
  lemma SmoothEnds()
    ensures Smooth(0.0) == 0.0 && Smooth(1.0) == 1.0
  {
  }

  /** The two side weights of an axis sum to one. */
  lemma WeightsSumToOne(s: real)
    ensures Weight(0.0, s) + Weight(1.0, s) == 1.0
  {
  }

  /** At the lattice corner itself the interpolated noise is zero, whatever
      the gradients. */
  lemma InterpAtCorner(c: seq<Dirs.Dir>)
    requires |c| == 8
    ensures Accumulate(c, 0.0, 0.0, 0.0, 8) == 0.0
  {
    PrefixAtCorner(c, 8);
  }

  lemma {:induction false} PrefixAtCorner(c: seq<Dirs.Dir>, n: nat)
    requires |c| == 8 && n <= 8
    ensures Accumulate(c, 0.0, 0.0, 0.0, n) == 0.0
  {
    if n > 0 {
      PrefixAtCorner(c, n - 1);
      var ijk := Corner(n - 1);
      CornerTermZero(c[n - 1], ijk.0, ijk.1, ijk.2);
    }
  }

  lemma CornerTermZero(g: Dirs.Dir, i: nat, j: nat, k: nat)
    requires i < 2 && j < 2 && k < 2
    ensures Term(g, i as real, j as real, k as real, 0.0, 0.0, 0.0) == 0.0
  {
    TermAtOrigin(g, i as real, j as real, k as real);
  }

  /** The same for the corner given by its real coordinates: at the
      origin, the origin's own term has a zero offset and every other
      corner has a zero weight. */
  lemma TermAtOrigin(g: Dirs.Dir, x: real, y: real, z: real)
    requires (x == 0.0 || x == 1.0) && (y == 0.0 || y == 1.0) && (z == 0.0 || z == 1.0)
    ensures Term(g, x, y, z, 0.0, 0.0, 0.0) == 0.0
  {
    var d := g.Dot(Dirs.New(0.0 - x, 0.0 - y, 0.0 - z));
    var wi, wj, wk := Weight(x, Smooth(0.0)), Weight(y, Smooth(0.0)), Weight(z, Smooth(0.0));
    SmoothEnds();
    if x == 0.0 && y == 0.0 && z == 0.0 {
      Vectors.DotZero(g.v);
      assert d == 0.0;
    } else if x == 1.0 {
      assert wi == 0.0;
    } else if y == 1.0 {
      assert wj == 0.0;
    } else {
      assert wk == 0.0;
    }
    ZeroFactor(d, wi, wj, wk);
    assert Term(g, x, y, z, 0.0, 0.0, 0.0) == d * wi * wj * wk;
  }

  /** A product with a zero factor is zero. */
  lemma ZeroFactor(a: real, b: real, c: real, d: real)
    requires a == 0.0 || b == 0.0 || c == 0.0 || d == 0.0
    ensures a * b * c * d == 0.0
  {
  }

  /** `f as usize` for an integral float: negative values saturate to 0 and
      values beyond the range saturate to `usize::MAX` */
  function AsUsize(f: int): (r: nat)
    ensures r <= UsizeMax
    ensures 0 <= f <= UsizeMax ==> r == f
  {
    if f < 0 then 0 else if f > UsizeMax then UsizeMax else f
  }

  /** `(x + d) & 255` on a 64-bit `usize` as a release build computes it:
      the sum wraps at 2^64, which 256 divides, so the wrap never changes
      the low byte. A debug build panics on that overflow instead. */
  function LatticeIndex(x: nat, d: nat): (r: nat)
    requires x <= UsizeMax && d < 2
    ensures r < Size
    ensures r == ((x + d) % 0x1_0000_0000_0000_0000) % 256
  {
    (x + d) % 256
  }

  /** `px ^ py ^ pz` on `usize` for table entries below 256, computed in a
      byte. `XorInByte` shows that the byte xor agrees with the xor of the
      zero-extended 64-bit words, so the byte is faithful to the `usize`
      xor. */
  function Xor3(px: nat, py: nat, pz: nat): (r: nat)
    requires px < 256 && py < 256 && pz < 256
    ensures r < 256
  {
    ((px as bv8) ^ (py as bv8) ^ (pz as bv8)) as nat
  }

  /** Xor of values below 256 is the same in a byte as in a 64-bit `usize`:
      the high bits of the operands are zero and stay zero. */
  lemma XorInByte(a: bv8, b: bv8, c: bv8)
    ensures ((a ^ b ^ c) as bv64) == (a as bv64) ^ (b as bv64) ^ (c as bv64)
  {
  }

  /** The gradient at corner `(di, dj, dk)` of the cell with lattice
      coordinates `(i, j, k)` */
  function CornerGradient(data: PerlinData, i: int, j: int, k: int, di: nat, dj: nat, dk: nat): (r: Dirs.Dir)
    requires data.Valid() && di < 2 && dj < 2 && dk < 2
    ensures r in data.ranvec
  {
    PermutationEntries(data.permX);
    PermutationEntries(data.permY);
    PermutationEntries(data.permZ);
    var px := data.permX[LatticeIndex(AsUsize(i), di)];
    var py := data.permY[LatticeIndex(AsUsize(j), dj)];
    var pz := data.permZ[LatticeIndex(AsUsize(k), dk)];
    data.ranvec[Xor3(px, py, pz)]
  }

  /** The eight corner gradients of the cell, indexed `4 di + 2 dj + dk`.
      Every one is an entry of `ranvec`: the masked lattice indices and
      their xor stay inside the 256-entry tables, so no lookup is out of
      bounds. */
  function CellGradients(data: PerlinData, i: int, j: int, k: int): (c: seq<Dirs.Dir>)
    requires data.Valid()
    ensures |c| == 8
    ensures forall n :: 0 <= n < 8 ==> c[n] in data.ranvec
  {
    seq(8, n requires 0 <= n < 8 => CornerGradient(data, i, j, k, Corner(n).0, Corner(n).1, Corner(n).2))
  }

  /** `noise(p)`: the cell of `p` is found with `floor`, and the offsets in the
      cell are interpolated between its corner gradients. */
  function Noise(data: PerlinData, p: Positions.Pos): real
    requires data.Valid()
  {
    var i := p.X().Floor;
    var j := p.Y().Floor;
    var k := p.Z().Floor;
    Accumulate(CellGradients(data, i, j, k), p.X() - i as real, p.Y() - j as real, p.Z() - k as real, 8)
  }

  /** On a lattice point the noise is zero. */
  lemma NoiseOnLattice(data: PerlinData, p: Positions.Pos)
    requires data.Valid()
    requires p.X() == p.X().Floor as real && p.Y() == p.Y().Floor as real && p.Z() == p.Z().Floor as real
    ensures Noise(data, p) == 0.0
  {
    InterpAtCorner(CellGradients(data, p.X().Floor, p.Y().Floor, p.Z().Floor));
  }

  /** `NoiseTexture::value`: white scaled by `0.5 * (1 + noise(scale * p))` */
  function NoiseValue(data: PerlinData, scale: real, p: Positions.Pos): (r: Colours.Col)
    requires data.Valid()
  {
    Colours.New(1.0, 1.0, 1.0).MulScalar(0.5).MulScalar(1.0 + Noise(data, Positions.ScalarMul(scale, p)))
  }

  /** Every channel of the noise texture is `0.5 * (1 + noise(scale * p))`. */
  lemma NoiseValueChannels(data: PerlinData, scale: real, p: Positions.Pos)
    requires data.Valid()
    ensures var n := Noise(data, Positions.ScalarMul(scale, p));
      NoiseValue(data, scale, p) == Colours.New(0.5 * (1.0 + n), 0.5 * (1.0 + n), 0.5 * (1.0 + n))
  {
  }
}

=== FILE: pos.dfy ===
/** Positions (src/vec3/pos.rs): a `Vec3` tagged as a point. Points and
    directions form an affine space: `Pos - Pos` is a `Dir`, `Pos ± Dir` is a
    `Pos`. */
module Positions {

  import Vectors
  import Dirs

  datatype Pos = Pos(v: Vectors.Vec3)
  {
    function X(): real { v.e0 }
    function Y(): real { v.e1 }
    function Z(): real { v.e2 }

    function Neg(): Pos { Pos(v.Neg()) }

    /** `Pos + Dir` */
    function AddDir(d: Dirs.Dir): Pos { Pos(v.Add(d.v)) }

    /** `Pos - Dir` */
    function SubDir(d: Dirs.Dir): Pos { Pos(v.Sub(d.v)) }

    /** `Pos - Pos`: the displacement from `o` to this point */
    function Sub(o: Pos): Dirs.Dir { Dirs.Dir(v.Sub(o.v)) }

    function Mul(o: Pos): Pos { Pos(v.Mul(o.v)) }

    function Div(o: Pos): Pos
      requires o.v.NonZero()
    {
      Pos(v.Div(o.v))
    }

    function MulScalar(t: real): Pos { Pos(v.MulScalar(t)) }

    function DivScalar(t: real): Pos
      requires t != 0.0
    {
      Pos(v.DivScalar(t))
    }
  }

  function Zero(): Pos { Pos(Vectors.Zero()) }

  /** The free constructor function `pos(x, y, z)` */
  function New(x: real, y: real, z: real): Pos { Pos(Vectors.New(x, y, z)) }

  function ScalarMul(t: real, p: Pos): Pos { Pos(Vectors.ScalarMul(t, p.v)) }

  method AddAssignDir(p: Pos, d: Dirs.Dir) returns (r: Pos)
    ensures r == p.AddDir(d)
  {
    var v := Vectors.AddAssign(p.v, d.v);
    r := Pos(v);
  }

  method SubAssignDir(p: Pos, d: Dirs.Dir) returns (r: Pos)
    ensures r == p.SubDir(d)
  {
    var v := Vectors.SubAssign(p.v, d.v);
    r := Pos(v);
  }

  method MulAssign(p: Pos, o: Pos) returns (r: Pos)
    ensures r == p.Mul(o)
  {
    var v := Vectors.MulAssign(p.v, o.v);
    r := Pos(v);
  }

  method DivAssign(p: Pos, o: Pos) returns (r: Pos)
    requires o.v.NonZero()
    ensures r == p.Div(o)
  {
    var v := Vectors.DivAssign(p.v, o.v);
    r := Pos(v);
  }

  method MulAssignScalar(p: Pos, t: real) returns (r: Pos)
    ensures r == p.MulScalar(t)
  {
    var v := Vectors.MulAssignScalar(p.v, t);
    r := Pos(v);
  }

  method DivAssignScalar(p: Pos, t: real) returns (r: Pos)
    requires t != 0.0
    ensures r == p.DivScalar(t)
  {
    var v := Vectors.DivAssignScalar(p.v, t);
    r := Pos(v);
  }

  /** `Pos::zero` is the origin. */
  lemma ZeroIsOrigin()
    ensures Zero() == New(0.0, 0.0, 0.0)
    ensures Zero().X() == 0.0 && Zero().Y() == 0.0 && Zero().Z() == 0.0
  {
  }

  /** The difference of two points is the direction of componentwise
      differences, and adding it back recovers the point. */
  lemma Displacement(p: Pos, q: Pos)
    ensures p.Sub(q) == Dirs.New(p.X() - q.X(), p.Y() - q.Y(), p.Z() - q.Z())
    ensures q.AddDir(p.Sub(q)) == p
    ensures p.Sub(p) == Dirs.Zero()
  {
  }

  /** Translating by a direction is componentwise and is undone by the
      opposite translation. */
  lemma TranslateRoundTrip(p: Pos, d: Dirs.Dir)
    ensures p.AddDir(d) == New(p.X() + d.X(), p.Y() + d.Y(), p.Z() + d.Z())
    ensures p.AddDir(d).SubDir(d) == p
    ensures p.SubDir(d).AddDir(d) == p
    ensures p.AddDir(d).Sub(p) == d
  {
  }

  /** Negating a point flips every component. */
  lemma NegFlips(p: Pos)
    ensures p.Neg() == New(-p.X(), -p.Y(), -p.Z())
  {
  }
}

=== FILE: quadratics.dfy ===
/** Real quadratics `a x² + 2 b x + c` with the half-coefficient `b`, as the
    ray-sphere intersection writes them: their roots and their order. */
module Quadratics {

  import Squares

  /** The near root `(-b - s) / a`, for `s` the square root of the
      discriminant */
  function Near(a: real, b: real, s: real): real
    requires a != 0.0
  {
    (-b - s) / a
  }

  /** The far root `(-b + s) / a` */
  function Far(a: real, b: real, s: real): real
    requires a != 0.0
  {
    (-b + s) / a
  }

  /** `a x² + 2 b x + c` */
  function Value(a: real, b: real, c: real, x: real): real
  {
    a * x * x + 2.0 * b * x + c
  }

  /** Completing the square: `a (a x² + 2 b x + c) = (a x + b)² - (b² - a c)` */
  lemma CompleteSquare(a: real, b: real, c: real, x: real)
    ensures a * Value(a, b, c, x) == (a * x + b) * (a * x + b) - (b * b - a * c)
  {
  }

  /** At either root, `a x + b` is `-s` or `s`. */
  lemma AtRoot(a: real, b: real, s: real, x: real)
    requires a != 0.0
    requires x == (-b - s) / a || x == (-b + s) / a
    ensures a * x + b == -s || a * x + b == s
  {
    if x == (-b - s) / a {
      calc { a * x + b; == a * ((-b - s) / a) + b; == (-b - s) + b; == -s; }
    } else {
      calc { a * x + b; == a * ((-b + s) / a) + b; == (-b + s) + b; == s; }
    }
  }

  /** Both candidates solve the quadratic when `s² = b² - a c`. */
  lemma RootsAreRoots(a: real, b: real, c: real, s: real, x: real)
    requires a != 0.0 && s * s == b * b - a * c
    requires x == Near(a, b, s) || x == Far(a, b, s)
    ensures Value(a, b, c, x) == 0.0
  {
    AtRoot(a, b, s, x);
    var y := a * x + b;
    assert y * y == s * s by {
      if y == s { } else { assert y == -s; calc { y * y; == (-s) * (-s); == s * s; } }
    }
    CompleteSquare(a, b, c, x);
    calc {
      a * Value(a, b, c, x);
    ==
      y * y - (b * b - a * c);
    ==
      s * s - s * s;
    ==
      0.0;
    }
    ZeroProduct(a, Value(a, b, c, x));
  }

  /** A product with a nonzero factor vanishes only when the other does. */
  lemma ZeroProduct(a: real, v: real)
    requires a != 0.0 && a * v == 0.0
    ensures v == 0.0
  {
    calc { v; == (a * v) / a; == 0.0 / a; == 0.0; }
  }

  /** Every solution of the quadratic is one of the two candidates. */
  lemma OnlyRoots(a: real, b: real, c: real, s: real, x: real)
    requires a != 0.0 && s >= 0.0 && s * s == b * b - a * c
    requires Value(a, b, c, x) == 0.0
    ensures x == Near(a, b, s) || x == Far(a, b, s)
  {
    var y := a * x + b;
    CompleteSquare(a, b, c, x);
    calc {
      y * y - s * s;
    ==
      y * y - (b * b - a * c);
    ==
      a * Value(a, b, c, x);
    ==
      a * 0.0;
    ==
      0.0;
    }
    calc { (y - s) * (y + s); == y * y - s * s; == 0.0; }
    if y - s == 0.0 {
      calc { x; == (y - b) / a; == (s - b) / a; == (-b + s) / a; }
    } else {
      ZeroProduct(y - s, y + s);
      calc { x; == (y - b) / a; == (-s - b) / a; == (-b - s) / a; }
    }
  }

  /** With a positive leading coefficient the near root comes first. */
  lemma NearBeforeFar(a: real, b: real, s: real)
    requires a > 0.0 && s >= 0.0
    ensures Near(a, b, s) <= Far(a, b, s)
  {
    calc {
      Far(a, b, s) - Near(a, b, s);
    ==
      ((-b + s) - (-b - s)) / a;
    ==
      (2.0 * s) / a;
    >=
      0.0;
    }
  }

  /** A negative discriminant leaves no real root. */
  lemma NoRootsWhenNegative(a: real, b: real, c: real, x: real)
    requires b * b - a * c < 0.0
    ensures Value(a, b, c, x) != 0.0
  {
    Squares.NonNegative(b, b * b);
    if a == 0.0 {
      assert false;
    } else {
      var y := a * x + b;
      Squares.NonNegative(y, y * y);
      CompleteSquare(a, b, c, x);
      calc {
        a * Value(a, b, c, x);
      ==
        y * y - (b * b - a * c);
      >
        0.0;
      }
    }
  }
}

=== FILE: ray.dfy ===
/** Rays (src/ray.rs): an origin, a direction and a shutter time. */
module Rays {

  import Vectors
  import Dirs
  import Positions

  datatype Ray = Ray(origin: Positions.Pos, direction: Dirs.Dir, time: real)
  {
    /** `origin + t * direction` */
    function PointAt(t: real): Positions.Pos
    {
      origin.AddDir(Dirs.ScalarMul(t, direction))
    }
  }

  /** `Ray::new` keeps its three arguments unchanged. */
  function New(a: Positions.Pos, b: Dirs.Dir, ti: real): (r: Ray)
    ensures r.origin == a && r.direction == b && r.time == ti
  {
    Ray(a, b, ti)
  }

  /** The point at parameter `t` lies `t` directions from the origin: the
      origin at 0, and moving on by `s` adds `s` directions. */
  lemma PointAtIsAffine(r: Ray, t: real, s: real)
    ensures r.PointAt(t).Sub(r.origin) == Dirs.ScalarMul(t, r.direction)
    ensures r.PointAt(0.0) == r.origin
    ensures r.PointAt(t + s) == r.PointAt(t).AddDir(Dirs.ScalarMul(s, r.direction))
  {
  }
}

=== FILE: scattering.dfy ===
/** The `Material` trait's `scatter` (src/material.rs), dispatched over the
    closed set of materials. The random draws each material consumes are
    parameters: `sample` for the unit-ball draw of the Lambertian and the
    metal, `draw` for the dielectric's reflect-or-refract choice. */
module Scattering {

  import Optional
  import Dirs
  import Rays
  import Hits
  import Perlin
  import Materials
  import Lambertians
  import Metals
  import Dielectrics

  /** `material.scatter(r_in, rec)`. A metal needs a nonzero incoming
      direction to normalise, and a dielectric needs a refractive index
      whose ratio and Schlick base are defined. */
  function Scatter(m: Materials.Material, rIn: Rays.Ray, rec: Hits.HitRecord, sample: Dirs.Dir, draw: real,
                   sqrt: real -> real, sin: real -> real, perlin: Perlin.PerlinData): (r: Optional.Option<Materials.Scatter>)
    requires perlin.Valid()
    requires !m.Lambertian? ==> rIn.direction.v.Length(sqrt) != 0.0
    requires m.Dielectric? ==> m.refIdx != 0.0 && 1.0 + m.refIdx != 0.0
    ensures r.None? <==> m.Metal? && Metals.Direction(m.fuzz, rIn, rec, sample, sqrt).Dot(rec.normal) <= 0.0
    ensures r.Some? ==> r.value.scattered.origin == rec.p
    ensures r.Some? && !m.Metal? ==> r.value.scattered.time == rIn.time
    ensures r.Some? && m.Metal? ==> r.value.attenuation == m.albedo
    ensures r.Some? && m.Dielectric? ==> r.value.attenuation == Dielectrics.White()
  {
    match m
    case Lambertian(texture) => Lambertians.Scatter(texture, rIn, rec, sample, sin, perlin)
    case Metal(albedo, fuzz) => Metals.Scatter(albedo, fuzz, rIn, rec, sample, sqrt)
    case Dielectric(refIdx) => Dielectrics.Scatter(refIdx, rIn, rec, draw, sqrt)
  }
}

=== FILE: sphere.dfy ===
/** Spheres (src/hitable/sphere.rs): the ray-sphere intersection with its
    choice between the two roots, the hit record and the bounding box. The
    intersection is written against a centre and a radius so that the moving
    sphere can reuse it with its centre at the ray's time. */
module Spheres {

  import Optional
  import Squares
  import Numerics
  import Quadratics
  import Vectors
  import Dirs
  import Positions
  import Rays
  import Materials
  import Hits
  import BoundingBoxes

  datatype Sphere = Sphere(center: Positions.Pos, radius: real, mat: Materials.Material)

  /** The coefficients of `a t² + 2 b t + c`, the squared distance of the
      ray point at `t` from the centre minus the squared radius */
  datatype Quadratic = Quadratic(a: real, b: real, c: real)

  function Coefficients(center: Positions.Pos, radius: real, ray: Rays.Ray): Quadratic
  {
    var oc := ray.origin.Sub(center);
    Quadratic(ray.direction.SquaredLength(), oc.Dot(ray.direction), oc.SquaredLength() - radius * radius)
  }

  /** `b² - a c` */
  function Discriminant(q: Quadratic): real
  {
    q.b * q.b - q.a * q.c
  }

  /** `sqrt` is exact at the discriminant whenever `hit` takes its square
      root, which it does only when the discriminant is positive */
  predicate ExactRoot(q: Quadratic, sqrt: real -> real)
  {
    Discriminant(q) > 0.0 ==> Numerics.SqrtAt(sqrt, Discriminant(q))
  }

  /** `hit_record`: the point at `t`, the normal `(p - center) / radius` and
      the material */
  function RecordAt(center: Positions.Pos, radius: real, mat: Materials.Material, ray: Rays.Ray, t: real): Hits.HitRecord
    requires radius != 0.0
  {
    var p := ray.PointAt(t);
    Hits.HitRecord(t, p, p.Sub(center).DivScalar(radius), mat)
  }

  /** A positive discriminant needs a moving ray and a nonzero radius: a
      zero direction makes `b` zero, and a zero radius makes the
      discriminant `(oc·d)² - |d|² |oc|²`, never positive. So `hit` never
      divides by zero. */
  lemma DiscriminantPositive(center: Positions.Pos, radius: real, ray: Rays.Ray)
    requires Discriminant(Coefficients(center, radius, ray)) > 0.0
    ensures Coefficients(center, radius, ray).a > 0.0 && radius != 0.0
  {
    var oc := ray.origin.Sub(center);
    DiscriminantSign(oc.v, ray.direction.v, radius);
  }

  lemma DiscriminantSign(u: Vectors.Vec3, d: Vectors.Vec3, radius: real)
    requires u.Dot(d) * u.Dot(d) - d.SquaredLength() * (u.SquaredLength() - radius * radius) > 0.0
    ensures d.SquaredLength() > 0.0 && radius != 0.0
  {
    Vectors.SquaredLengthNonNegative(d);
    Vectors.CauchySchwarz(u, d);
    ZeroDirection(u, d);
    SignOfDiscriminant(u.Dot(d), d.SquaredLength(), u.SquaredLength(), radius);
  }

  /** A direction of length zero has zero dot product with everything. */
  lemma ZeroDirection(u: Vectors.Vec3, d: Vectors.Vec3)
    ensures d.SquaredLength() == 0.0 ==> u.Dot(d) == 0.0
  {
    Vectors.SquaredLengthNonNegative(d);
    if d.SquaredLength() == 0.0 {
      assert d == Vectors.Zero();
      Vectors.DotZero(u);
    }
  }

  /** The real-number core of the above, with `b = u·d`, `a = |d|²` and
      `uu = |u|²` */
  lemma SignOfDiscriminant(b: real, a: real, uu: real, radius: real)
    requires b * b - a * (uu - radius * radius) > 0.0
    requires a >= 0.0 && (a == 0.0 ==> b == 0.0) && b * b <= uu * a
    ensures a > 0.0 && radius != 0.0
  {
    if a == 0.0 {
      StillRay(b, a, uu - radius * radius);
      assert false;
    }
    if radius == 0.0 {
      calc {
        b * b - a * (uu - radius * radius);
      ==
        b * b - a * uu;
      ==
        b * b - uu * a;
      <=
        0.0;
      }
      assert false;
    }
  }

  /** A ray that does not move meets no sphere transversally. */
  lemma StillRay(b: real, a: real, c: real)
    requires a == 0.0 && b == 0.0
    ensures b * b - a * c == 0.0
  {
    calc {
      b * b - a * c;
    ==
      0.0 * 0.0 - 0.0 * c;
    ==
      0.0;
    }
  }

  /** The near and far roots, when the discriminant is positive */
  function Roots(center: Positions.Pos, radius: real, ray: Rays.Ray, sqrt: real -> real): (real, real)
    requires Discriminant(Coefficients(center, radius, ray)) > 0.0
  {
    DiscriminantPositive(center, radius, ray);
    var q := Coefficients(center, radius, ray);
    var s := sqrt(Discriminant(q));
    (Quadratics.Near(q.a, q.b, s), Quadratics.Far(q.a, q.b, s))
  }

  /** `Sphere::hit` about `center`: with a positive discriminant, the near
      root if it is strictly inside the window, otherwise the far root if
      it is, otherwise nothing. */
  function HitAt(center: Positions.Pos, radius: real, mat: Materials.Material, ray: Rays.Ray, tMin: real, tMax: real, sqrt: real -> real): (r: Optional.Option<Hits.HitRecord>)
    ensures Discriminant(Coefficients(center, radius, ray)) <= 0.0 ==> r.None?
    ensures r.Some? <==> (Discriminant(Coefficients(center, radius, ray)) > 0.0
      && (tMin < Roots(center, radius, ray, sqrt).0 < tMax || tMin < Roots(center, radius, ray, sqrt).1 < tMax))
    ensures r.Some? ==> tMin < r.value.t < tMax
    ensures r.Some? ==> radius != 0.0 && r.value == RecordAt(center, radius, mat, ray, r.value.t)
    ensures r.Some? ==> (r.value.t == Roots(center, radius, ray, sqrt).0
      || (r.value.t == Roots(center, radius, ray, sqrt).1 && !(tMin < Roots(center, radius, ray, sqrt).0 < tMax)))
  {
    var q := Coefficients(center, radius, ray);
    var discriminant := Discriminant(q);
    if discriminant > 0.0 then
      DiscriminantPositive(center, radius, ray);
      var t := (-q.b - sqrt(discriminant)) / q.a;
      if tMin < t && t < tMax then
        Optional.Some(RecordAt(center, radius, mat, ray, t))
      else
        var t := (-q.b + sqrt(discriminant)) / q.a;
        if tMin < t && t < tMax then
          Optional.Some(RecordAt(center, radius, mat, ray, t))
        else
          Optional.None
    else
      Optional.None
  }

  function Hit(s: Sphere, ray: Rays.Ray, tMin: real, tMax: real, sqrt: real -> real): Optional.Option<Hits.HitRecord>
  {
    HitAt(s.center, s.radius, s.mat, ray, tMin, tMax, sqrt)
  }

  /** `Sphere::bounding_box`: the centre plus and minus the radius on every
      axis */
  function BoundingBox(s: Sphere): BoundingBoxes.BoundingBox
  {
    var halfDiag := Dirs.New(s.radius, s.radius, s.radius);
    BoundingBoxes.BoundingBox(s.center.SubDir(halfDiag), s.center.AddDir(halfDiag))
  }

  /** The squared distance from the centre of the ray point at `t`, less the
      squared radius, is the quadratic at `t`. */
  lemma DistanceAlongRay(center: Positions.Pos, radius: real, ray: Rays.Ray, t: real)
    ensures var q := Coefficients(center, radius, ray);
      ray.PointAt(t).Sub(center).SquaredLength() - radius * radius == Quadratics.Value(q.a, q.b, q.c, t)
  {
    var u := ray.origin.Sub(center).v;
    var d := ray.direction.v;
    var q := Coefficients(center, radius, ray);
    OffsetAlongRay(center, ray, t);
    QuadraticAlong(u, d, t);
    var w := Vectors.Vec3(u.e0 + t * d.e0, u.e1 + t * d.e1, u.e2 + t * d.e2);
    calc {
      ray.PointAt(t).Sub(center).SquaredLength() - radius * radius;
    ==
      w.SquaredLength() - radius * radius;
    ==
      d.SquaredLength() * t * t + 2.0 * u.Dot(d) * t + u.SquaredLength() - radius * radius;
    ==
      q.a * t * t + 2.0 * q.b * t + q.c;
    ==
      Quadratics.Value(q.a, q.b, q.c, t);
    }
  }

  /** The offset from the centre of the ray point at `t` is `oc + t d`. */
  lemma OffsetAlongRay(center: Positions.Pos, ray: Rays.Ray, t: real)
    ensures var u := ray.origin.Sub(center).v;
      var d := ray.direction.v;
      ray.PointAt(t).Sub(center).v == Vectors.Vec3(u.e0 + t * d.e0, u.e1 + t * d.e1, u.e2 + t * d.e2)
  {
    var o, c, d := ray.origin.v, center.v, ray.direction.v;
    var w := ray.PointAt(t).Sub(center).v;
    assert w.e0 == (o.e0 + t * d.e0) - c.e0;
    assert w.e1 == (o.e1 + t * d.e1) - c.e1;
    assert w.e2 == (o.e2 + t * d.e2) - c.e2;
  }

  /** `|u + t d|² = |d|² t² + 2 (u·d) t + |u|²` */
  lemma QuadraticAlong(u: Vectors.Vec3, d: Vectors.Vec3, t: real)
    ensures Vectors.Vec3(u.e0 + t * d.e0, u.e1 + t * d.e1, u.e2 + t * d.e2).SquaredLength()
      == d.SquaredLength() * t * t + 2.0 * u.Dot(d) * t + u.SquaredLength()
  {
    ExpandAlong(u.e0, u.e1, u.e2, d.e0, d.e1, d.e2, t);
  }

  lemma ExpandSquare(u: real, d: real, t: real)
    ensures (u + t * d) * (u + t * d) == u * u + 2.0 * (u * d) * t + (d * d) * t * t
  {
  }

  lemma ExpandAlong(u0: real, u1: real, u2: real, d0: real, d1: real, d2: real, t: real)
    ensures (u0 + t * d0) * (u0 + t * d0) + (u1 + t * d1) * (u1 + t * d1) + (u2 + t * d2) * (u2 + t * d2)
         == (d0 * d0 + d1 * d1 + d2 * d2) * t * t + 2.0 * (u0 * d0 + u1 * d1 + u2 * d2) * t + (u0 * u0 + u1 * u1 + u2 * u2)
  {
    ExpandSquare(u0, d0, t);
    ExpandSquare(u1, d1, t);
    ExpandSquare(u2, d2, t);
    calc {
      (d0 * d0 + d1 * d1 + d2 * d2) * t * t;
    ==
      (d0 * d0) * t * t + (d1 * d1) * t * t + (d2 * d2) * t * t;
    }
    calc {
      2.0 * (u0 * d0 + u1 * d1 + u2 * d2) * t;
    ==
      2.0 * (u0 * d0) * t + 2.0 * (u1 * d1) * t + 2.0 * (u2 * d2) * t;
    }
  }

  /** In exact arithmetic a returned hit lies on the sphere:
      `|p - center|² = radius²`. */
  lemma HitOnSurface(center: Positions.Pos, radius: real, mat: Materials.Material, ray: Rays.Ray, tMin: real, tMax: real, sqrt: real -> real)
    requires ExactRoot(Coefficients(center, radius, ray), sqrt)
    requires HitAt(center, radius, mat, ray, tMin, tMax, sqrt).Some?
    ensures var rec := HitAt(center, radius, mat, ray, tMin, tMax, sqrt).value;
      rec.p.Sub(center).SquaredLength() == radius * radius
  {
    var rec := HitAt(center, radius, mat, ray, tMin, tMax, sqrt).value;
    var q := Coefficients(center, radius, ray);
    DiscriminantPositive(center, radius, ray);
    var s := sqrt(Discriminant(q));
    Quadratics.RootsAreRoots(q.a, q.b, q.c, s, rec.t);
    DistanceAlongRay(center, radius, ray, rec.t);
  }

  /** The returned time is the earliest time within the window at which the
      ray is on the sphere. */
  lemma HitIsEarliest(center: Positions.Pos, radius: real, mat: Materials.Material, ray: Rays.Ray, tMin: real, tMax: real, sqrt: real -> real, x: real)
    requires ExactRoot(Coefficients(center, radius, ray), sqrt)
    requires HitAt(center, radius, mat, ray, tMin, tMax, sqrt).Some?
    requires tMin < x < tMax && ray.PointAt(x).Sub(center).SquaredLength() == radius * radius
    ensures HitAt(center, radius, mat, ray, tMin, tMax, sqrt).value.t <= x
  {
    var q := Coefficients(center, radius, ray);
    DiscriminantPositive(center, radius, ray);
    var s := sqrt(Discriminant(q));
    DistanceAlongRay(center, radius, ray, x);
    Quadratics.OnlyRoots(q.a, q.b, q.c, s, x);
    Quadratics.NearBeforeFar(q.a, q.b, s);
  }

  /** A miss means no time in the window puts the ray on the sphere, except
      that a tangent ray (zero discriminant) is always a miss. */
  lemma MissIsMiss(center: Positions.Pos, radius: real, mat: Materials.Material, ray: Rays.Ray, tMin: real, tMax: real, sqrt: real -> real, x: real)
    requires ExactRoot(Coefficients(center, radius, ray), sqrt)
    requires HitAt(center, radius, mat, ray, tMin, tMax, sqrt).None?
    requires Discriminant(Coefficients(center, radius, ray)) != 0.0
    requires tMin < x < tMax
    ensures ray.PointAt(x).Sub(center).SquaredLength() != radius * radius
  {
    var q := Coefficients(center, radius, ray);
    DistanceAlongRay(center, radius, ray, x);
    if Discriminant(q) < 0.0 {
      Quadratics.NoRootsWhenNegative(q.a, q.b, q.c, x);
    } else {
      DiscriminantPositive(center, radius, ray);
      var s := sqrt(Discriminant(q));
      if Quadratics.Value(q.a, q.b, q.c, x) == 0.0 {
        Quadratics.OnlyRoots(q.a, q.b, q.c, s, x);
        assert false;
      }
    }
  }

  /** The box is ordered on every axis exactly when the radius is
      nonnegative, and solid exactly when it is positive. */
  lemma BoxOrientation(s: Sphere)
    ensures (forall i :: 0 <= i < 3 ==> BoundingBoxes.Coord(BoundingBox(s).min, i) <= BoundingBoxes.Coord(BoundingBox(s).max, i))
      <==> s.radius >= 0.0
    ensures BoundingBoxes.Solid(BoundingBox(s)) <==> s.radius > 0.0
  {
    var b := BoundingBox(s);
    assert BoundingBoxes.Coord(b.min, 0) == s.center.X() - s.radius;
    assert BoundingBoxes.Coord(b.max, 0) == s.center.X() + s.radius;
  }

  /** Every hit of a sphere with a nonnegative radius lies in its box. */
  lemma HitInsideBox(s: Sphere, ray: Rays.Ray, tMin: real, tMax: real, sqrt: real -> real)
    requires s.radius >= 0.0
    requires ExactRoot(Coefficients(s.center, s.radius, ray), sqrt)
    requires Hit(s, ray, tMin, tMax, sqrt).Some?
    ensures BoundingBoxes.Inside(BoundingBox(s), Hit(s, ray, tMin, tMax, sqrt).value.p)
  {
    var rec := Hit(s, ray, tMin, tMax, sqrt).value;
    HitOnSurface(s.center, s.radius, s.mat, ray, tMin, tMax, sqrt);
    var v := rec.p.Sub(s.center);
    Vectors.SquaredLengthNonNegative(v.v);
    var x, y, z := v.X(), v.Y(), v.Z();
    Squares.NonNegative(x, x * x);
    Squares.NonNegative(y, y * y);
    Squares.NonNegative(z, z * z);
    calc { x * x; <= x * x + y * y + z * z; == s.radius * s.radius; }
    calc { y * y; <= x * x + y * y + z * z; == s.radius * s.radius; }
    calc { z * z; <= x * x + y * y + z * z; == s.radius * s.radius; }
    Numerics.SquareBound(x, s.radius);
    Numerics.SquareBound(y, s.radius);
    Numerics.SquareBound(z, s.radius);
  }

  /** Asking again with an earlier upper bound `bound` gives the same hit
      when it is earlier than `bound`, and no hit otherwise: the answer is
      the earliest root in the window, so narrowing the window cannot
      uncover another one. */
  lemma Narrowing(center: Positions.Pos, radius: real, mat: Materials.Material, ray: Rays.Ray, tMin: real, tMax: real, bound: real, sqrt: real -> real)
    requires ExactRoot(Coefficients(center, radius, ray), sqrt)
    requires tMin < bound <= tMax
    ensures var wide := HitAt(center, radius, mat, ray, tMin, tMax, sqrt);
      HitAt(center, radius, mat, ray, tMin, bound, sqrt)
        == if wide.Some? && wide.value.t < bound then wide else Optional.None
  {
    var q := Coefficients(center, radius, ray);
    if Discriminant(q) > 0.0 {
      DiscriminantPositive(center, radius, ray);
      Quadratics.NearBeforeFar(q.a, q.b, sqrt(Discriminant(q)));
    }
  }
}

=== FILE: squares.dfy ===
/** Sign facts about squares of reals, kept in a module of their own so
    that their proofs see no other definitions. */
module Squares {

  /** A square is never negative. */
  lemma NonNegative(x: real, y: real)
    requires y == x * x
    ensures y >= 0.0
  {
  }

  /** The square of a nonzero number is positive. The solver does not
      combine the equation with the product on its own, so the chain is
      spelled out step by step. */
  lemma Positive(x: real, y: real)
    requires x != 0.0 && y == x * x
    ensures y > 0.0
  {
    calc {
      y;
    ==
      x * x;
    >
      0.0;
    }
  }
}

=== FILE: stats.dfy ===
/** Instrumentation counters (src/hitable/stats.rs:1-44): per category, the
    number of hit and miss probes. Counts are unbounded naturals. */
module Counters {

  datatype Record = Record(hits: nat, misses: nat)

  /** `Stats<C>`: a record per category seen so far */
  datatype Stats<C(==)> = Stats(byCategory: map<C, Record>)

  /** The per-category sum of two records */
  function Add(a: Record, b: Record): Record
  {
    Record(a.hits + b.hits, a.misses + b.misses)
  }

  /** `Stats::new`: no category has a record */
  function New<C(==)>(): (s: Stats<C>)
    ensures forall c :: c !in s.byCategory
  {
    Stats(map[])
  }

  /** The record of `c`, a zero record when `c` has none yet, as `entry`
      inserts */
  function Entry<C(==)>(s: Stats<C>, c: C): Record
  {
    if c in s.byCategory then s.byCategory[c] else Record(0, 0)
  }

  /** `Stats::hit`: one more hit for `cat`; `cat` gets a record, and every
      other count is unchanged. */
  function Hit<C(==)>(s: Stats<C>, cat: C): (r: Stats<C>)
    ensures r.byCategory.Keys == s.byCategory.Keys + {cat}
    ensures Entry(r, cat) == Record(Entry(s, cat).hits + 1, Entry(s, cat).misses)
    ensures forall c :: c in s.byCategory && c != cat ==> r.byCategory[c] == s.byCategory[c]
  {
    var e := Entry(s, cat);
    Stats(s.byCategory[cat := Record(e.hits + 1, e.misses)])
  }

  /** `Stats::miss`: one more miss for `cat`; nothing else changes. */
  function Miss<C(==)>(s: Stats<C>, cat: C): (r: Stats<C>)
    ensures r.byCategory.Keys == s.byCategory.Keys + {cat}
    ensures Entry(r, cat) == Record(Entry(s, cat).hits, Entry(s, cat).misses + 1)
    ensures forall c :: c in s.byCategory && c != cat ==> r.byCategory[c] == s.byCategory[c]
  {
    var e := Entry(s, cat);
    Stats(s.byCategory[cat := Record(e.hits, e.misses + 1)])
  }

  /** `a += b`, all at once: categories of `a` alone keep their records,
      categories of `b` alone are inserted with theirs, and shared
      categories add up. */
  function Merge<C(==)>(a: Stats<C>, b: Stats<C>): (r: Stats<C>)
    ensures r.byCategory.Keys == a.byCategory.Keys + b.byCategory.Keys
    ensures forall c :: c in a.byCategory && c !in b.byCategory ==> r.byCategory[c] == a.byCategory[c]
    ensures forall c :: c !in a.byCategory && c in b.byCategory ==> r.byCategory[c] == b.byCategory[c]
    ensures forall c :: c in a.byCategory && c in b.byCategory ==>
      r.byCategory[c] == Add(a.byCategory[c], b.byCategory[c])
  {
    Stats(map c | c in a.byCategory.Keys + b.byCategory.Keys :: Add(Entry(a, c), Entry(b, c)))
  }

  /** The records of `b` restricted to the categories in `done` */
  function Restrict<C(==)>(b: Stats<C>, done: set<C>): Stats<C>
  {
    Stats(map c | c in b.byCategory && c in done :: b.byCategory[c])
  }

  /** `AddAssign for Stats`: the loop over the records of `b`, in whatever
      order the hash map yields them, adding each into its entry of `a`. */
  method AddAssign<C(==)>(a: Stats<C>, b: Stats<C>) returns (r: Stats<C>)
    ensures r == Merge(a, b)
  {
    r := a;
    var todo := b.byCategory.Keys;
    ghost var done: set<C> := {};
    while todo != {}
      invariant todo + done == b.byCategory.Keys && todo !! done
      invariant r == Merge(a, Restrict(b, done))
      decreases todo
    {
      var c :| c in todo;
      var e := Entry(r, c);
      var rec := b.byCategory[c];
      MergeStep(a, b, done, c);
      r := Stats(r.byCategory[c := Add(e, rec)]);
      todo := todo - {c};
      done := done + {c};
    }
    assert Restrict(b, done) == b;
  }

  /** Adding the record of one more category of `b` into the merge with the
      categories done so far gives the merge with that category done too. */
  lemma MergeStep<C>(a: Stats<C>, b: Stats<C>, done: set<C>, c: C)
    requires c in b.byCategory && c !in done
    ensures var r := Merge(a, Restrict(b, done));
      Merge(a, Restrict(b, done + {c})) == Stats(r.byCategory[c := Add(Entry(r, c), b.byCategory[c])])
  {
    var r := Merge(a, Restrict(b, done));
    var lhs := Merge(a, Restrict(b, done + {c})).byCategory;
    var rhs := r.byCategory[c := Add(Entry(r, c), b.byCategory[c])];
    assert lhs.Keys == rhs.Keys;
    forall k | k in lhs
      ensures lhs[k] == rhs[k]
    {
    }
    assert lhs == rhs;
  }

  /** Merging with no records changes nothing, on either side. */
  lemma MergeIdentity<C>(s: Stats<C>)
    ensures Merge(s, New()) == s && Merge(New(), s) == s
  {
  }

  /** The merged counts do not depend on the order of the operands. */
  lemma MergeCommutes<C>(a: Stats<C>, b: Stats<C>)
    ensures Merge(a, b) == Merge(b, a)
  {
  }

  /** The merged counts do not depend on how the merges are grouped. */
  lemma MergeAssociates<C>(a: Stats<C>, b: Stats<C>, c: Stats<C>)
    ensures Merge(Merge(a, b), c) == Merge(a, Merge(b, c))
  {
  }

  /** Counting a hit and a miss commute with each other. */
  lemma HitMissCommute<C>(s: Stats<C>, x: C, y: C)
    ensures Hit(Miss(s, y), x) == Miss(Hit(s, x), y)
  {
  }
}

=== FILE: texture.dfy ===
/** Textures (src/texture.rs): colour as a function of surface coordinates
    `(u, v)` and hit point `p`. The trait objects become a closed datatype. */
module Textures {

  import Positions
  import Colours
  import Perlin

  datatype Texture =
    | Constant(colour: Colours.Col)
    | Checker(odd: Texture, even: Texture)
    | Noise(scale: real)

  /** `p.iter().map(|p| (10. * p).sin()).product()`: the product starts at
      one and multiplies in x, y, z order */
  function Sines(sin: real -> real, p: Positions.Pos): real
  {
    1.0 * sin(10.0 * p.X()) * sin(10.0 * p.Y()) * sin(10.0 * p.Z())
  }

  /** `Texture::value`. `sin` is the library sine; `perlin` holds the noise
      tables the static initialiser builds. */
  function Value(t: Texture, u: real, v: real, p: Positions.Pos, sin: real -> real, perlin: Perlin.PerlinData): Colours.Col
    requires perlin.Valid()
  {
    match t
    case Constant(colour) => colour
    case Checker(odd, even) => if Sines(sin, p) < 0.0 then Value(odd, u, v, p, sin, perlin) else Value(even, u, v, p, sin, perlin)
    case Noise(scale) => Perlin.NoiseValue(perlin, scale, p)
  }

  /** A constant texture ignores where it is sampled. */
  lemma ConstantEverywhere(c: Colours.Col, u: real, v: real, p: Positions.Pos, u': real, v': real, p': Positions.Pos, sin: real -> real, perlin: Perlin.PerlinData)
    requires perlin.Valid()
    ensures Value(Constant(c), u, v, p, sin, perlin) == c
    ensures Value(Constant(c), u, v, p, sin, perlin) == Value(Constant(c), u', v', p', sin, perlin)
  {
  }

  /** The checker picks `odd` exactly when an odd number of the three sines
      is negative and none is zero; a zero sine picks `even`. Either way the
      chosen texture is sampled at the same `u, v, p`. */
  lemma CheckerParity(odd: Texture, even: Texture, u: real, v: real, p: Positions.Pos, sin: real -> real, perlin: Perlin.PerlinData)
    requires perlin.Valid()
    ensures var s0, s1, s2 := sin(10.0 * p.X()), sin(10.0 * p.Y()), sin(10.0 * p.Z());
      var negatives := (if s0 < 0.0 then 1 else 0) + (if s1 < 0.0 then 1 else 0) + (if s2 < 0.0 then 1 else 0);
      Value(Checker(odd, even), u, v, p, sin, perlin) ==
        if s0 != 0.0 && s1 != 0.0 && s2 != 0.0 && negatives % 2 == 1
        then Value(odd, u, v, p, sin, perlin)
        else Value(even, u, v, p, sin, perlin)
  {
    ProductSign(sin(10.0 * p.X()), sin(10.0 * p.Y()), sin(10.0 * p.Z()));
  }

  /** The sign of a product of three factors. */
  lemma ProductSign(a: real, b: real, c: real)
    ensures var negatives := (if a < 0.0 then 1 else 0) + (if b < 0.0 then 1 else 0) + (if c < 0.0 then 1 else 0);
      (1.0 * a * b * c < 0.0) == (a != 0.0 && b != 0.0 && c != 0.0 && negatives % 2 == 1)
  {
    if a == 0.0 || b == 0.0 || c == 0.0 {
    } else if a > 0.0 && b > 0.0 {
      if c > 0.0 { Positive3(a, b, c); } else { Positive3(a, b, -c); }
    } else if a > 0.0 {
      if c > 0.0 { Positive3(a, -b, c); } else { Positive3(a, -b, -c); }
    } else if b > 0.0 {
      if c > 0.0 { Positive3(-a, b, c); } else { Positive3(-a, b, -c); }
    } else {
      if c > 0.0 { Positive3(-a, -b, c); } else { Positive3(-a, -b, -c); }
    }
  }

  lemma Positive3(a: real, b: real, c: real)
    requires a > 0.0 && b > 0.0 && c > 0.0
    ensures a * b * c > 0.0
  {
    assert a * b > 0.0;
  }

  /** A checker whose two squares are the same texture is that texture. */
  lemma CheckerOfOne(t: Texture, u: real, v: real, p: Positions.Pos, sin: real -> real, perlin: Perlin.PerlinData)
    requires perlin.Valid()
    ensures Value(Checker(t, t), u, v, p, sin, perlin) == Value(t, u, v, p, sin, perlin)
  {
  }
}

=== FILE: vec3.dfy ===
/** Three-component vectors (src/vec3.rs): the representation shared by
    positions, directions and colours. Components are `real`; rounding,
    infinities and NaN of `f32` are not represented. */
module Vectors {

  import Numerics

  datatype Vec3 = Vec3(e0: real, e1: real, e2: real)
  {
    /** Component `i`, as `Index<usize>` */
    function At(i: nat): real
      requires i < 3
    {
      if i == 0 then e0 else if i == 1 then e1 else e2
    }

    /** This vector with component `i` replaced by `x`, as `IndexMut<usize>` */
    function With(i: nat, x: real): Vec3
      requires i < 3
    {
      if i == 0 then Vec3(x, e1, e2) else if i == 1 then Vec3(e0, x, e2) else Vec3(e0, e1, x)
    }

    /** Sum of the componentwise products, accumulated from 0 */
    function Dot(o: Vec3): real
    {
      0.0 + e0 * o.e0 + e1 * o.e1 + e2 * o.e2
    }

    function Cross(o: Vec3): Vec3
    {
      Vec3(e1 * o.e2 - e2 * o.e1, e2 * o.e0 - e0 * o.e2, e0 * o.e1 - e1 * o.e0)
    }

    function SquaredLength(): real
    {
      Dot(this)
    }

    function Length(sqrt: real -> real): real
    {
      sqrt(SquaredLength())
    }

    /** Negation is multiplication by -1 */
    function Neg(): Vec3
    {
      MulScalar(-1.0)
    }

    function Add(o: Vec3): Vec3
    {
      Vec3(e0 + o.e0, e1 + o.e1, e2 + o.e2)
    }

    function Sub(o: Vec3): Vec3
    {
      Vec3(e0 - o.e0, e1 - o.e1, e2 - o.e2)
    }

    /** Componentwise product */
    function Mul(o: Vec3): Vec3
    {
      Vec3(e0 * o.e0, e1 * o.e1, e2 * o.e2)
    }

    /** Componentwise quotient */
    function Div(o: Vec3): Vec3
      requires o.NonZero()
    {
      Vec3(e0 / o.e0, e1 / o.e1, e2 / o.e2)
    }

    /** `Vec3 * Float` */
    function MulScalar(t: real): Vec3
    {
      Vec3(e0 * t, e1 * t, e2 * t)
    }

    /** `Vec3 / Float` */
    function DivScalar(t: real): Vec3
      requires t != 0.0
    {
      Vec3(e0 / t, e1 / t, e2 / t)
    }

    /** Division by the length, as `make_unit_vector` does in place */
    function UnitVector(sqrt: real -> real): Vec3
      requires Length(sqrt) != 0.0
    {
      DivScalar(Length(sqrt))
    }

    /** No component is zero, so componentwise division is defined */
    predicate NonZero()
    {
      e0 != 0.0 && e1 != 0.0 && e2 != 0.0
    }
  }

  function Zero(): Vec3
  {
    Vec3(0.0, 0.0, 0.0)
  }

  function New(e0: real, e1: real, e2: real): Vec3
  {
    Vec3(e0, e1, e2)
  }

  /** `Float * Vec3` */
  function ScalarMul(t: real, v: Vec3): Vec3
  {
    Vec3(t * v.e0, t * v.e1, t * v.e2)
  }

  // The compound assignment operators walk the components in a loop, as the
  // source does; each is proved to agree with its binary form.

  method AddAssign(v: Vec3, o: Vec3) returns (r: Vec3)
    ensures r == v.Add(o)
  {
    r := v;
    var k := 0;
    while k < 3
      invariant 0 <= k <= 3
      invariant forall j :: 0 <= j < 3 ==> r.At(j) == if j < k then v.At(j) + o.At(j) else v.At(j)
    {
      r := r.With(k, r.At(k) + o.At(k));
      k := k + 1;
    }
    assert r.At(0) == v.Add(o).At(0) && r.At(1) == v.Add(o).At(1) && r.At(2) == v.Add(o).At(2);
  }

  method SubAssign(v: Vec3, o: Vec3) returns (r: Vec3)
    ensures r == v.Sub(o)
  {
    r := v;
    var k := 0;
    while k < 3
      invariant 0 <= k <= 3
      invariant forall j :: 0 <= j < 3 ==> r.At(j) == if j < k then v.At(j) - o.At(j) else v.At(j)
    {
      r := r.With(k, r.At(k) - o.At(k));
      k := k + 1;
    }
    assert r.At(0) == v.Sub(o).At(0) && r.At(1) == v.Sub(o).At(1) && r.At(2) == v.Sub(o).At(2);
  }

  method MulAssign(v: Vec3, o: Vec3) returns (r: Vec3)
    ensures r == v.Mul(o)
  {
    r := v;
    var k := 0;
    while k < 3
      invariant 0 <= k <= 3
      invariant forall j :: 0 <= j < 3 ==> r.At(j) == if j < k then v.At(j) * o.At(j) else v.At(j)
    {
      r := r.With(k, r.At(k) * o.At(k));
      k := k + 1;
    }
    assert r.At(0) == v.Mul(o).At(0) && r.At(1) == v.Mul(o).At(1) && r.At(2) == v.Mul(o).At(2);
  }

  method DivAssign(v: Vec3, o: Vec3) returns (r: Vec3)
    requires o.NonZero()
    ensures r == v.Div(o)
  {
    r := v;
    var k := 0;
    while k < 3
      invariant 0 <= k <= 3
      invariant forall j :: 0 <= j < 3 ==> r.At(j) == if j < k then v.At(j) / o.At(j) else v.At(j)
    {
      r := r.With(k, r.At(k) / o.At(k));
      k := k + 1;
    }
    assert r.At(0) == v.Div(o).At(0) && r.At(1) == v.Div(o).At(1) && r.At(2) == v.Div(o).At(2);
  }

  method MulAssignScalar(v: Vec3, t: real) returns (r: Vec3)
    ensures r == v.MulScalar(t)
  {
    r := v;
    var k := 0;
    while k < 3
      invariant 0 <= k <= 3
      invariant forall j :: 0 <= j < 3 ==> r.At(j) == if j < k then v.At(j) * t else v.At(j)
    {
      r := r.With(k, r.At(k) * t);
      k := k + 1;
    }
    assert r.At(0) == v.MulScalar(t).At(0) && r.At(1) == v.MulScalar(t).At(1) && r.At(2) == v.MulScalar(t).At(2);
  }

  method DivAssignScalar(v: Vec3, t: real) returns (r: Vec3)
    requires t != 0.0
    ensures r == v.DivScalar(t)
  {
    r := v;
    var k := 0;
    while k < 3
      invariant 0 <= k <= 3
      invariant forall j :: 0 <= j < 3 ==> r.At(j) == if j < k then v.At(j) / t else v.At(j)
    {
      r := r.With(k, r.At(k) / t);
      k := k + 1;
    }
    assert r.At(0) == v.DivScalar(t).At(0) && r.At(1) == v.DivScalar(t).At(1) && r.At(2) == v.DivScalar(t).At(2);
  }

  // Properties of the vector algebra

  /** `zero` and `new` store their components in order (tests `test_zero`, `test_new`). */
  lemma ZeroAndNew(a: real, b: real, c: real)
    ensures Zero().At(0) == 0.0 && Zero().At(1) == 0.0 && Zero().At(2) == 0.0
    ensures New(a, b, c).At(0) == a && New(a, b, c).At(1) == b && New(a, b, c).At(2) == c
  {
  }

  /** The worked example of `test_dot`. */
  lemma DotExample()
    ensures New(1.0, 2.0, 3.0).Dot(New(4.0, 5.0, 6.0)) == 32.0
  {
  }

  /** x × y = z (test `test_cross`). */
  lemma CrossXY()
    ensures New(1.0, 0.0, 0.0).Cross(New(0.0, 1.0, 0.0)) == New(0.0, 0.0, 1.0)
  {
  }

  /** y × z = x (test `test_cross`). */
  lemma CrossYZ()
    ensures New(0.0, 1.0, 0.0).Cross(New(0.0, 0.0, 1.0)) == New(1.0, 0.0, 0.0)
  {
  }

  /** z × x = y (test `test_cross`). */
  lemma CrossZX()
    ensures New(0.0, 0.0, 1.0).Cross(New(1.0, 0.0, 0.0)) == New(0.0, 1.0, 0.0)
  {
  }

  /** The cross product is anticommutative and orthogonal to both factors. */
  lemma CrossAnticommutesAndIsOrthogonal(a: Vec3, b: Vec3)
    ensures b.Cross(a) == a.Cross(b).Neg()
    ensures a.Dot(a.Cross(b)) == 0.0 && b.Dot(a.Cross(b)) == 0.0
  {
  }

  /** The squared length is the self dot product, is never negative, and is
      zero exactly for the zero vector. */
  lemma SquaredLengthNonNegative(v: Vec3)
    ensures v.SquaredLength() == v.e0 * v.e0 + v.e1 * v.e1 + v.e2 * v.e2
    ensures v.SquaredLength() >= 0.0
    ensures v.SquaredLength() == 0.0 <==> v == Zero()
  {
    Numerics.SumOfSquaresSign(v.e0, v.e1, v.e2);
  }

  /** Negation flips every component (test `test_neg`). */
  lemma NegFlips(v: Vec3)
    ensures v.Neg() == Vec3(-v.e0, -v.e1, -v.e2)
    ensures v.Neg().Neg() == v
  {
  }

  /** Subtraction undoes addition, and both are componentwise. */
  lemma AddSubRoundTrip(v: Vec3, w: Vec3)
    ensures v.Add(w).Sub(w) == v
    ensures v.Sub(w).Add(w) == v
    ensures forall i :: 0 <= i < 3 ==> v.Add(w).At(i) == v.At(i) + w.At(i) && v.Sub(w).At(i) == v.At(i) - w.At(i)
  {
  }

  /** Scaling on either side agrees, and `/ t` undoes `* t`. */
  lemma ScalarSidesAgree(v: Vec3, t: real)
    ensures ScalarMul(t, v) == v.MulScalar(t)
    ensures t != 0.0 ==> v.MulScalar(t).DivScalar(t) == v
  {
  }

  /** The dot product is symmetric and bilinear. */
  lemma DotBilinear(a: Vec3, b: Vec3, c: Vec3, t: real)
    ensures a.Dot(b) == b.Dot(a)
    ensures a.Add(b).Dot(c) == a.Dot(c) + b.Dot(c)
    ensures a.Sub(b).Dot(c) == a.Dot(c) - b.Dot(c)
    ensures ScalarMul(t, a).Dot(b) == t * a.Dot(b)
  {
  }

  /** Lagrange's identity: |a|²|b|² = (a·b)² + |a×b|², hence Cauchy–Schwarz. */
  lemma CauchySchwarz(a: Vec3, b: Vec3)
    ensures a.Dot(b) * a.Dot(b) <= a.SquaredLength() * b.SquaredLength()
  {
    var c := a.Cross(b);
    assert a.SquaredLength() * b.SquaredLength() == a.Dot(b) * a.Dot(b) + c.SquaredLength();
    SquaredLengthNonNegative(c);
  }

  /** The dot product with the zero vector is zero. */
  lemma DotZero(u: Vec3)
    ensures u.Dot(Zero()) == 0.0
  {
    calc {
      u.Dot(Zero());
    ==
      0.0 + u.e0 * 0.0 + u.e1 * 0.0 + u.e2 * 0.0;
    ==
      0.0;
    }
  }

  /** Dividing a vector by `t` divides its dot products by `t`. */
  lemma DivScalarDot(v: Vec3, w: Vec3, t: real)
    requires t != 0.0
    ensures v.DivScalar(t).Dot(w) == v.Dot(w) / t
  {
  }
}
